=== FILE: README.md ===
# doc-helper, modelled in Dafny

doc-helper is a VS Code extension that keeps a TypeScript/JavaScript project's
sources and their markdown documentation in step. Each source `src/x.ts` has a
doc `docs/x.md`. This project models the extension's logic as pure Dafny
functions and proves properties of them:

- the `doch` command line, which records which sources are documented in
  `.doch/metadata/doc-state.json`;
- the "Documentation Status" tree, which sorts every workspace file into
  Undocumented, Out-of-date, Documented, No Source or Independent Markdown;
- the heading-numbering checker: its diagnostics, quick fixes, renumbering and
  ignore list;
- the missing-documentation check and its inserted section templates;
- inline suggestions, and the links from a doc's words to the source symbols
  they name;
- the generate-documentation command;
- the to-do list: the store of tasks, their sorted tree and the add, edit and
  sort commands;
- the commit history view's parsing of `git log`;
- the chat panel's HTML escaping and code-block formatting.

Everything the extension reads from outside is an input to the model. That
covers the file system, clocks, VS Code's symbol and definition providers,
the language model, the user's answers to prompts, and the output of `git`.
A file system is a set of workspace-relative paths. A clock is a function
from the loop iteration to a millisecond timestamp. A prompt the user
dismisses is `None`.

Modules follow the program:

| module | file | models |
|---|---|---|
| `Wrappers` | wrappers.dfy | `Option`, `Result` |
| `Text` | text.dfy | string search, split/join, trimming, number printing |
| `Sorting` | sorting.dfy | an insertion sort by lexicographic integer keys |
| `Seqs` | seqs.dfy | subsequences, the order fact every filter keeps |
| `DocPaths` | doc_paths.dfy | the regex path rewrites shared by the providers |
| `DocState`, `Cli` | doc_state.dfy, cli.dfy | src/utils/doch-cli.ts, src/cli.ts |
| `FileStatus` | file_status.dfy | src/providers/fileStatusProvider.ts |
| `Symbols`, `Words` | symbols.dfy, words.dfy | symbol trees, `\b` word searches |
| `Numbering`, `NumberingActions` | numbering.dfy, numbering_actions.dfy | src/providers/wrongNumberingCodeActionProvider.ts |
| `MissingDoc` | missing_doc.dfy | src/providers/missingDocCodeActionProvider.ts |
| `InlineSuggestion` | inline_suggestion.dfy | src/providers/documentInlineSuggestionProvider.ts |
| `FileLinking` | file_linking.dfy | src/providers/fileLinkingProvider.ts |
| `SimplifyWriting` | simplify_writing.dfy | src/utils/simplifyWriting.ts |
| `Tasks` | tasks.dfy | src/services/taskManager.ts, src/models/task.ts |
| `TaskTree` | task_tree.dfy | src/providers/taskTreeProvider.ts |
| `TodoTracker` | todo_tracker.dfy | src/utils/todoTracker.ts |
| `GitLog` | git_log.dfy | the `runCommand` handler of src/providers/versionControlViewProvider.ts |
| `Chat` | chat.dfy | src/webview/chatbot.js |

## Model

| member | source | states |
|---|---|---|
| Cli.Command | src/cli.ts:5 | the sub-command is the third argv word, and is absent when argv has fewer than three words |
| Cli.Arguments | src/cli.ts:5 | the sub-command's arguments are argv after its first three words, and none when argv is shorter |
| Cli.RunCli | src/cli.ts:4-25 | exit status 0 exactly for `drift`/`check` with a writable state file, otherwise 1; an unknown sub-command prints `Unknown subcommand: <cmd>` and leaves the disk alone; `drift`/`check` store the state the verb computes |
| Cli.DriftRunTwice | src/cli.ts:9-11 | with the same clock readings, a second `doch drift` leaves the state file as the first one left it |
| Cli.CheckNeverFailsOnContent | src/cli.ts:12-14 | the exit status of `doch check` does not depend on which files exist |
| DocState.LoadDocState | src/utils/doch-cli.ts:17-28 | a stored state is returned unchanged; a missing or unparsable file is replaced by `{}` and `{}` is returned; the load fails exactly when that write fails |
| DocState.SaveDocState | src/utils/doch-cli.ts:30-33 | the whole map replaces the file, and the save fails exactly when the disk is not writable |
| DocState.LoadAfterSave | src/utils/doch-cli.ts:17-33 | loading what was saved gives back the saved map and writes nothing |
| DocState.LoadTwice | src/utils/doch-cli.ts:17-28 | a second load returns the same map and changes nothing on disk |
| DocState.DriftDocPathUnderSrc | src/utils/doch-cli.ts:38 | `src/x.ts`, `src/x.js` and `src/x.tsx` map to `docs/x.md` |
| DocState.DriftDocPathOutsideSrc | src/utils/doch-cli.ts:38 | a source outside `src/` keeps its directory and only its extension becomes `.md` |
| DocState.DriftDocPath | src/utils/doch-cli.ts:38 | a path ending in `.ts`, `.js` or `.tsx` maps to a path ending in `.md`; a path neither under `src/` (or `src\`) nor with one of those extensions is left as it is |
| DocState.CheckSourcePathOfDoc | src/utils/doch-cli.ts:55 | `docs/x.md` maps to `src/x.ts` |
| DocState.CheckUndoesDrift | src/utils/doch-cli.ts:55 | the check mapping inverts the drift mapping on `src/x.ts` |
| DocState.Drift | src/utils/doch-cli.ts:36-47 | every input path becomes a key, flagged documented exactly when its doc exists; keys not among the inputs keep their entries; a path's timestamp is the clock reading of its last occurrence |
| DocState.Check | src/utils/doch-cli.ts:53-64 | every input is keyed by its mapped source path, flagged documented exactly when that source exists; other keys keep their entries |
| DocState.DriftTwiceSameFlags | src/utils/doch-cli.ts:37-47 | drifting twice against the same files gives the same documented flags, whatever the clocks |
| DocState.DriftIdempotent | src/utils/doch-cli.ts:37-47 | with the same clock readings, drift is idempotent |
| DocState.FlagBecomesEntry | src/utils/doch-cli.ts:54-63 | an argument that is not a path, such as `--exit-on-failure`, is still recorded as a key |
| DocState.DriftNode | src/utils/doch-cli.ts:35-50 | succeeds exactly when the disk is writable, stores the drifted state and logs `Drift: updated <n> entries` with n the number of arguments |
| DocState.CheckNode | src/utils/doch-cli.ts:52-67 | succeeds exactly when the disk is writable, stores the checked state and logs `Check: updated <n> entries` |
| FileStatus.FileTime | src/providers/fileStatusProvider.ts:115 | the file time is the later of ctime and mtime |
| FileStatus.ReadState | src/providers/fileStatusProvider.ts:57-65 | an unreadable state file reads as the empty map |
| FileStatus.Tracked | src/providers/fileStatusProvider.ts:124-132 | out of date exactly when an entry is older than the code or the doc; documented exactly when the entry is not older and is flagged documented; otherwise undocumented |
| FileStatus.Lookup | src/providers/fileStatusProvider.ts:118 | an entry is found exactly when the path is a key |
| FileStatus.Classify | src/providers/fileStatusProvider.ts:94-182 | a source without its doc is undocumented; a source with its doc, or a markdown file with a source, is judged by its entry's time; a markdown file without a source is "no source" under `docs/` and independent elsewhere |
| FileStatus.StatusAfterDrift | src/providers/fileStatusProvider.ts:113-132 | a source drift has just recorded, with a clock reading no earlier than its files' times, is documented if its doc exists and undocumented otherwise |
| FileStatus.CategoriesPartition | src/providers/fileStatusProvider.ts:185-191 | every status belongs to exactly one of the five categories, and only those five captions list files |
| FileStatus.CommandFor | src/providers/fileStatusProvider.ts:193-196 | an undocumented file runs Generate Doc; every other file runs Open File; both target the file |
| FileStatus.ItemFor | src/providers/fileStatusProvider.ts:192-198 | a file item carries the file's path, basename, status and matching command |
| FileStatus.ListedFiles | src/providers/fileStatusProvider.ts:79-88 | a found file is listed exactly when it passes the glob, the ignore filter and the category test |
| FileStatus.ListedInOrder | src/providers/fileStatusProvider.ts:79-88 | the listed files are the found files with some dropped, the rest in the order found |
| FileStatus.FileItems | src/providers/fileStatusProvider.ts:94-199 | one item per listed file: the k-th item is the k-th listed file's, so the items keep the listing's order (FileStatus.ListedInOrder) |
| FileStatus.GetChildren | src/providers/fileStatusProvider.ts:40-203 | the root has the five categories in order; a category lists nothing without a workspace folder, and otherwise its files with the category's status |
| FileStatus.ListedOnce | src/providers/fileStatusProvider.ts:185-191 | a file listed under two categories was listed under the same one twice |
| DocPaths.ReplaceLeadingDir | src/utils/doch-cli.ts:38 | `^dir[\/\\]` is replaced only at the start, and the rest of the path is kept |
| DocPaths.ReplaceLeadingDirOf | src/utils/doch-cli.ts:38 | `dir/x` becomes the replacement followed by `x` |
| DocPaths.ReplacePrefix | src/providers/fileLinkingProvider.ts:55 | a literal prefix is replaced when present, and the path is unchanged otherwise |
| DocPaths.ReplacePrefixOf | src/providers/fileLinkingProvider.ts:55 | a path that starts with the prefix gets the replacement in its place |
| DocPaths.ReplaceSuffix | src/providers/fileLinkingProvider.ts:56 | a literal suffix is replaced when present, and the path is unchanged otherwise |
| DocPaths.ReplaceSuffixOf | src/providers/fileLinkingProvider.ts:56 | a path that ends with the suffix gets the replacement in its place |
| DocPaths.ReplaceExtension | src/utils/doch-cli.ts:38 | a trailing `.ext` for a listed extension is replaced, and any other path is unchanged |
| DocPaths.ReplaceExtensionOf | src/utils/doch-cli.ts:38 | `p.ext` becomes `p` followed by the replacement, for every listed extension |
| DocPaths.FirstExisting | src/providers/missingDocCodeActionProvider.ts:51-63 | the first candidate `base.ext` that exists, in extension order; none when no candidate exists |
| DocPaths.DocsDirectory | src/providers/missingDocCodeActionProvider.ts:42 | an empty or missing setting falls back to `docs/` |
| DocPaths.EscapeRegexIsLiteral | src/providers/missingDocCodeActionProvider.ts:47 | the escaped docs directory, read as a pattern, matches exactly the directory's own text |
| DocPaths.ReplacePatternPrefix | src/providers/missingDocCodeActionProvider.ts:47 | a literal pattern anchored at the start replaces the text it spells when the path starts with it, and leaves any other path alone |
| DocPaths.EscapedPrefixReplace | src/providers/missingDocCodeActionProvider.ts:47 | replacing the escaped pattern at the start is replacing the literal prefix |
| DocPaths.SourceBaseOfDoc | src/providers/missingDocCodeActionProvider.ts:46-48 | `<dir>x.md` has source base `src/x` |
| DocPaths.Basename | src/providers/fileStatusProvider.ts:192 | `path.basename`: a suffix of the path without `/`, preceded by `/` unless it is the whole path |
| DocPaths.BasenameAppend | src/providers/documentInlineSuggestionProvider.ts:70 | appending slash-free text to a path appends it to the last segment |
| DocPaths.Extname | src/providers/documentInlineSuggestionProvider.ts:70 | a non-empty extension is a proper, slash-free suffix of the last path segment that starts with a dot and holds no other dot; it is empty exactly when the segment has no dot after its first character |
| DocPaths.ExtnameOfCandidate | src/providers/documentInlineSuggestionProvider.ts:70 | the extension of a probed `base.ext` is `.ext` |
| Symbols.Flatten | src/providers/missingDocCodeActionProvider.ts:67-76 | the flattening has one entry per symbol at any depth |
| Symbols.SubtreeContiguous | src/providers/missingDocCodeActionProvider.ts:67-76 | in pre-order, each symbol is followed at once by all of its descendants |
| Symbols.FlattenMembers | src/providers/fileLinkingProvider.ts:85-97 | a symbol at any depth appears in the flattening |
| Words.ReplaceFirstWholeWord | src/providers/wrongNumberingCodeActionProvider.ts:444-447 | a text without a `\bw\b` match is unchanged; otherwise exactly one word's length is traded for the replacement's |
| Words.FirstWholeWord | src/providers/wrongNumberingCodeActionProvider.ts:444-447 | the leftmost whole-word occurrence at or after the start, and none exactly when there is no such occurrence |
| Words.ReplaceFirstWholeWordPlaces | src/providers/wrongNumberingCodeActionProvider.ts:444-447 | the replacement sits where the first whole-word occurrence was, and the text before and after it is kept |
| Words.WholeWordMatches | src/providers/fileLinkingProvider.ts:112-124 | the reported indices are increasing whole-word matches that do not overlap |
| Words.WholeWordMatchesComplete | src/providers/fileLinkingProvider.ts:112-124 | every whole-word occurrence is covered by a reported match |
| Words.ReplaceFirstDigitRun | src/providers/wrongNumberingCodeActionProvider.ts:493 | a text without digits is unchanged; otherwise at least one digit gives way to the replacement |
| Words.FirstDigitRun | src/providers/wrongNumberingCodeActionProvider.ts:493 | the first digit of the text and its maximal run of digits, and none exactly when the text has no digit |
| Numbering.StripHashes | src/providers/wrongNumberingCodeActionProvider.ts:44 | with at least one leading `#`: every leading `#` and then every white-space character after them is removed, so the result does not start with white space |
| Numbering.ExtractNumber | src/providers/wrongNumberingCodeActionProvider.ts:42-48 | a number exactly when the stripped, trimmed text starts with digits followed by `.`, `)` or white space; the number is the digits' value |
| Numbering.BareNumberIsNotNumbered | src/providers/wrongNumberingCodeActionProvider.ts:46 | a heading that is only a number has no number |
| Numbering.ExtractShown | src/providers/wrongNumberingCodeActionProvider.ts:42-48 | `n.` or `n)` followed by a title reads back as n |
| Numbering.ParseHeadingLine | src/providers/wrongNumberingCodeActionProvider.ts:149-151 | the level is always between 1 and 6, and it is the line's count of leading hashes unless the fallback (level 1, the symbol's name) was taken |
| Numbering.HashedLineParses | src/providers/wrongNumberingCodeActionProvider.ts:149-151 | `level` hashes, a space and a line-free trimmed body parse to that level and body |
| Numbering.CanonicalLineParses | src/providers/wrongNumberingCodeActionProvider.ts:145-153 | a heading line `### n. title` reads back as its level and number |
| Numbering.ToHeading | src/providers/wrongNumberingCodeActionProvider.ts:145-160 | a heading keeps its symbol's line and takes level and text from that line |
| Numbering.HeadingSymbols | src/providers/wrongNumberingCodeActionProvider.ts:141-143 | exactly the String, Namespace and Module symbols, kept in their order (a subsequence of the input) |
| Numbering.ExtractHeadings | src/providers/wrongNumberingCodeActionProvider.ts:127-172 | no symbols give no headings; otherwise one heading per heading symbol at any depth, in line order |
| Numbering.HeadingsOf | src/providers/wrongNumberingCodeActionProvider.ts:145-167 | one heading per heading symbol, each read from its own line |
| Numbering.MissingBelow | src/providers/wrongNumberingCodeActionProvider.ts:108-110 | the entries 1 to num-1, at the given level and line |
| Numbering.Step | src/providers/wrongNumberingCodeActionProvider.ts:88-119 | the expected number advances on a match, restarts at 1, or jumps past a gap and reports the gap's first number; a lower number is a duplicate |
| Numbering.ScanAll | src/providers/wrongNumberingCodeActionProvider.ts:85-120 | the scan only appends to the issues it was given, and every missing entry it adds carries the scanned level |
| Numbering.ScanAllLines | src/providers/wrongNumberingCodeActionProvider.ts:85-120 | every missing entry and duplicate the scan adds sits on the line of one of the scanned headings |
| Numbering.ConsecutiveScanClean | src/providers/wrongNumberingCodeActionProvider.ts:88-95 | headings numbered expected, expected+1, and so on report nothing |
| Numbering.NumberedInLineOrder | src/providers/wrongNumberingCodeActionProvider.ts:74-81 | the numbered headings of a level, each kept, sorted by line |
| Numbering.NumberedOnly | src/providers/wrongNumberingCodeActionProvider.ts:74 | exactly the headings that carry a number, and no more of them than the input holds |
| Numbering.NumberedOnlyInOrder | src/providers/wrongNumberingCodeActionProvider.ts:74 | the numbered headings keep their order in the document (a subsequence of the input) |
| Numbering.AnalyzeLevel | src/providers/wrongNumberingCodeActionProvider.ts:73-121 | a level with fewer than two numbered headings reports nothing |
| Numbering.ConsecutiveLevelClean | src/providers/wrongNumberingCodeActionProvider.ts:73-121 | a level numbered 1, 2, …, n in line order reports nothing |
| Numbering.AtLevel | src/providers/wrongNumberingCodeActionProvider.ts:59-65 | exactly the headings of one level |
| Numbering.AtLevelInOrder | src/providers/wrongNumberingCodeActionProvider.ts:59-65 | a level's headings keep their order in the document (a subsequence of the input) |
| Numbering.MaxLevel | src/providers/wrongNumberingCodeActionProvider.ts:68-70 | no heading is deeper than the maximum level |
| Numbering.AnalyzeLevels | src/providers/wrongNumberingCodeActionProvider.ts:68-121 | every missing entry carries a level in the range |
| Numbering.LevelsOfRange | src/providers/wrongNumberingCodeActionProvider.ts:73-121 | the loop over a range of levels reports missing entries only of levels in that range |
| Numbering.LevelsOfAscending | src/providers/wrongNumberingCodeActionProvider.ts:73-121 | the loop over the levels lists the missing entries in ascending level order |
| Numbering.LevelsOfClean | src/providers/wrongNumberingCodeActionProvider.ts:73-121 | levels that all report nothing report nothing together |
| Numbering.Analyze | src/providers/wrongNumberingCodeActionProvider.ts:51-124 | no headings give no issues; every missing entry's level is at most the largest heading level |
| Numbering.AnalyzeInOrder | src/providers/wrongNumberingCodeActionProvider.ts:51-124 | the document's missing entries come in ascending level order |
| Numbering.SparseDocumentClean | src/providers/wrongNumberingCodeActionProvider.ts:51-79 | a document where no level holds two numbered headings has no numbering problems |
| Numbering.WellNumberedDocumentClean | src/providers/wrongNumberingCodeActionProvider.ts:51-124 | a document whose every level is numbered 1, 2, …, n in line order has no numbering problems |
| Numbering.LevelsOfMissing | src/providers/wrongNumberingCodeActionProvider.ts:73-121 | a missing entry is reported for a range of levels exactly when the check of its own level, inside the range, reports it |
| Numbering.AnalyzeMissing | src/providers/wrongNumberingCodeActionProvider.ts:51-124 | a missing entry is reported for the document exactly when the check of its own level reports it |
| Numbering.LevelsOfDuplicate | src/providers/wrongNumberingCodeActionProvider.ts:73-121 | a duplicate reported for a range of levels was found by the check of a level in the range |
| Numbering.DuplicateInLevelsOf | src/providers/wrongNumberingCodeActionProvider.ts:73-121 | a duplicate the check of a level in the range finds is reported for the range |
| Numbering.DuplicateFoundAtLevel | src/providers/wrongNumberingCodeActionProvider.ts:51-124 | every duplicate of the document was found by some level's check |
| Numbering.LevelDuplicateReported | src/providers/wrongNumberingCodeActionProvider.ts:51-124 | every duplicate some level's check finds is reported for the document |
| Numbering.SparseLevelsClean | src/providers/wrongNumberingCodeActionProvider.ts:76-78 | a document where no level holds two numbered headings has no issues |
| Numbering.AddIgnoredNumber | src/providers/wrongNumberingCodeActionProvider.ts:22-39 | the pair is appended unless already present, other documents are untouched, and the stored pairs stay distinct |
| Numbering.AddIgnoredIdempotent | src/providers/wrongNumberingCodeActionProvider.ts:32-38 | ignoring the same pair twice is ignoring it once |
| Numbering.ClearIgnoredOnSave | src/providers/wrongNumberingCodeActionProvider.ts:357-367 | saving a markdown document drops its ignored pairs, and saving any other document changes nothing |
| Numbering.MatchAtMessage | src/providers/wrongNumberingCodeActionProvider.ts:385 | the fix command's pattern matches a message at its start and reads both numbers |
| Numbering.MessageRoundTrip | src/providers/wrongNumberingCodeActionProvider.ts:470 | every diagnostic message reads back, with the renumber and ignore pattern, as its number and level |
| Numbering.ParseMessage | src/providers/wrongNumberingCodeActionProvider.ts:385-391 | the regular expression's match: nothing exactly when no alternative matches at any index; otherwise the numbers some alternative reads at an index before which none matches (the leftmost match) |
| Numbering.FindMatchSpec | src/providers/wrongNumberingCodeActionProvider.ts:470-476 | the search from an index finds the leftmost match from there, and nothing exactly when no alternative matches from there on |
| Numbering.FirstAltSpec | src/providers/wrongNumberingCodeActionProvider.ts:509-515 | trying the alternatives in order at one index, after the others failed there, still yields the leftmost match |
| NumberingActions.FirstOnLineAtLevel | src/providers/wrongNumberingCodeActionProvider.ts:202-207 | the first numbered heading on the line at the level, or none |
| NumberingActions.FirstOnLine | src/providers/wrongNumberingCodeActionProvider.ts:229 | the first heading on the line, or none |
| NumberingActions.MissingTarget | src/providers/wrongNumberingCodeActionProvider.ts:198-212 | the heading on the missing entry's line and level, otherwise the last numbered heading, otherwise none |
| NumberingActions.MissingDiagnostics | src/providers/wrongNumberingCodeActionProvider.ts:188-225 | a warning for exactly the missing entries whose pair is not ignored, as long as a numbered heading exists, and no more warnings than entries |
| NumberingActions.MissingDiagnosticsInOrder | src/providers/wrongNumberingCodeActionProvider.ts:188-225 | the warnings follow the order of the missing entries: they are a subsequence of one warning per entry |
| NumberingActions.MissingDiagnosticsOnePerEntry | src/providers/wrongNumberingCodeActionProvider.ts:188-225 | when no entry is ignored, the k-th warning is the k-th missing entry's |
| NumberingActions.DuplicateDiagnostic | src/providers/wrongNumberingCodeActionProvider.ts:229-249 | a duplicate is shown on the first heading of its line, at that heading's level, unless that pair is ignored |
| NumberingActions.DuplicateDiagnostics | src/providers/wrongNumberingCodeActionProvider.ts:228-250 | a warning for exactly the shown duplicates, and no more warnings than duplicates |
| NumberingActions.DuplicateDiagnosticsOnePer | src/providers/wrongNumberingCodeActionProvider.ts:228-250 | when every duplicate is shown, there is one warning per duplicate and the k-th warning is the k-th duplicate's |
| NumberingActions.UpdateDiagnostics | src/providers/wrongNumberingCodeActionProvider.ts:175-253 | nothing for non-markdown documents; otherwise the missing warnings followed by the duplicate warnings, each one reportable |
| NumberingActions.UpdateDiagnosticsComplete | src/providers/wrongNumberingCodeActionProvider.ts:188-225 | every unignored missing entry is shown once some heading carries a number |
| NumberingActions.MissingShownReportable | src/providers/wrongNumberingCodeActionProvider.ts:188-225 | each shown missing warning comes from the checker and carries a problem message whose number and level are not ignored |
| NumberingActions.DuplicateShownReportable | src/providers/wrongNumberingCodeActionProvider.ts:228-250 | each shown duplicate warning comes from the checker and carries a problem message whose number and level are not ignored |
| NumberingActions.ReportableParses | src/providers/wrongNumberingCodeActionProvider.ts:509-515 | every shown diagnostic's message parses back with the ignore command's pattern |
| NumberingActions.RelevantOf | src/providers/wrongNumberingCodeActionProvider.ts:277-281 | exactly the checker's own diagnostics that mention a problem and meet the range, kept in their order (a subsequence of the input) |
| NumberingActions.ActionsFor | src/providers/wrongNumberingCodeActionProvider.ts:288-338 | a fix comes first only when the message mentions a missing or duplicate number (the missing fix when it mentions both); renumber-all, not attached to the diagnostic, and ignore, attached, always follow; every action carries the diagnostic |
| NumberingActions.ActionsForAll | src/providers/wrongNumberingCodeActionProvider.ts:288-339 | every action belongs to one of the given diagnostics |
| NumberingActions.ActionsForAllCount | src/providers/wrongNumberingCodeActionProvider.ts:288-339 | when every diagnostic mentions a problem there are exactly three actions per diagnostic |
| NumberingActions.ActionsForAllSplit | src/providers/wrongNumberingCodeActionProvider.ts:288-339 | the actions of the k-th diagnostic sit between the actions of the diagnostics before it and those of the diagnostics after it |
| NumberingActions.FlatMapSplit | src/providers/wrongNumberingCodeActionProvider.ts:288 | collecting each element's results in order puts the k-th element's results between those of the elements before it and after it |
| NumberingActions.ProvideCodeActions | src/providers/wrongNumberingCodeActionProvider.ts:259-342 | nothing for non-markdown documents; otherwise the actions of every relevant diagnostic |
| NumberingActions.DuplicateMessageNotMissing | src/providers/wrongNumberingCodeActionProvider.ts:289-301 | a duplicate message never mentions "Missing number", so it never gets the missing fix |
| NumberingActions.MessageMentionsKind | src/providers/wrongNumberingCodeActionProvider.ts:277-281 | each message mentions its own kind of problem |
| NumberingActions.ShownDiagnosticGetsItsFix | src/providers/wrongNumberingCodeActionProvider.ts:288-313 | a shown diagnostic under the cursor gets the fix for its own kind |
| NumberingActions.FixMissingNumber | src/providers/wrongNumberingCodeActionProvider.ts:385-402 | a message that does not match gives no edit; otherwise the placeholder `#…# n. [Missing Section]` is inserted at the diagnostic |
| NumberingActions.FixMissingFillsGap | src/providers/wrongNumberingCodeActionProvider.ts:394-398 | the inserted placeholder parses as a heading of the reported level and number |
| NumberingActions.MaxNumber | src/providers/wrongNumberingCodeActionProvider.ts:436-437 | the largest number among the numbered headings |
| NumberingActions.FixDuplicateNumber | src/providers/wrongNumberingCodeActionProvider.ts:416-423 | an error exactly when the duplicate pattern does not match the message; otherwise the renaming for the number and level the message gives |
| NumberingActions.RenameDuplicate | src/providers/wrongNumberingCodeActionProvider.ts:425-453 | a level with no numbered headings gives no edit; otherwise the new number is above every number at the level and one more than one of them, and the line's first whole-word duplicate is replaced by it |
| NumberingActions.FixDuplicateOnCanonicalLine | src/providers/wrongNumberingCodeActionProvider.ts:441-453 | on a heading line `### d. title`, the fix gives `### m. title` with m one above the level's largest number |
| NumberingActions.RenumberEdits | src/providers/wrongNumberingCodeActionProvider.ts:488-495 | the k-th heading's line gets number k+1 in place of its first digit run |
| NumberingActions.RenumberAll | src/providers/wrongNumberingCodeActionProvider.ts:470-496 | an unparsable message is an error, no numbered headings at the level edits nothing, and otherwise the level's numbered headings are renumbered 1, 2, … in line order |
| NumberingActions.RenumberCanonicalLine | src/providers/wrongNumberingCodeActionProvider.ts:493 | replacing the first digit run of `### n. title` gives `### m. title` |
| NumberingActions.RenumberedLinesReadBack | src/providers/wrongNumberingCodeActionProvider.ts:488-495 | after renumbering, each canonical heading line reads back with its new number |
| NumberingActions.IgnoreNumberingProblem | src/providers/wrongNumberingCodeActionProvider.ts:509-516 | an unparsable message is an error; otherwise the message's number and level are stored |
| NumberingActions.IgnoreSuppresses | src/providers/wrongNumberingCodeActionProvider.ts:188-196 | once a shown missing problem is ignored, the next update no longer shows it |
| MissingDoc.AddIgnoredDoc | src/providers/missingDocCodeActionProvider.ts:19-26 | the URI is appended unless present; afterwards the document is ignored and the list has no duplicates |
| MissingDoc.AddIgnoredDocIdempotent | src/providers/missingDocCodeActionProvider.ts:19-26 | ignoring a document twice is ignoring it once |
| MissingDoc.FindSource | src/providers/missingDocCodeActionProvider.ts:34-64 | no folder gives none; otherwise the first existing `base.ts`, `.tsx`, `.js`, `.jsx` |
| MissingDoc.FindSourcePrefersTs | src/providers/missingDocCodeActionProvider.ts:51-62 | `docs/x.md` finds `src/x.ts` when it exists, then `src/x.tsx` |
| MissingDoc.UserFunctions | src/providers/missingDocCodeActionProvider.ts:155-171 | exactly the documentable functions not from a library, kept in their order (a subsequence of the input) |
| MissingDoc.AnyMentions | src/providers/missingDocCodeActionProvider.ts:178 | true exactly when some markdown name contains the function's name, both trimmed and lower-cased |
| MissingDoc.MissingSymbols | src/providers/missingDocCodeActionProvider.ts:177-179 | exactly the functions no markdown name mentions, kept in their order (a subsequence of the input) |
| MissingDoc.HeadingInOtherCaseDocuments | src/providers/missingDocCodeActionProvider.ts:178 | a heading that spells the name in any case documents it |
| MissingDoc.MarkdownNames | src/providers/missingDocCodeActionProvider.ts:79-90 | no symbols give no names; otherwise the names of all symbols at any depth |
| MissingDoc.DiagnosticsFor | src/providers/missingDocCodeActionProvider.ts:111-121 | one warning per missing function, on its range, naming it |
| MissingDoc.ProvideCodeActions | src/providers/missingDocCodeActionProvider.ts:130-223 | outside the docs directory or without a source: nothing; for a markdown document under the docs directory with a source, never nothing: the diagnostics are cleared exactly when the document is ignored or no function is missing, otherwise warnings plus the insert and ignore actions |
| MissingDoc.ReportedMeansUndocumented | src/providers/missingDocCodeActionProvider.ts:155-179 | a reported symbol is a user function of the source that no markdown name mentions |
| MissingDoc.Sections | src/providers/missingDocCodeActionProvider.ts:251-258 | one section per symbol, numbered on from the first number |
| MissingDoc.InsertMissingDocs | src/providers/missingDocCodeActionProvider.ts:247-258 | the missing symbols in source-line order, and the text to insert starting with a blank line |
| MissingDoc.InsertedSectionsNumbered | src/providers/missingDocCodeActionProvider.ts:251-253 | the k-th inserted section opens with a level-3 heading numbered k+1 |
| MissingDoc.IgnoreMissingDocs | src/providers/missingDocCodeActionProvider.ts:270-284 | only an explicit "Yes" clears the diagnostics and records the document |
| MissingDoc.ConfirmedIgnoreClears | src/providers/missingDocCodeActionProvider.ts:181-185 | for a markdown document under the docs directory that has a source: after a confirmed ignore, the next request for the document clears its diagnostics |
| InlineSuggestion.FindSource | src/providers/documentInlineSuggestionProvider.ts:9-40 | no folder gives none; otherwise the first existing candidate in the configured extension order |
| InlineSuggestion.ProvideInline | src/providers/documentInlineSuggestionProvider.ts:43-96 | null outside the docs directory, without a source, on a read error or an empty suggestion; otherwise one item with an empty range at the cursor |
| InlineSuggestion.SuggestionUsesFoundSource | src/providers/documentInlineSuggestionProvider.ts:28-33 | for `docs/x.md`, the language service gets the extension of the source that was found |
| FileLinking.LinksFor | src/providers/fileLinkingProvider.ts:109-124 | each link spans a whole-word occurrence of the name and targets the source at `L<line+1>` |
| FileLinking.AllLinks | src/providers/fileLinkingProvider.ts:100-126 | every link comes from a function, class, method, interface or constant symbol |
| FileLinking.AllLinksComplete | src/providers/fileLinkingProvider.ts:100-126 | every whole-word occurrence of such a symbol's name is linked |
| FileLinking.ProvideDocumentLinks | src/providers/fileLinkingProvider.ts:38-145 | outside `docs/*.md`, without a folder, without a source or when the symbol request fails: no links and no decorations; otherwise exactly the links of every mention of the name of a function, class, method, interface or constant among the source's symbols and their children, and decorations exactly when the editor is visible |
| FileLinking.Spans | src/providers/fileLinkingProvider.ts:127-133 | the underline decorations cover exactly the links' ranges, in order |
| FileLinking.DocLinksToTs | src/providers/fileLinkingProvider.ts:54-75 | `docs/x.md` links to `src/x.ts` when it exists |
| FileLinking.ToggleLink | src/providers/fileLinkingProvider.ts:162-173 | only a markdown editor flips the hidden flag, and the new flag decides whether underlines are hidden |
| FileLinking.ToggleTwice | src/providers/fileLinkingProvider.ts:162-173 | toggling twice restores the flag |
| SimplifyWriting.GenerateDocumentation | src/utils/simplifyWriting.ts:19-70 | generated exactly when the read, the model, the folder, the write and opening the written file all succeed; the first failure, including a write or open failure, gives `Failed to generate documentation: <reason>` |
| SimplifyWriting.LanguageOf | src/utils/simplifyWriting.ts:24-25 | TypeScript exactly for `.ts` and `.tsx`, JavaScript otherwise |
| SimplifyWriting.LanguageOfSource | src/utils/simplifyWriting.ts:24-25 | a `src/x.ts`/`.tsx` source is TypeScript and a `.js`/`.jsx` one JavaScript |
| SimplifyWriting.Notification | src/utils/simplifyWriting.ts:66-70 | success shows the success message; failure shows the error |
| SimplifyWriting.GeneratedDocPathUnderSrc | src/utils/simplifyWriting.ts:40-43 | `src/x.ext` is written to `docs/x.md` for `ts`, `js`, `tsx` and `jsx` |
| SimplifyWriting.GeneratedDocPath | src/utils/simplifyWriting.ts:40-43 | a path ending in `.ts`, `.js`, `.tsx` or `.jsx` is written to a path ending in `.md`; a path neither under `src/` (or `src\`) nor with one of those extensions is left as it is |
| SimplifyWriting.GeneratedDocPathOutsideSrc | src/utils/simplifyWriting.ts:40-43 | a source outside `src/` keeps its directory, with `.md` for its extension |
| SimplifyWriting.GeneratedDocLeadsBack | src/utils/simplifyWriting.ts:40-43 | the doc written for `src/x.ext` leads the doc-to-source lookups back to `src/x` |
| Tasks.FindIndex | src/services/taskManager.ts:32 | the index of the first task with the id, or none exactly when no task has it |
| Tasks.Apply | src/services/taskManager.ts:38-42 | each of the nine fields takes the patch's value when the patch has one and keeps the task's otherwise; the update time is the new one; an empty patch changes nothing else |
| Tasks.ApplyTwice | src/services/taskManager.ts:38-42 | applying a patch again changes only the update time |
| Tasks.AddTask | src/services/taskManager.ts:18-29 | a new task is appended with the given id, both timestamps set to now, and the given fields |
| Tasks.UpdateTask | src/services/taskManager.ts:31-46 | an unknown id changes nothing; otherwise only the first task with the id is patched and returned |
| Tasks.RemoveId | src/services/taskManager.ts:50 | exactly the tasks with another id remain; the length drops exactly when the id was present |
| Tasks.RemoveIdInOrder | src/services/taskManager.ts:49 | the remaining tasks keep their order: the result is the list with some tasks dropped |
| Tasks.DeleteTask | src/services/taskManager.ts:48-57 | reports deletion exactly when the id was present, and an unknown id leaves the list as it was |
| Tasks.DeleteTaskInOrder | src/services/taskManager.ts:47-56 | deleting keeps the remaining tasks in their order, and the new list is exactly the one filtered by id |
| Tasks.ToggleTask | src/services/taskManager.ts:59-68 | an unknown id changes nothing; otherwise the first such task flips completion, gets the new time and is returned |
| Tasks.LoadTasks | src/services/taskManager.ts:84-89 | nothing stored gives no tasks; otherwise the stored list |
| Tasks.DeleteAfterAdd | src/services/taskManager.ts:18-57 | deleting a task just added with a fresh id restores the list |
| Tasks.ToggleTwice | src/services/taskManager.ts:59-68 | toggling twice restores every task except for the update time |
| Tasks.AddKeepsUnique | src/services/taskManager.ts:18-29 | a fresh id keeps ids unique |
| Tasks.ChangesKeepUnique | src/services/taskManager.ts:31-68 | an update without an id, a toggle and a delete keep ids unique |
| Tasks.DeleteRemovesAll | src/services/taskManager.ts:48-57 | after a delete, no task has the id |
| TaskTree.ParseSortMode | src/providers/taskTreeProvider.ts:257-263 | a saved mode name is restored; anything else gives creation order |
| TaskTree.SortModeRoundTrip | src/providers/taskTreeProvider.ts:257-278 | saving a mode's name and loading it back gives the mode |
| TaskTree.KeyOrder | src/providers/taskTreeProvider.ts:312-383 | tasks ordered by their sort keys are in the comparator's order |
| TaskTree.SortKey | src/providers/taskTreeProvider.ts:312-383 | every mode but creation order ranks pending tasks before completed ones first |
| TaskTree.DeadlineKeyOrder | src/providers/taskTreeProvider.ts:347-369 | in deadline mode, ordered keys of two tasks with the same completion put the earlier deadline first, and tasks without one last |
| Sorting.SortBy | src/providers/taskTreeProvider.ts:312-345 | `[...tasks].sort(cmp)`: the result is ordered by the comparator's key and holds the same elements, each as often, as the input |
| TaskTree.SortTasks | src/providers/taskTreeProvider.ts:312-383 | a permutation of the tasks in which every pair is in the mode's order |
| TaskTree.PendingFirst | src/providers/taskTreeProvider.ts:316-374 | in every mode but creation order, pending tasks come before completed ones |
| TaskTree.DiffDays | src/providers/taskTreeProvider.ts:180 | the whole days to the deadline, rounded up |
| TaskTree.Truncate | src/providers/taskTreeProvider.ts:143-146 | at most 50 characters; text of up to 50 is kept and longer text becomes 47 characters and `...` |
| TaskTree.ShortDeadlineText | src/providers/taskTreeProvider.ts:193-209 | the warning sign leads exactly when the deadline is past |
| TaskTree.DeadlineText | src/providers/taskTreeProvider.ts:175-191 | starts with the date, which stands alone exactly when the deadline is more than a week away |
| TaskTree.LastSegment | src/providers/taskTreeProvider.ts:152 | the part of the path after its last `/` or `\` |
| TaskTree.AppendNote | src/providers/taskTreeProvider.ts:150-157 | the description keeps its text and ends with the note |
| TaskTree.Description | src/providers/taskTreeProvider.ts:141-159 | starts with the truncated description; ends with the file note when there is a file, else with the short deadline text when there is a deadline |
| TaskTree.Tooltip | src/providers/taskTreeProvider.ts:126-139 | starts with the title and description on separate lines |
| TaskTree.Icon | src/providers/taskTreeProvider.ts:211-248 | a green check when completed; otherwise a warning exactly when overdue, a watch exactly when due within three days, and a dot in the priority's colour otherwise |
| TaskTree.MakeItem | src/providers/taskTreeProvider.ts:120-172 | the item carries the title, the completion context value and the toggle command with that task's id |
| TaskTree.GetChildren | src/providers/taskTreeProvider.ts:300-310 | an item has no children; the root lists one item per task, in the mode's order |
| TodoTracker.AddFileOptions | src/utils/todoTracker.ts:37-70 | the "no file" option first, the current file second when there is an editor; with a workspace folder every other workspace file is offered, and nothing else is; without one only the first one or two options |
| TodoTracker.OtherFiles | src/utils/todoTracker.ts:55-67 | exactly the workspace files other than the current one |
| TodoTracker.FileChoiceAsWritten | src/utils/todoTracker.ts:72-86 | the current-file option gives the editor's file and line; any option whose caption is not the edit command's "no file" caption gives its description as the file |
| TodoTracker.NoFileBecomesAFile | src/utils/todoTracker.ts:72-86 | as written, choosing "no file association" in the add command links a new task to a file named by the option's description |
| TodoTracker.FileChoice | src/utils/todoTracker.ts:72-86 | "no file" gives no file and no line; the current file gives its path and line; a listed file gives its path |
| TodoTracker.FileChoiceOfOptions | src/utils/todoTracker.ts:37-86 | each offered option leads to its intended file choice |
| TodoTracker.PresetDays | src/utils/todoTracker.ts:108-125 | the four presets give a day count; the other choices give none |
| TodoTracker.WeekPresetsEndOnSunday | src/utils/todoTracker.ts:116-123 | "this week" ends on the coming Sunday, one to seven days ahead; "next week" is seven days later |
| TodoTracker.AddDateErrorAsWritten | src/utils/todoTracker.ts:126-150 | as written, a date is accepted exactly when it parses and its midnight is not before now |
| TodoTracker.TodayRejected | src/utils/todoTracker.ts:140-146 | as written, today's date entered after midnight is rejected as past, though its day has not ended |
| TodoTracker.AddDateError | src/utils/todoTracker.ts:126-150 | a date is accepted exactly when it parses and its day has not ended; rejected as past exactly when it has |
| TodoTracker.EditDateError | src/utils/todoTracker.ts:287-311 | the edit command accepts any date that parses, past ones included |
| TodoTracker.AddDeadline | src/utils/todoTracker.ts:108-150 | no deadline (or keep) gives none; a preset gives the end of that day; a custom date gives a deadline exactly when one was typed and passes the date check, and it is the end of the typed day, not before now |
| TodoTracker.AddTaskCommand | src/utils/todoTracker.ts:4-166 | a task is created exactly when every prompt is answered and the title is not empty; it is appended with the chosen file, deadline and priority, and the message names it |
| TodoTracker.EditDeadline | src/utils/todoTracker.ts:241-314 | keep leaves the deadline, no deadline clears it, a preset sets its day's end, a custom date sets the end of the typed day, and the edit aborts exactly when the custom date is dismissed or rejected |
| TodoTracker.EditTaskCommand | src/utils/todoTracker.ts:168-326 | the task is updated exactly when the id is known, every prompt is answered and the deadline step does not abort; the update replaces that task with the answers |
| TodoTracker.EditKeeps | src/utils/todoTracker.ts:316-325 | an edit keeps the id, completion, creation time and line number, sets the answered title, description, priority, file and deadline, and leaves every other task alone |
| TodoTracker.EditPatch | src/utils/todoTracker.ts:316-322 | the patch sets exactly the title, description, priority, file and deadline: applied to any task it gives those answers and leaves every other field but the update time as it was |
| TodoTracker.DropFirstWord | src/utils/todoTracker.ts:368-371 | the leading non-space run and the one space after it are removed |
| TodoTracker.DropMarker | src/utils/todoTracker.ts:368-371 | an icon, a space and a label give back the label |
| TodoTracker.ToggleSort | src/utils/todoTracker.ts:328-372 | a dismissed pick keeps the mode silently; a pick sets the mode and reports `Tasks sorted by` and the label without its icon |
| TodoTracker.ToggleSortMessage | src/utils/todoTracker.ts:330-371 | each mode is reported by its name, such as `Tasks sorted by Priority` |
| GitLog.ParseLog | src/providers/versionControlViewProvider.ts:40-46 | one record per non-empty chunk of the output: the k-th record parses the k-th chunk (GitLog.NonEmptyInOrder keeps the chunks in order) |
| GitLog.ParseEntry | src/providers/versionControlViewProvider.ts:41-46 | the hash is the first line, the author the second and the date the third, each present exactly when the chunk has that many lines; the message is the remaining lines joined by newlines and trimmed |
| GitLog.NonEmpty | src/providers/versionControlViewProvider.ts:40 | exactly the non-empty chunks are kept, and a list without empty chunks is kept whole |
| GitLog.NonEmptyInOrder | src/providers/versionControlViewProvider.ts:40 | the kept chunks are in the order of the output |
| GitLog.RunCommand | src/providers/versionControlViewProvider.ts:37-53 | `git log` runs git with the fixed arguments and parses its output; any other command is answered `Unsupported command: …` |
| GitLog.LogAsWrittenIsOneRecord | src/providers/versionControlViewProvider.ts:38-46 | with the format as written, any non-empty history parses to a single record carrying the newest commit's hash, author and date |
| GitLog.TwoCommitsMerge | src/providers/versionControlViewProvider.ts:38-46 | as written, two commits come back as one record |
| GitLog.RunCommandAsWritten | src/providers/versionControlViewProvider.ts:37-53 | as written: `git log` runs git with the arguments whose format has no trailing newline and parses its output; any other command is answered as by the corrected handler |
| GitLog.RunLogAsWrittenMerges | src/providers/versionControlViewProvider.ts:37-53 | as written, the view shows any non-empty history as one entry carrying the newest commit's hash, author and date |
| GitLog.LogRoundTrip | src/providers/versionControlViewProvider.ts:38-46 | with a trailing newline in the format, parsing git's output gives back every commit in order |
| GitLog.RunLogLists | src/providers/versionControlViewProvider.ts:37-49 | given git's output for the corrected arguments, the view receives the commits |
| Chat.EscapeIsTokenwise | src/webview/chatbot.js:64-71 | the five replacements, `&` first, equal escaping each character on its own |
| Chat.ReplaceChar | src/webview/chatbot.js:66 | no occurrence of the character is left when its replacement lacks it; text without it is unchanged; a non-empty replacement never shortens the text |
| Chat.EscapeHtml | src/webview/chatbot.js:64-71 | escaping never shortens text, and text with none of `&`, `<`, `>`, `"`, `'` is left as it is |
| Chat.EscapeHtmlSafe | src/webview/chatbot.js:64-71 | escaped text holds no `<`, `>`, `"` or `'` |
| Chat.EscapeRoundTrip | src/webview/chatbot.js:64-71 | reading the entities back gives the original text |
| Chat.AmpersandLastEscapesTwice | src/webview/chatbot.js:66-70 | for each of `<`, `>`, `"` and `'`, replacing `&` last would escape the entity's own `&` again (`&amp;lt;` for `<`), which differs from what the order as written gives |
| Chat.FormatCode | src/webview/chatbot.js:46-49 | text without a fence is unchanged |
| Chat.FormatBlock | src/webview/chatbot.js:46-49 | when neither the plain text nor the code holds a fence or ends in a backtick, the plain text is kept and the block is escaped and wrapped in `<pre><code>` |
| Chat.FormatFound | src/webview/chatbot.js:46-49 | when the opening and closing fences are found where the block's text says, the block is escaped and wrapped, and the rest is formatted in turn |
| Chat.FenceAt | src/webview/chatbot.js:46-49 | the first fence of `a` + fence + rest is the one right after `a` exactly when `a` holds no fence and does not end in a backtick |
| Chat.UnclosedFence | src/webview/chatbot.js:46-49 | a fence without a closing fence, after text that holds no fence and does not end in a backtick, is shown as it is |
| Chat.AddMessage | src/webview/chatbot.js:42-55 | user messages have the `user-message` class and start with `You: `; bot messages have `bot-message` and start with `Doc Helper: `; the rest of the HTML is the text with its fenced blocks formatted |
| Chat.PlainMessageShownAsIs | src/webview/chatbot.js:42-55 | a message without a fence is shown exactly as written after the sender's name |
| Chat.CodeBlockShownEscaped | src/webview/chatbot.js:42-55 | a message's fenced block is shown escaped inside `<pre><code>`, and the text before it is not escaped, whenever neither part holds a fence or ends in a backtick |
| Chat.Send | src/webview/chatbot.js:9-22 | an empty question changes nothing; any other is posted, shown as the user's and cleared from the box |
| Chat.KeyUp | src/webview/chatbot.js:25-29 | Enter sends; other keys do nothing |
| Chat.Receive | src/webview/chatbot.js:32-39 | an `addAIAnswer` message is shown as the bot's; other messages are ignored |
| Chat.EmptyQuestionIgnored | src/webview/chatbot.js:10-21 | an empty question is neither posted nor shown |
| Chat.SendKeepsAskedShown | src/webview/chatbot.js:9-29 | every question posted is shown, and sending or pressing Enter keeps that so |

## Left out

- I/O of every kind is left out. File reads and writes, `fs.stat`, the workspace state stores, VS Code's editors, prompts, notifications and decorations are inputs or outputs of the functions. Asynchronous ordering and concurrency are not modelled.
- Path normalisation (`asRelativePath`, `Uri.joinPath`, `path.relative`, back-slash rewriting) is left out. Paths are workspace-relative strings with `/` separators.
- A Dafny `char` is a Unicode scalar value, so an emoji such as `📅` is one character of the model. JavaScript's `length`, `substring` and string offsets count UTF-16 code units, where a character outside the Basic Multilingual Plane counts as two. The model agrees with the source only on text inside that plane. Unicode case folding beyond ASCII is not modelled.
- TaskTree.Truncate: counts Unicode scalar values, not UTF-16 code units. A description of 30 `😀` is 60 code units long, so the source cuts it to 47 code units (ending in half of a surrogate pair) and adds `...`, while the model keeps it whole. The two agree on text inside the Basic Multilingual Plane.
- FileLinking.LinksFor: link ranges are character offsets of the model, that is, Unicode scalar positions. VS Code positions count UTF-16 code units, so on a line with a character outside the Basic Multilingual Plane before the word the source's range starts later than the model's.
- Timestamps are integer milliseconds. `toISOString` and `Date.parse` are treated as inverses, so the unparsable-timestamp case of the status tree is not modelled.
- Numbers are unbounded integers, while JavaScript numbers are doubles. The model matches the source only below 2^53. Above it `parseInt` rounds (`## 9007199254740993. x` reads as 9007199254740992), and from 1e21 on a template string prints `1e+21`. Text.DigitsValue, Text.Show, Numbering.MessageRoundTrip and NumberingActions.RenumberedLinesReadBack hold for every integer in the model, so for the source only below 2^53.
- `localeCompare` is an abstract collation key given as a parameter. The sort modes are modelled as lexicographic integer keys.
- Words.ReplaceFirstWholeWord: its contract gives only the unchanged case and the new length. Words.ReplaceFirstWholeWordPlaces states where the replacement lands, and NumberingActions.FixDuplicateOnCanonicalLine states the whole result on a heading line.
- Words.ReplaceFirstDigitRun: its contract gives only the unchanged case and a length bound. NumberingActions.RenumberCanonicalLine states the whole result on a heading line.
- NumberingActions.ActionsForAll: its contract gives only which diagnostic each action belongs to. NumberingActions.ActionsForAllCount and NumberingActions.ActionsForAllSplit give the count and the order.
- TaskTree.SortTasks: the model states a permutation and a pairwise order. It does not state that JavaScript's sort is stable, which the source does not rely on.
- The language model, the inline-suggestion service and the definition provider are parameters. Their answers are arbitrary.
- TodoTracker.AddTaskCommand: models the command with the corrected file choice and date check of "## Findings", not as written. As written, choosing `🚫 No file association` links the task to a file named after the item's description, and today's date is rejected as a deadline; `NoFileBecomesAFile` and `TodayRejected` state those cases for the as-written helpers.
- GitLog.RunCommand: models the handler with the corrected `%n`-terminated format, not as written. The handler as written is `GitLog.RunCommandAsWritten`, which shows any non-empty history as one entry (`RunLogAsWrittenMerges`).
- MissingDoc.InsertMissingDocs: the model states that the inserted symbols are sorted by source line and are the same multiset. It does not state that symbols on the same line keep their order, which JavaScript's stable sort gives.
- FileLinking.ProvideDocumentLinks: symbols with empty names give no links. VS Code rejects empty symbol names, so the source never sees one.
- TodoTracker.EditKeeps: the edit command keeps a task's line number even when another file is chosen, because the source never updates it.
- The duplicate `TaskManager` class inside src/providers/taskTreeProvider.ts (lines 32-117) repeats src/services/taskManager.ts and is modelled once, by `Tasks`.
- `generateId` (random) and the clock are inputs. Ids are assumed fresh where a lemma needs it.
- The webview HTML, nonces and the other webview scripts are left out. They only wire the DOM.
- The backend services are left out. They are foreign calls.

## Findings

| source | as written | input that shows it | evidently intended | confidence | as-written member | corrected member |
|---|---|---|---|---|---|---|
| src/utils/todoTracker.ts:72-86 | the add command tests the chosen caption against `📄 No file association`, but it offers `🚫 No file association` | choose the first option, "🚫 No file association" | a task with no file | high, not executed | TodoTracker.NoFileBecomesAFile | TodoTracker.FileChoice |
| src/providers/versionControlViewProvider.ts:38-46 | `--pretty=format:%H%n%an%n%ad%n%s` separates entries with one newline, and the output is split at blank lines | any history of two commits | one record per commit | high, not executed | GitLog.LogAsWrittenIsOneRecord | GitLog.LogRoundTrip |
| src/utils/todoTracker.ts:140-146 | a custom date is compared with `now` at its midnight | today's date, entered at 10:00 | today accepted as a deadline (its day has not ended) | medium, not executed | TodoTracker.TodayRejected | TodoTracker.AddDateError |

In each row the rest of the model uses the corrected member. `TodoTracker.AddTaskCommand` uses `FileChoice` and `AddDeadline`, which calls `AddDateError`. `GitLog.RunCommand` runs git with the arguments whose format ends in `%n`.

=== FILE: chat.dfy ===
/** The chat panel's script (src/webview/chatbot.js): a question typed in
    the input box is sent to the extension and shown at once; an answer
    from the extension is shown below it.  Text between pairs of triple
    backticks is HTML-escaped and shown as a code block; everything else is
    put into the page as it is.  The page is modelled by its state: the
    input box, the messages shown and the questions posted. */
module Chat {
  import opened Wrappers
  import opened Text

  // ---------------------------------------------------------------------
  // HTML escaping.

  /** `s.replace(/c/g, rep)`: every `c` becomes `rep`. */
  function ReplaceChar(s: string, c: char, rep: string): (r: string)
    ensures c !in rep ==> c !in r
    ensures c !in s ==> r == s
    ensures |rep| > 0 ==> |r| >= |s|
    decreases |s|
  {
    if |s| == 0 then ""
    else
      var rest := ReplaceChar(s[1..], c, rep);
      assert c !in s ==> s[0] != c && c !in s[1..];
      (if s[0] == c then rep else [s[0]]) + rest
  }

  /** Replacing in a concatenation replaces in both halves. */
  lemma {:induction false} ReplaceCharAppend(a: string, b: string, c: char, rep: string)
    ensures ReplaceChar(a + b, c, rep) == ReplaceChar(a, c, rep) + ReplaceChar(b, c, rep)
    decreases |a|
  {
    if |a| > 0 {
      assert (a + b)[1..] == a[1..] + b;
      ReplaceCharAppend(a[1..], b, c, rep);
    } else {
      assert a + b == b;
    }
  }

  /** `escapeHtml`: five global replacements, `&` first. */
  function EscapeHtml(s: string): (r: string)
    ensures |r| >= |s|
    ensures '&' !in s && '<' !in s && '>' !in s && '"' !in s && '\'' !in s ==> r == s
  {
    ReplaceChar(ReplaceChar(ReplaceChar(ReplaceChar(ReplaceChar(s,
      '&', "&amp;"), '<', "&lt;"), '>', "&gt;"), '"', "&quot;"), '\'', "&#039;")
  }

  /** The text each character is written as. */
  function Token(c: char): (r: string)
    ensures |r| > 0
    ensures r[0] == '&' <==> c in "&<>\"'"
    ensures '&' !in r[1..]
    ensures '<' !in r && '>' !in r && '"' !in r && '\'' !in r
  {
    match c
    case '&' => "&amp;"
    case '<' => "&lt;"
    case '>' => "&gt;"
    case '"' => "&quot;"
    case '\'' => "&#039;"
    case _ => [c]
  }

  /** The character-by-character reference: each character's token, in
      order. */
  function EscapeByChar(s: string): (r: string)
    ensures '<' !in r && '>' !in r && '"' !in r && '\'' !in r
    decreases |s|
  {
    if |s| == 0 then "" else Token(s[0]) + EscapeByChar(s[1..])
  }

  /** Escaping one character gives its token: later replacements never
      touch the entities written by earlier ones. */
  lemma EscapeOne(c: char)
    ensures EscapeHtml([c]) == Token(c)
  {
    if c == '&' {
      assert ReplaceChar([c], '&', "&amp;") == "&amp;";
    } else if c == '<' {
      assert ReplaceChar([c], '<', "&lt;") == "&lt;";
    } else if c == '>' {
      assert ReplaceChar([c], '>', "&gt;") == "&gt;";
    } else if c == '"' {
      assert ReplaceChar([c], '"', "&quot;") == "&quot;";
    } else if c == '\'' {
      assert ReplaceChar([c], '\'', "&#039;") == "&#039;";
    } else {
      assert Token(c) == [c];
    }
  }

  lemma EscapeAppend(a: string, b: string)
    ensures EscapeHtml(a + b) == EscapeHtml(a) + EscapeHtml(b)
  {
    var s1, t1 := ReplaceChar(a, '&', "&amp;"), ReplaceChar(b, '&', "&amp;");
    ReplaceCharAppend(a, b, '&', "&amp;");
    var s2, t2 := ReplaceChar(s1, '<', "&lt;"), ReplaceChar(t1, '<', "&lt;");
    ReplaceCharAppend(s1, t1, '<', "&lt;");
    var s3, t3 := ReplaceChar(s2, '>', "&gt;"), ReplaceChar(t2, '>', "&gt;");
    ReplaceCharAppend(s2, t2, '>', "&gt;");
    var s4, t4 := ReplaceChar(s3, '"', "&quot;"), ReplaceChar(t3, '"', "&quot;");
    ReplaceCharAppend(s3, t3, '"', "&quot;");
    ReplaceCharAppend(s4, t4, '\'', "&#039;");
  }

  /** The sequence of replacements is the character-by-character
      escaping. */
  lemma {:induction false} EscapeIsTokenwise(s: string)
    ensures EscapeHtml(s) == EscapeByChar(s)
    decreases |s|
  {
    if |s| == 0 {
      assert EscapeHtml(s) == "";
    } else {
      assert s == [s[0]] + s[1..];
      EscapeAppend([s[0]], s[1..]);
      EscapeOne(s[0]);
      EscapeIsTokenwise(s[1..]);
    }
  }

  /** Escaped text holds no `<`, `>`, `"` or `'`. */
  lemma EscapeHtmlSafe(s: string)
    ensures var r := EscapeHtml(s);
            '<' !in r && '>' !in r && '"' !in r && '\'' !in r
  {
    EscapeIsTokenwise(s);
  }

  /** A browser's reading of the five entities, back to characters. */
  function Unescape(s: string): (r: string)
    ensures |r| <= |s|
    decreases |s|
  {
    if |s| == 0 then ""
    else if StartsWith(s, "&amp;") then "&" + Unescape(s[5..])
    else if StartsWith(s, "&lt;") then "<" + Unescape(s[4..])
    else if StartsWith(s, "&gt;") then ">" + Unescape(s[4..])
    else if StartsWith(s, "&quot;") then "\"" + Unescape(s[6..])
    else if StartsWith(s, "&#039;") then "'" + Unescape(s[6..])
    else [s[0]] + Unescape(s[1..])
  }

  lemma UnescapeToken(c: char, rest: string)
    ensures Unescape(Token(c) + rest) == [c] + Unescape(rest)
  {
    var t := Token(c) + rest;
    assert t[..|Token(c)|] == Token(c);
    assert t[|Token(c)|..] == rest;
    if c == '&' {
      assert StartsWith(t, "&amp;");
    } else if c == '<' {
      assert t[1] == 'l' && "&amp;"[1] == 'a';
      assert StartsWith(t, "&lt;");
    } else if c == '>' {
      assert t[1] == 'g' && "&amp;"[1] == 'a' && "&lt;"[1] == 'l';
      assert StartsWith(t, "&gt;");
    } else if c == '"' {
      assert t[1] == 'q' && "&amp;"[1] == 'a' && "&lt;"[1] == 'l' && "&gt;"[1] == 'g';
      assert StartsWith(t, "&quot;");
    } else if c == '\'' {
      assert t[1] == '#';
      assert "&amp;"[1] == 'a' && "&lt;"[1] == 'l';
      assert "&gt;"[1] == 'g' && "&quot;"[1] == 'q';
      assert StartsWith(t, "&#039;");
    } else {
      assert t[0] == c && c != '&';
      assert "&amp;"[0] == '&' && "&lt;"[0] == '&' && "&gt;"[0] == '&' && "&quot;"[0] == '&' && "&#039;"[0] == '&';
    }
  }

  /** Escaping loses nothing: the page shows exactly the text that was
      escaped. */
  lemma {:induction false} EscapeRoundTrip(s: string)
    ensures Unescape(EscapeHtml(s)) == s
    decreases |s|
  {
    EscapeIsTokenwise(s);
    if |s| > 0 {
      UnescapeToken(s[0], EscapeByChar(s[1..]));
      EscapeRoundTrip(s[1..]);
      EscapeIsTokenwise(s[1..]);
    }
  }

  /** Replacing `&` last would escape the entities already written: `<`
      would show as `&amp;lt;` instead of `&lt;`, and likewise for `>`, `"`
      and `'`. */
  lemma AmpersandLastEscapesTwice(c: char)
    requires c in "<>\"'"
    ensures ReplaceChar(ReplaceChar([c], c, Token(c)), '&', "&amp;") == "&amp;" + Token(c)[1..]
    ensures ReplaceChar(ReplaceChar([c], c, Token(c)), '&', "&amp;") != EscapeHtml([c])
  {
    var t := Token(c);
    ReplaceLeading(c, t, "");
    assert [c] + "" == [c] && t + "" == t;
    assert ReplaceChar([c], c, t) == t;
    assert t == ['&'] + t[1..];
    ReplaceLeading('&', "&amp;", t[1..]);
    assert ReplaceChar(t, '&', "&amp;") == "&amp;" + t[1..];
    EscapeOne(c);
  }

  /** Replacing in a text whose only `c` is its first character. */
  lemma ReplaceLeading(c: char, rep: string, tail: string)
    requires c !in tail
    ensures ReplaceChar([c] + tail, c, rep) == rep + tail
  {
    assert ([c] + tail)[1..] == tail;
  }

  // ---------------------------------------------------------------------
  // Code blocks.

  const Fence := "```"
  const CodeOpen := "<pre><code>"
  const CodeClose := "</code></pre>"

  /** `text.replace(/```([\s\S]*?)```/g, …)`: from left to right, each
      fence and the nearest fence after it enclose a code block, which is
      escaped and wrapped; an unclosed fence and the text after it stay as
      they are. */
  function FormatCode(text: string): (r: string)
    ensures !Contains(text, Fence) ==> r == text
    decreases |text|
  {
    match IndexOf(text, Fence)
    case None => text
    case Some(i) =>
      var rest := text[i + 3..];
      match IndexOf(rest, Fence)
      case None => text
      case Some(k) =>
        text[..i] + CodeOpen + EscapeHtml(rest[..k]) + CodeClose + FormatCode(rest[k + 3..])
  }

  /** Plain text before a fence: it holds no fence, and no fence starts in
      it and runs on into the fence after it (it does not end in a
      backtick). */
  predicate FenceFree(a: string)
  {
    !Contains(a + "``", Fence)
  }

  /** Before position `|a|`, a fence in `a + Fence + rest` is a fence in
      `a + "``"`. */
  lemma FenceBeforeAgrees(a: string, rest: string, j: nat)
    requires j < |a|
    ensures OccursAt(a + Fence + rest, Fence, j) <==> OccursAt(a + "``", Fence, j)
  {
    var s, b := a + Fence + rest, a + "``";
    forall i | j <= i < j + 3 && i < |b| ensures s[i] == b[i] {
      if i >= |a| {
        assert s[i] == Fence[i - |a|];
      }
    }
    if j + 3 <= |b| {
      assert s[j..j + 3] == b[j..j + 3];
    }
  }

  /** The first fence of `a + Fence + rest` is the one right after `a`
      exactly when `a` is fence-free. */
  lemma FenceAt(a: string, rest: string)
    ensures FenceFree(a) <==> IndexOf(a + Fence + rest, Fence) == Some(|a|)
  {
    var s, b := a + Fence + rest, a + "``";
    assert s[|a|..|a| + 3] == Fence;
    assert OccursAt(s, Fence, |a|);
    if FenceFree(a) {
      forall j | 0 <= j < |a| ensures !OccursAt(s, Fence, j) {
        FenceBeforeAgrees(a, rest, j);
      }
      assert AbsentBefore(s, Fence, |a|);
    } else {
      var m := IndexOf(b, Fence).value;
      assert OccursAt(b, Fence, m);
      FenceBeforeAgrees(a, rest, m);
    }
  }

  /** A message is formatted piece by piece: plain text is left alone and
      a fenced code block is escaped and wrapped. */
  lemma FormatBlock(plain: string, code: string, rest: string)
    requires FenceFree(plain) && FenceFree(code)
    ensures FormatCode(plain + Fence + code + Fence + rest)
            == plain + CodeOpen + EscapeHtml(code) + CodeClose + FormatCode(rest)
  {
    FenceAt(plain, code + Fence + rest);
    FenceAt(code, rest);
    FormatFound(plain, code, rest);
  }

  /** The replacement of a block whose two fences have been found. */
  lemma FormatFound(plain: string, code: string, rest: string)
    requires IndexOf(plain + Fence + (code + Fence + rest), Fence) == Some(|plain|)
    requires IndexOf(code + Fence + rest, Fence) == Some(|code|)
    ensures FormatCode(plain + Fence + code + Fence + rest)
            == plain + CodeOpen + EscapeHtml(code) + CodeClose + FormatCode(rest)
  {
    BlockSlices(plain, code, rest);
  }

  /** The pieces of `plain + Fence + code + Fence + rest`. */
  lemma BlockSlices(plain: string, code: string, rest: string)
    ensures var text, after := plain + Fence + code + Fence + rest, code + Fence + rest;
            text == plain + Fence + after && text[..|plain|] == plain && text[|plain| + 3..] == after
            && after[..|code|] == code && after[|code| + 3..] == rest
  {
    var text, after := plain + Fence + code + Fence + rest, code + Fence + rest;
    assert text == plain + Fence + after;
    assert text[..|plain|] == plain;
    assert text[|plain| + 3..] == after;
  }

  /** A message with one unclosed fence is shown as it is. */
  lemma UnclosedFence(plain: string, rest: string)
    requires FenceFree(plain) && !Contains(rest, Fence)
    ensures FormatCode(plain + Fence + rest) == plain + Fence + rest
  {
    var text := plain + Fence + rest;
    FenceAt(plain, rest);
    assert text[|plain| + 3..] == rest;
    ContainsMeans(rest, Fence);
    assert IndexOf(rest, Fence).None?;
  }

  // ---------------------------------------------------------------------
  // The page.

  datatype Sender = User | Bot

  /** A message element: its classes and its inner HTML. */
  datatype Shown = Shown(classes: seq<string>, html: string)

  /** The sender's name a message opens with, as plain text. */
  function Prefix(sender: Sender): string
  {
    if sender == User then "You: " else "Doc Helper: "
  }

  /** `addMessage`: the sender's name, then the text with its fenced
      blocks formatted. */
  function AddMessage(sender: Sender, text: string): (m: Shown)
    ensures m.classes == ["message", if sender == User then "user-message" else "bot-message"]
    ensures sender == User ==> StartsWith(m.html, "You: ")
    ensures sender == Bot ==> StartsWith(m.html, "Doc Helper: ")
    ensures m.html == Prefix(sender) + FormatCode(text)
  {
    var prefix := Prefix(sender);
    assert (prefix + FormatCode(text))[..|prefix|] == prefix;
    Shown(["message", if sender == User then "user-message" else "bot-message"], prefix + FormatCode(text))
  }

  /** A message without a fence is shown as it was written. */
  lemma PlainMessageShownAsIs(sender: Sender, text: string)
    requires !Contains(text, Fence)
    ensures AddMessage(sender, text).html == Prefix(sender) + text
  {
  }

  /** A message's fenced block is shown escaped inside `<pre><code>`, and
      the text around it is not escaped. */
  lemma CodeBlockShownEscaped(sender: Sender, plain: string, code: string, rest: string)
    requires FenceFree(plain) && FenceFree(code)
    ensures AddMessage(sender, plain + Fence + code + Fence + rest).html
            == Prefix(sender) + (plain + CodeOpen + EscapeHtml(code) + CodeClose + FormatCode(rest))
  {
    var text := plain + Fence + code + Fence + rest;
    FormatBlock(plain, code, rest);
    assert AddMessage(sender, text).html == Prefix(sender) + FormatCode(text);
  }

  /** The page: the input box, the messages shown and the questions posted
      to the extension (`askQuestion`). */
  datatype Page = Page(input: string, shown: seq<Shown>, asked: seq<string>)

  /** The send button. */
  function Send(p: Page): (r: Page)
    ensures p.input == "" ==> r == p
    ensures p.input != "" ==>
              r.input == "" && r.asked == p.asked + [p.input]
              && r.shown == p.shown + [AddMessage(User, p.input)]
  {
    if p.input != "" then Page("", p.shown + [AddMessage(User, p.input)], p.asked + [p.input])
    else p
  }

  /** A key released in the input box: Enter sends. */
  function KeyUp(p: Page, key: string): (r: Page)
    ensures key == "Enter" ==> r == Send(p)
    ensures key != "Enter" ==> r == p
  {
    if key == "Enter" then Send(p) else p
  }

  /** A message from the extension: an `addAIAnswer` is shown as the
      bot's; other types are ignored. */
  function Receive(p: Page, kind: string, value: string): (r: Page)
    ensures kind == "addAIAnswer" ==> r == p.(shown := p.shown + [AddMessage(Bot, value)])
    ensures kind != "addAIAnswer" ==> r == p
  {
    if kind == "addAIAnswer" then p.(shown := p.shown + [AddMessage(Bot, value)]) else p
  }

  /** Every question posted is shown as the user's, and none is empty:
      sending keeps this true. */
  predicate AskedShown(p: Page)
  {
    forall k :: 0 <= k < |p.asked| ==> p.asked[k] != "" && AddMessage(User, p.asked[k]) in p.shown
  }

  lemma SendKeepsAskedShown(p: Page)
    requires AskedShown(p)
    ensures AskedShown(Send(p)) && AskedShown(KeyUp(p, "Enter"))
  {
  }

  /** An empty question is neither posted nor shown. */
  lemma EmptyQuestionIgnored(p: Page, key: string)
    requires p.input == ""
    ensures Send(p) == p && KeyUp(p, key) == p
  {
  }
}

=== FILE: cli.dfy ===
/** The `doch` executable (src/cli.ts): the third command-line word picks the
    verb, the rest are its file arguments, and any rejection ends the
    process with status 1. */
module Cli {
  import opened Wrappers
  import opened Text
  import opened DocState

  /** What the process leaves behind: its exit status, what it printed to
      each stream, and the disk. */
  datatype Run = Run(exitCode: int, stdout: string, stderr: string, disk: Disk)

  /** `const [ , , cmd, ...args ] = process.argv`: a missing word is
      `undefined`. */
  function Command(argv: seq<string>): (r: Option<string>)
    ensures r.Some? <==> |argv| >= 3
    ensures r.Some? ==> r.value == argv[2]
  {
    if |argv| >= 3 then Some(argv[2]) else None
  }

  function Arguments(argv: seq<string>): (r: seq<string>)
    ensures |argv| >= 3 ==> argv == argv[..3] + r
    ensures |argv| < 3 ==> r == []
  {
    if |argv| >= 3 then argv[3..] else []
  }

  /** How a template literal shows an optional string. */
  function ShowCommand(cmd: Option<string>): string
  {
    match cmd
    case Some(c) => c
    case None => "undefined"
  }

  function ErrorText(e: IoError): string
  {
    "Error: cannot write " + e.path
  }

  /** Runs a verb's outcome to the end of the process. */
  function Finish(r: Result<Outcome, IoError>, disk: Disk): Run
  {
    match r
    case Ok(o) => Run(0, o.log, "", o.disk)
    case Err(e) => Run(1, "", ErrorText(e), disk)
  }

  /** `main` together with its `catch`. */
  function RunCli(argv: seq<string>, disk: Disk, present: set<string>, clock: nat -> Timestamp): (r: Run)
    ensures r.exitCode == 0 <==> Command(argv) in {Some("drift"), Some("check")} && disk.writable
    ensures r.exitCode in {0, 1}
    ensures Command(argv) !in {Some("drift"), Some("check")} ==>
              r.disk == disk && r.stdout == "" && r.stderr == "Unknown subcommand: " + ShowCommand(Command(argv))
    ensures Command(argv) == Some("drift") && disk.writable ==>
              r.disk.file == Stored(Drift(Arguments(argv), LoadDocState(disk).value.state, present, clock))
    ensures Command(argv) == Some("check") && disk.writable ==>
              r.disk.file == Stored(Check(Arguments(argv), LoadDocState(disk).value.state, present, clock))
    ensures r.exitCode == 1 ==> r.stdout == ""
  {
    var args := Arguments(argv);
    match Command(argv)
    case Some("drift") => Finish(DriftNode(args, disk, present, clock), disk)
    case Some("check") => Finish(CheckNode(args, disk, present, clock), disk)
    case cmd => Run(1, "", "Unknown subcommand: " + ShowCommand(cmd), disk)
  }

  /** Running `doch drift` a second time with the same clock readings leaves
      the state file as the first run left it. */
  lemma DriftRunTwice(argv: seq<string>, disk: Disk, present: set<string>, clock: nat -> Timestamp)
    requires Command(argv) == Some("drift") && disk.writable
    ensures var once := RunCli(argv, disk, present, clock);
            RunCli(argv, once.disk, present, clock).disk == once.disk
  {
    var once := RunCli(argv, disk, present, clock);
    var loaded := LoadDocState(disk).value.state;
    DriftIdempotent(Arguments(argv), loaded, present, clock);
  }

  /** A hook's `doch check --exit-on-failure a.md` succeeds whatever the
      files say, as long as the state file can be written. */
  lemma CheckNeverFailsOnContent(argv: seq<string>, disk: Disk, present1: set<string>, present2: set<string>,
                                 clock: nat -> Timestamp)
    requires Command(argv) == Some("check")
    ensures RunCli(argv, disk, present1, clock).exitCode == RunCli(argv, disk, present2, clock).exitCode
  {
  }
}

=== FILE: doc_paths.dfy ===
/** The path rewrites every provider repeats: a regular expression anchored
    at the start or end of a workspace-relative path, replaced by a fixed
    string, and a probe for the first candidate file that exists.  The file
    system is the set of workspace-relative paths that exist. */
module DocPaths {
  import opened Wrappers
  import opened Text

  /** `s.replace(/^dir[\/\\]/, replacement)`: a leading `dir/` or `dir\`. */
  function ReplaceLeadingDir(s: string, dir: string, replacement: string): (r: string)
    ensures (StartsWith(s, dir + "/") || StartsWith(s, dir + "\\")) ==>
              r == replacement + s[|dir| + 1..]
    ensures !(StartsWith(s, dir + "/") || StartsWith(s, dir + "\\")) ==> r == s
  {
    if StartsWith(s, dir + "/") || StartsWith(s, dir + "\\") then replacement + s[|dir| + 1..] else s
  }

  /** `s.replace(/^prefix/, replacement)` with `prefix` matched literally. */
  function ReplacePrefix(s: string, prefix: string, replacement: string): (r: string)
    ensures StartsWith(s, prefix) ==> r == replacement + s[|prefix|..]
    ensures !StartsWith(s, prefix) ==> r == s
  {
    if StartsWith(s, prefix) then replacement + s[|prefix|..] else s
  }

  /** `s.replace(/suffix$/, replacement)` with `suffix` matched literally. */
  function ReplaceSuffix(s: string, suffix: string, replacement: string): (r: string)
    ensures EndsWith(s, suffix) ==> r == s[..|s| - |suffix|] + replacement
    ensures !EndsWith(s, suffix) ==> r == s
  {
    if EndsWith(s, suffix) then s[..|s| - |suffix|] + replacement else s
  }

  /** The extension among `exts` that `s` ends with (after a dot), if any. */
  function MatchedExtension(s: string, exts: seq<string>): (r: Option<string>)
    ensures r.Some? ==> r.value in exts && EndsWith(s, "." + r.value)
    ensures r.None? ==> forall e :: e in exts ==> !EndsWith(s, "." + e)
  {
    if |exts| == 0 then None
    else if EndsWith(s, "." + exts[0]) then Some(exts[0])
    else MatchedExtension(s, exts[1..])
  }

  /** `s.replace(/\.(e1|e2|…)$/, replacement)`. */
  function ReplaceExtension(s: string, exts: seq<string>, replacement: string): (r: string)
    ensures MatchedExtension(s, exts).Some? ==>
              r == s[..|s| - |MatchedExtension(s, exts).value| - 1] + replacement
    ensures MatchedExtension(s, exts).None? ==> r == s
  {
    match MatchedExtension(s, exts)
    case Some(e) => s[..|s| - |e| - 1] + replacement
    case None => s
  }

  predicate NoDot(e: string)
  {
    forall i :: 0 <= i < |e| ==> e[i] != '.'
  }

  /** A path ends with at most one dot-free extension, so the order of the
      alternatives in `/\.(ts|js|tsx)$/` does not matter. */
  lemma DotFreeSuffixUnique(s: string, e1: string, e2: string)
    requires NoDot(e1) && NoDot(e2)
    requires EndsWith(s, "." + e1) && EndsWith(s, "." + e2)
    ensures e1 == e2
  {
    assert s[|s| - |e1| - 1] == ("." + e1)[0] && s[|s| - |e2| - 1] == ("." + e2)[0];
    assert s[|s| - |e1|..] == e1 && s[|s| - |e2|..] == e2;
    assert forall k :: |s| - |e1| <= k < |s| ==> s[k] == e1[k - (|s| - |e1|)];
    assert forall k :: |s| - |e2| <= k < |s| ==> s[k] == e2[k - (|s| - |e2|)];
  }

  lemma ReplaceLeadingDirOf(dir: string, x: string, replacement: string)
    ensures ReplaceLeadingDir(dir + "/" + x, dir, replacement) == replacement + x
  {
    var s := dir + "/" + x;
    assert s[..|dir + "/"|] == dir + "/";
    assert s[|dir| + 1..] == x;
  }

  lemma ReplacePrefixOf(prefix: string, x: string, replacement: string)
    ensures ReplacePrefix(prefix + x, prefix, replacement) == replacement + x
  {
    var s := prefix + x;
    assert s[..|prefix|] == prefix;
    assert s[|prefix|..] == x;
  }

  lemma ReplaceSuffixOf(y: string, suffix: string, replacement: string)
    ensures ReplaceSuffix(y + suffix, suffix, replacement) == y + replacement
  {
    var s := y + suffix;
    assert s[|s| - |suffix|..] == suffix;
    assert s[..|s| - |suffix|] == y;
  }

  lemma ReplaceExtensionOf(y: string, ext: string, exts: seq<string>, replacement: string)
    requires ext in exts
    requires forall e :: e in exts ==> NoDot(e)
    ensures ReplaceExtension(y + "." + ext, exts, replacement) == y + replacement
  {
    var s := y + "." + ext;
    assert s == y + ("." + ext);
    assert s[|s| - |"." + ext|..] == "." + ext;
    var m := MatchedExtension(s, exts);
    DotFreeSuffixUnique(s, m.value, ext);
    assert s[..|s| - |ext| - 1] == y;
  }

  /** Replacing a dot-free leading directory keeps a `.e` ending: the dot
      cannot sit inside `dir/`. */
  lemma LeadingDirKeepsExtension(s: string, dir: string, newDir: string, e: string)
    requires NoDot(dir)
    requires EndsWith(s, "." + e)
    ensures EndsWith(ReplaceLeadingDir(s, dir, newDir), "." + e)
  {
    if StartsWith(s, dir + "/") || StartsWith(s, dir + "\\") {
      var i := |s| - |e| - 1;
      assert s[i] == ("." + e)[0];
      assert forall k :: 0 <= k < |dir| ==> s[k] == s[..|dir| + 1][k] == dir[k];
      assert s[|dir|] == s[..|dir| + 1][|dir|] != '.';
      var m := newDir + s[|dir| + 1..];
      assert m[|m| - |e| - 1..] == s[i..];
    }
  }

  /** The two regular expressions together: a path with a listed extension
      ends in the replacement, and one matching neither pattern is left as it
      was. */
  lemma MovedPath(s: string, dir: string, newDir: string, exts: seq<string>, replacement: string)
    requires NoDot(dir)
    ensures (exists e :: e in exts && EndsWith(s, "." + e)) ==>
              EndsWith(ReplaceExtension(ReplaceLeadingDir(s, dir, newDir), exts, replacement), replacement)
    ensures !StartsWith(s, dir + "/") && !StartsWith(s, dir + "\\") && (forall e :: e in exts ==> !EndsWith(s, "." + e)) ==>
              ReplaceExtension(ReplaceLeadingDir(s, dir, newDir), exts, replacement) == s
  {
    var m := ReplaceLeadingDir(s, dir, newDir);
    if e :| e in exts && EndsWith(s, "." + e) {
      LeadingDirKeepsExtension(s, dir, newDir, e);
      assert MatchedExtension(m, exts).Some?;
      var r := ReplaceExtension(m, exts, replacement);
      assert r[|r| - |replacement|..] == replacement;
    }
  }

  /** A string that does not start with `p` still does not after text is
      appended, provided the appended text starts with a character `p`
      does not have where the string ends. */
  lemma NotPrefixAfterAppend(y: string, tail: string, p: string)
    requires !StartsWith(y, p)
    requires |y| < |p| && |tail| > 0 ==> tail[0] != p[|y|]
    ensures !StartsWith(y + tail, p)
  {
  }

  /** Appending `.ext` to a path outside `dir` keeps it outside, when the
      directory name has no dot, so `^dir[\/\\]` leaves it alone. */
  lemma LeadingDirKept(p: string, ext: string, dir: string, replacement: string)
    requires NoDot(dir)
    requires !StartsWith(p, dir + "/") && !StartsWith(p, dir + "\\")
    ensures ReplaceLeadingDir(p + "." + ext, dir, replacement) == p + "." + ext
  {
    var s := p + "." + ext;
    var k := |dir| + 1;
    if |p| >= k {
      assert s[..k] == p[..k];
    } else if |s| >= k {
      assert s[..k][|p|] == '.';
      assert |p| == |dir| || (dir + "/")[|p|] == dir[|p|];
      assert |p| == |dir| || (dir + "\\")[|p|] == dir[|p|];
    }
  }

  /** `${base}.${ext}`. */
  function Candidate(base: string, ext: string): string
  {
    base + "." + ext
  }

  /** Tries `base.ext` for each extension in order and returns the first path
      that exists. */
  function FirstExisting(base: string, exts: seq<string>, files: set<string>): (r: Option<string>)
    ensures r.Some? <==> exists k :: 0 <= k < |exts| && Candidate(base, exts[k]) in files
    ensures r.Some? ==> r.value in files
    ensures r.Some? ==> exists k :: (0 <= k < |exts| && r.value == Candidate(base, exts[k])
                                     && forall j :: 0 <= j < k ==> Candidate(base, exts[j]) !in files)
  {
    if |exts| == 0 then None
    else if Candidate(base, exts[0]) in files then
      Some(Candidate(base, exts[0]))
    else
      var r := FirstExisting(base, exts[1..], files);
      if r.Some? then
        var k :| (0 <= k < |exts[1..]| && r.value == Candidate(base, exts[1..][k])
                  && forall j :: 0 <= j < k ==> Candidate(base, exts[1..][j]) !in files);
        assert r.value == Candidate(base, exts[k + 1]);
        assert forall j :: 0 <= j < k + 1 ==> Candidate(base, exts[j]) !in files by {
          forall j | 0 <= j < k + 1 ensures Candidate(base, exts[j]) !in files {
            if j > 0 {
              assert exts[j] == exts[1..][j - 1];
            }
          }
        }
        r
      else
        assert forall k :: 1 <= k < |exts| ==> Candidate(base, exts[k]) !in files by {
          forall k | 1 <= k < |exts| ensures Candidate(base, exts[k]) !in files {
            assert exts[k] == exts[1..][k - 1];
          }
        }
        r
  }

  /** The documentation directory setting: `config.get('saveDirectory') || 'docs/'`,
      so an unset or empty setting means `docs/`. */
  function DocsDirectory(setting: Option<string>): (r: string)
    ensures setting.Some? && setting.value != "" ==> r == setting.value
    ensures setting.None? || setting.value == "" ==> r == "docs/"
  {
    if setting.Some? && setting.value != "" then setting.value else "docs/"
  }

  // ---------------------------------------------------------------------
  // Escaping for `new RegExp`: `s.replace(/[.*+?^${}()|[\]\\]/g, '\\$&')`.

  predicate IsRegexMeta(c: char)
  {
    c in ".*+?^${}()|[]\\"
  }

  /** Puts a backslash in front of every regular-expression metacharacter. */
  function EscapeRegex(s: string): (r: string)
    ensures |r| >= |s|
    ensures LiteralPattern(r)
  {
    if |s| == 0 then ""
    else if IsRegexMeta(s[0]) then ['\\', s[0]] + EscapeRegex(s[1..])
    else [s[0]] + EscapeRegex(s[1..])
  }

  /** A pattern made only of literal atoms: characters that are not
      metacharacters, and backslash escapes of metacharacters, each of which
      matches exactly one character. */
  predicate LiteralPattern(r: string)
    decreases |r|
  {
    if |r| == 0 then true
    else if r[0] == '\\' then |r| >= 2 && IsRegexMeta(r[1]) && LiteralPattern(r[2..])
    else !IsRegexMeta(r[0]) && LiteralPattern(r[1..])
  }

  /** The one string a literal pattern matches. */
  function LiteralText(r: string): string
    requires LiteralPattern(r)
    decreases |r|
  {
    if |r| == 0 then ""
    else if r[0] == '\\' then [r[1]] + LiteralText(r[2..])
    else [r[0]] + LiteralText(r[1..])
  }

  /** An escaped string, used as a pattern, matches exactly the original
      string: it is taken literally. */
  lemma {:induction false} EscapeRegexIsLiteral(s: string)
    ensures LiteralPattern(EscapeRegex(s))
    ensures LiteralText(EscapeRegex(s)) == s
    decreases |s|
  {
    if |s| > 0 {
      EscapeRegexIsLiteral(s[1..]);
      if IsRegexMeta(s[0]) {
        assert EscapeRegex(s)[2..] == EscapeRegex(s[1..]);
      } else {
        assert EscapeRegex(s)[1..] == EscapeRegex(s[1..]);
      }
    }
  }

  /** `s.replace(new RegExp('^' + pattern), replacement)` for a pattern made
      of literal atoms: the one text the pattern matches is replaced when
      `s` starts with it. */
  function ReplacePatternPrefix(s: string, pattern: string, replacement: string): (r: string)
    requires LiteralPattern(pattern)
    ensures StartsWith(s, LiteralText(pattern)) ==> r == replacement + s[|LiteralText(pattern)|..]
    ensures !StartsWith(s, LiteralText(pattern)) ==> r == s
  {
    ReplacePrefix(s, LiteralText(pattern), replacement)
  }

  /** A directory escaped into a pattern is replaced exactly where it occurs
      literally at the start, whatever characters it holds. */
  lemma EscapedPrefixReplace(s: string, dir: string, replacement: string)
    ensures LiteralPattern(EscapeRegex(dir))
    ensures ReplacePatternPrefix(s, EscapeRegex(dir), replacement) == ReplacePrefix(s, dir, replacement)
  {
    EscapeRegexIsLiteral(dir);
  }

  /** The path a doc's source is looked for under, before an extension is
      added: the configured docs directory, escaped into a pattern, replaced
      by `src/` at the start, and a final `.md` removed. */
  function SourceBase(docRel: string, docsDir: string): (r: string)
    ensures r == ReplaceSuffix(ReplacePrefix(docRel, docsDir, "src/"), ".md", "")
  {
    EscapedPrefixReplace(docRel, docsDir, "src/");
    ReplaceSuffix(ReplacePatternPrefix(docRel, EscapeRegex(docsDir), "src/"), ".md", "")
  }

  /** `docs/x.md` (under whatever docs directory is configured) is looked up
      as `src/x` plus an extension. */
  lemma SourceBaseOfDoc(docsDir: string, x: string)
    ensures SourceBase(docsDir + x + ".md", docsDir) == "src/" + x
  {
    var doc := docsDir + x + ".md";
    assert doc == docsDir + (x + ".md");
    ReplacePrefixOf(docsDir, x + ".md", "src/");
    assert "src/" + (x + ".md") == ("src/" + x) + ".md";
    ReplaceSuffixOf("src/" + x, ".md", "");
    assert ("src/" + x) + "" == "src/" + x;
  }

  // ---------------------------------------------------------------------
  // `path.basename` and `path.extname` on `/`-separated paths.

  predicate NoSlash(s: string)
  {
    forall i :: 0 <= i < |s| ==> s[i] != '/'
  }

  /** A tail of a suffix is a suffix. */
  lemma EndsWithTail(p: string, b: string, i: nat)
    requires EndsWith(p, b) && i <= |b|
    ensures EndsWith(p, b[i..])
  {
    assert p[|p| - (|b| - i)..] == p[|p| - |b|..][i..];
  }

  /** The last segment of a `/`-separated path. */
  function Basename(p: string): (r: string)
    ensures EndsWith(p, r)
    ensures NoSlash(r)
    ensures |r| < |p| ==> p[|p| - |r| - 1] == '/'
    decreases |p|
  {
    if |p| == 0 || p[|p| - 1] == '/' then ""
    else
      var b := Basename(p[..|p| - 1]);
      assert p[..|p| - 1][|p| - 1 - |b|..] == p[|p| - 1 - |b|..|p| - 1];
      b + [p[|p| - 1]]
  }

  /** The index of the last `.` in `s`, if any. */
  function LastDot(s: string): (r: Option<nat>)
    ensures r.Some? ==> r.value < |s| && s[r.value] == '.' && NoDot(s[r.value + 1..])
    ensures r.None? ==> NoDot(s)
    decreases |s|
  {
    if |s| == 0 then None
    else if s[|s| - 1] == '.' then Some(|s| - 1)
    else
      var r := LastDot(s[..|s| - 1]);
      assert r.Some? ==> s[r.value + 1..] == s[..|s| - 1][r.value + 1..] + [s[|s| - 1]];
      assert r.None? ==> s == s[..|s| - 1] + [s[|s| - 1]];
      r
  }

  /** `path.extname`: from the last `.` of the last segment on, unless that
      dot starts the segment. */
  function Extname(p: string): (r: string)
    ensures r == "" || (r[0] == '.' && EndsWith(p, r))
    ensures |r| > 0 ==>
              var b := Basename(p);
              NoDot(r[1..]) && NoSlash(r) && |r| < |b| && EndsWith(b, r)
    ensures |r| == 0 <==> |Basename(p)| == 0 || NoDot(Basename(p)[1..])
  {
    var b := Basename(p);
    match LastDot(b)
    case None =>
      NoDotTail(b);
      ""
    case Some(i) =>
      if i == 0 then ""
      else
        EndsWithTail(p, b, i);
        LastSegmentDot(b, i);
        b[i..]
  }

  lemma NoDotTail(b: string)
    requires NoDot(b)
    ensures |b| == 0 || NoDot(b[1..])
  {
    if |b| > 0 {
      assert forall k :: 0 <= k < |b[1..]| ==> b[1..][k] == b[k + 1];
    }
  }

  /** The last dot of a segment, past its first character, starts a
      dot-free, slash-free suffix of it. */
  lemma LastSegmentDot(b: string, i: nat)
    requires 0 < i < |b| && b[i] == '.' && NoDot(b[i + 1..]) && NoSlash(b)
    ensures NoDot(b[i..][1..]) && NoSlash(b[i..]) && EndsWith(b, b[i..]) && !NoDot(b[1..])
  {
    assert b[1..][i - 1] == '.';
    assert b[i..][1..] == b[i + 1..];
    assert forall k :: 0 <= k < |b[i..]| ==> b[i..][k] == b[i + k];
  }

  lemma BasenameNonEmpty(p: string)
    requires |p| > 0 && p[|p| - 1] != '/'
    ensures |Basename(p)| > 0
  {
  }

  lemma SnocAssoc(b: string, u: string, c: char, t: string)
    requires u + [c] == t
    ensures (b + u) + [c] == b + t
  {
  }

  /** One unfolding of `Basename` at a last character that is not `/`. */
  lemma BasenameStep(s: string)
    requires |s| > 0 && s[|s| - 1] != '/'
    ensures Basename(s) == Basename(s[..|s| - 1]) + [s[|s| - 1]]
  {
  }

  /** Text without a slash added to a path joins its last segment. */
  lemma {:induction false} BasenameAppend(p: string, t: string)
    requires NoSlash(t)
    ensures Basename(p + t) == Basename(p) + t
    decreases |t|
  {
    if |t| == 0 {
      assert p + t == p;
    } else {
      var u := t[..|t| - 1];
      var c := t[|t| - 1];
      assert u + [c] == t;
      var s := p + t;
      assert s == (p + u) + [c];
      assert NoSlash(u);
      BasenameStep(s);
      BasenameAppend(p, u);
      SnocAssoc(Basename(p), u, c, t);
    }
  }

  /** The last dot of `u.e`, when `e` holds no dot, is the one before `e`. */
  lemma {:induction false} LastDotBeforeExtension(u: string, e: string)
    requires NoDot(e)
    ensures LastDot(u + "." + e) == Some(|u|)
    decreases |e|
  {
    var s := u + "." + e;
    if |e| == 0 {
      assert s[|s| - 1] == '.';
    } else {
      var e' := e[..|e| - 1];
      assert s[|s| - 1] == e[|e| - 1];
      assert s[..|s| - 1] == u + "." + e';
      assert NoDot(e');
      LastDotBeforeExtension(u, e');
    }
  }

  /** A candidate `base.ext` has extension `.ext` when `ext` holds neither
      a dot nor a slash and `base` does not end with a slash. */
  lemma ExtnameOfCandidate(base: string, ext: string)
    requires |base| > 0 && base[|base| - 1] != '/'
    requires NoDot(ext) && NoSlash(ext)
    ensures Extname(Candidate(base, ext)) == "." + ext
  {
    var tail := "." + ext;
    var p := Candidate(base, ext);
    assert p == base + tail;
    DotExtensionNoSlash(ext);
    BasenameAppend(base, tail);
    var u := Basename(base);
    BasenameNonEmpty(base);
    var b := Basename(p);
    assert b == u + tail;
    assert b == u + "." + ext;
    LastDotBeforeExtension(u, ext);
    ExtnameAt(p, |u|);
    assert b[|u|..] == tail;
  }

  /** `Extname` at a dot that does not start the last segment. */
  lemma ExtnameAt(p: string, i: nat)
    requires LastDot(Basename(p)) == Some(i) && i > 0
    ensures Extname(p) == Basename(p)[i..]
  {
  }

  lemma DotExtensionNoSlash(ext: string)
    requires NoSlash(ext)
    ensures NoSlash("." + ext)
  {
    var tail := "." + ext;
    assert forall i :: 0 < i < |tail| ==> tail[i] == ext[i - 1];
  }
}

=== FILE: doc_state.dfy ===
/** The documentation-tracking state store behind the `doch` command line
    (src/utils/doch-cli.ts): a map from a workspace-relative path to whether
    its counterpart exists and when that was last recorded, persisted as
    `.doch/metadata/doc-state.json`.  The file system is the set of existing
    relative paths, the clock is the reading taken at each loop iteration,
    and a write either succeeds or rejects (`writable`). */
module DocState {
  import opened Wrappers
  import opened Text
  import opened DocPaths

  /** Milliseconds since the epoch; `toISOString` and `Date.parse` are inverse. */
  type Timestamp = int

  datatype Entry = Entry(documented: bool, timestamp: Timestamp)

  type State = map<string, Entry>

  /** The state file as found on disk. */
  datatype StateFile = Absent | Unparsable | Stored(state: State)

  datatype Disk = Disk(file: StateFile, writable: bool)

  datatype IoError = WriteFailed(path: string)

  const StatePath := ".doch/metadata/doc-state.json"

  /** What loading returns together with the disk it leaves behind. */
  datatype Loaded = Loaded(state: State, disk: Disk)

  /** `loadDocState`: a missing or unparsable file is replaced by an empty
      one and the empty map is returned; a write that fails rejects. */
  function LoadDocState(disk: Disk): (r: Result<Loaded, IoError>)
    ensures disk.file.Stored? ==> r == Ok(Loaded(disk.file.state, disk))
    ensures !disk.file.Stored? && disk.writable ==> r == Ok(Loaded(map[], Disk(Stored(map[]), true)))
    ensures r.Err? <==> !disk.file.Stored? && !disk.writable
    ensures r.Ok? ==> r.value.disk.file == Stored(r.value.state)
  {
    if disk.file.Stored? then Ok(Loaded(disk.file.state, disk))
    else if disk.writable then Ok(Loaded(map[], Disk(Stored(map[]), true)))
    else Err(WriteFailed(StatePath))
  }

  /** `saveDocState`: the whole map replaces the file. */
  function SaveDocState(disk: Disk, state: State): (r: Result<Disk, IoError>)
    ensures r.Ok? <==> disk.writable
    ensures r.Ok? ==> r.value.file == Stored(state) && r.value.writable
  {
    if disk.writable then Ok(Disk(Stored(state), true)) else Err(WriteFailed(StatePath))
  }

  /** Loading what was saved gives back the saved map and writes nothing. */
  lemma LoadAfterSave(disk: Disk, state: State)
    requires disk.writable
    ensures SaveDocState(disk, state).Ok?
    ensures LoadDocState(SaveDocState(disk, state).value) == Ok(Loaded(state, Disk(Stored(state), true)))
  {
  }

  /** Loading twice returns the same map, and the second load changes nothing. */
  lemma LoadTwice(disk: Disk)
    requires LoadDocState(disk).Ok?
    ensures var d1 := LoadDocState(disk).value.disk;
            LoadDocState(d1) == Ok(Loaded(LoadDocState(disk).value.state, d1))
  {
  }

  // ---------------------------------------------------------------------
  // Path mappings of the two verbs.

  const SourceExtensions: seq<string> := ["ts", "js", "tsx"]

  lemma ExtensionsDotFree()
    ensures forall e :: e in SourceExtensions ==> NoDot(e)
  {
  }

  /** `driftNode`'s mapping: `^src[\/\\]` becomes `docs/`, then a trailing
      `.ts`, `.js` or `.tsx` becomes `.md`. */
  function DriftDocPath(rel: string): (r: string)
    ensures (exists e :: e in SourceExtensions && EndsWith(rel, "." + e)) ==> EndsWith(r, ".md")
    ensures (!StartsWith(rel, "src/") && !StartsWith(rel, "src\\")
             && forall e :: e in SourceExtensions ==> !EndsWith(rel, "." + e)) ==> r == rel
  {
    MovedPath(rel, "src", "docs/", SourceExtensions, ".md");
    ReplaceExtension(ReplaceLeadingDir(rel, "src", "docs/"), SourceExtensions, ".md")
  }

  /** A source path under `src/` goes to the same place under `docs/`. */
  lemma DriftDocPathUnderSrc(x: string, ext: string)
    requires ext in SourceExtensions
    ensures DriftDocPath("src/" + x + "." + ext) == "docs/" + x + ".md"
  {
    ReplaceLeadingDirOf("src", x + "." + ext, "docs/");
    assert "src" + "/" + (x + "." + ext) == "src/" + x + "." + ext;
    ExtensionsDotFree();
    ReplaceExtensionOf("docs/" + x, ext, SourceExtensions, ".md");
    assert "docs/" + (x + "." + ext) == "docs/" + x + "." + ext;
  }

  /** A path outside `src/` only has its extension swapped. */
  lemma DriftDocPathOutsideSrc(p: string, ext: string)
    requires ext in SourceExtensions
    requires !StartsWith(p, "src/") && !StartsWith(p, "src\\")
    ensures DriftDocPath(p + "." + ext) == p + ".md"
  {
    assert "src" + "/" == "src/" && "src" + "\\" == "src\\";
    LeadingDirKept(p, ext, "src", "docs/");
    ExtensionsDotFree();
    ReplaceExtensionOf(p, ext, SourceExtensions, ".md");
  }

  /** `checkNode`'s mapping: `^docs[\/\\]` becomes `src/`, then a trailing
      `.md` becomes `.ts`; the extension is always `.ts`. */
  function CheckSourcePath(docRel: string): string
  {
    ReplaceSuffix(ReplaceLeadingDir(docRel, "docs", "src/"), ".md", ".ts")
  }

  /** The check mapping takes `docs/X.md` to `src/X.ts`, so it undoes the drift
      mapping of `.ts` sources. */
  lemma CheckSourcePathOfDoc(x: string)
    ensures CheckSourcePath("docs/" + x + ".md") == "src/" + x + ".ts"
  {
    ReplaceLeadingDirOf("docs", x + ".md", "src/");
    assert "docs" + "/" + (x + ".md") == "docs/" + x + ".md";
    var moved := "src/" + (x + ".md");
    assert moved == ("src/" + x) + ".md";
    ReplaceSuffixOf("src/" + x, ".md", ".ts");
  }

  /** Checking the documentation drift maps a `.ts` source to gives back
      the source. */
  lemma CheckUndoesDrift(x: string)
    ensures CheckSourcePath(DriftDocPath("src/" + x + ".ts")) == "src/" + x + ".ts"
  {
    var src := "src/" + x + ".ts";
    assert "src/" + x + "." + "ts" == src by {
      assert "." + "ts" == ".ts";
      assert ("src/" + x) + ("." + "ts") == ("src/" + x) + "." + "ts";
    }
    DriftDocPathUnderSrc(x, "ts");
    CheckSourcePathOfDoc(x);
  }

  // ---------------------------------------------------------------------
  // The loop both verbs share: one entry per input path, overwritten.

  /** The keys written for `files[i..]`. */
  ghost function KeysFrom(files: seq<string>, i: nat, keyOf: string -> string): set<string>
  {
    set j | i <= j < |files| :: keyOf(files[j])
  }

  /** `files[j]` is the last input in `files` that writes its key. */
  ghost predicate LastFor(files: seq<string>, j: nat, keyOf: string -> string)
  {
    forall m :: j < m < |files| ==> keyOf(files[m]) != keyOf(files[j])
  }

  /** Each input that writes a key is followed by a last one writing it. */
  lemma {:induction false} LastExists(files: seq<string>, j: nat, keyOf: string -> string) returns (m: nat)
    requires j < |files|
    ensures j <= m < |files| && keyOf(files[m]) == keyOf(files[j]) && LastFor(files, m, keyOf)
    decreases |files| - j
  {
    if LastFor(files, j, keyOf) {
      m := j;
    } else {
      var n :| j < n < |files| && keyOf(files[n]) == keyOf(files[j]);
      m := LastExists(files, n, keyOf);
    }
  }

  /** The body of the `for` loop from iteration `i` on: `state[keyOf(f)] =
      { documented: probeOf(f) exists, timestamp: clock(i) }`. */
  function Overwrite(files: seq<string>, i: nat, state: State, keyOf: string -> string,
                     probeOf: string -> string, present: set<string>, clock: nat -> Timestamp): (r: State)
    requires i <= |files|
    ensures r.Keys == state.Keys + KeysFrom(files, i, keyOf)
    ensures forall k :: k in state && k !in KeysFrom(files, i, keyOf) ==> r[k] == state[k]
    ensures forall j :: i <= j < |files| && LastFor(files, j, keyOf) ==>
              r[keyOf(files[j])] == Entry(probeOf(files[j]) in present, clock(j))
    decreases |files| - i
  {
    if i == |files| then
      state
    else
      var f := files[i];
      var r := Overwrite(files, i + 1, state[keyOf(f) := Entry(probeOf(f) in present, clock(i))],
                         keyOf, probeOf, present, clock);
      assert KeysFrom(files, i, keyOf) == {keyOf(f)} + KeysFrom(files, i + 1, keyOf);
      assert forall j :: i < j < |files| ==> keyOf(files[j]) in KeysFrom(files, i + 1, keyOf);
      r
  }

  // ---------------------------------------------------------------------
  // The two verbs.

  /** The state `driftNode` computes: every input path is a key, documented
      iff its mapped documentation path exists. */
  function Drift(files: seq<string>, state: State, present: set<string>, clock: nat -> Timestamp): (r: State)
    ensures r.Keys == state.Keys + set p | p in files
    ensures forall p :: p in files ==> r[p].documented == (DriftDocPath(p) in present)
    ensures forall p :: p in state && p !in files ==> r[p] == state[p]
    ensures forall j :: 0 <= j < |files| && (forall m :: j < m < |files| ==> files[m] != files[j]) ==>
              r[files[j]].timestamp == clock(j)
  {
    var id := (p: string) => p;
    var r := Overwrite(files, 0, state, id, DriftDocPath, present, clock);
    assert KeysFrom(files, 0, id) == set p | p in files by {
      forall p | p in files ensures p in KeysFrom(files, 0, id) {
        var j :| 0 <= j < |files| && files[j] == p;
        assert id(files[j]) == p;
      }
    }
    forall p | p in files ensures r[p].documented == (DriftDocPath(p) in present) {
      var j :| 0 <= j < |files| && files[j] == p;
      var m := LastExists(files, j, id);
    }
    r
  }

  /** The state `checkNode` computes: every input is keyed by its `.ts`
      source path, documented iff that source exists.  Nothing else is
      looked at: stale or undocumented files are not reported. */
  function Check(files: seq<string>, state: State, present: set<string>, clock: nat -> Timestamp): (r: State)
    ensures r.Keys == state.Keys + set d | d in files :: CheckSourcePath(d)
    ensures forall d :: d in files ==> r[CheckSourcePath(d)].documented == (CheckSourcePath(d) in present)
    ensures forall k :: k in state && (forall d :: d in files ==> CheckSourcePath(d) != k) ==> r[k] == state[k]
  {
    var r := Overwrite(files, 0, state, CheckSourcePath, CheckSourcePath, present, clock);
    assert KeysFrom(files, 0, CheckSourcePath) == set d | d in files :: CheckSourcePath(d) by {
      forall d | d in files ensures CheckSourcePath(d) in KeysFrom(files, 0, CheckSourcePath) {
        var j :| 0 <= j < |files| && files[j] == d;
      }
    }
    forall d | d in files ensures r[CheckSourcePath(d)].documented == (CheckSourcePath(d) in present) {
      var j :| 0 <= j < |files| && files[j] == d;
      var m := LastExists(files, j, CheckSourcePath);
    }
    r
  }

  /** Running drift twice on the same inputs against unchanged files gives
      the same keys and the same `documented` flags; only timestamps move. */
  lemma DriftTwiceSameFlags(files: seq<string>, state: State, present: set<string>,
                            clock1: nat -> Timestamp, clock2: nat -> Timestamp)
    ensures var once := Drift(files, state, present, clock1);
            var twice := Drift(files, once, present, clock2);
            twice.Keys == once.Keys
            && forall k :: k in once ==> twice[k].documented == once[k].documented
  {
  }

  /** With the same clock readings the second drift changes nothing at all. */
  lemma {:induction false} DriftIdempotent(files: seq<string>, state: State, present: set<string>,
                                           clock: nat -> Timestamp)
    ensures Drift(files, Drift(files, state, present, clock), present, clock) == Drift(files, state, present, clock)
  {
    var once := Drift(files, state, present, clock);
    var twice := Drift(files, once, present, clock);
    forall k | k in once ensures twice[k] == once[k] {
      if k in files {
        var j :| 0 <= j < |files| && files[j] == k;
        var id := (p: string) => p;
        var m := LastExists(files, j, id);
      }
    }
  }

  /** An argument that is not a path, such as the `--exit-on-failure` flag a
      hook passes, is recorded under its own name. */
  lemma FlagBecomesEntry(state: State, present: set<string>, clock: nat -> Timestamp)
    ensures var r := Check(["--exit-on-failure"], state, present, clock);
            "--exit-on-failure" in r && r["--exit-on-failure"].documented == ("--exit-on-failure" in present)
  {
    var f := "--exit-on-failure";
    assert f[..5][0] != "docs/"[0];
    assert f[|f| - 3..][2] != ".md"[2];
    assert CheckSourcePath(f) == f;
  }

  /** What a verb leaves on disk and prints. */
  datatype Outcome = Outcome(disk: Disk, log: string)

  /** `driftNode`: load, overwrite one entry per input path, persist once. */
  function DriftNode(files: seq<string>, disk: Disk, present: set<string>, clock: nat -> Timestamp): (r: Result<Outcome, IoError>)
    ensures r.Ok? <==> disk.writable
    ensures r.Ok? ==> r.value.disk.file.Stored?
    ensures r.Ok? ==> r.value.log == "Drift: updated " + Show(|files|) + " entries"
    ensures r.Ok? ==> var loaded := LoadDocState(disk).value.state;
                      r.value.disk.file.state == Drift(files, loaded, present, clock)
  {
    match LoadDocState(disk)
    case Err(e) => Err(e)
    case Ok(loaded) =>
      match SaveDocState(loaded.disk, Drift(files, loaded.state, present, clock))
      case Err(e) => Err(e)
      case Ok(d) => Ok(Outcome(d, "Drift: updated " + Show(|files|) + " entries"))
  }

  /** `checkNode`: the same loop with the check mapping.  Its result does not
      depend on what it finds: only a failed write makes it reject. */
  function CheckNode(files: seq<string>, disk: Disk, present: set<string>, clock: nat -> Timestamp): (r: Result<Outcome, IoError>)
    ensures r.Ok? <==> disk.writable
    ensures r.Ok? ==> r.value.disk.file.Stored?
    ensures r.Ok? ==> r.value.log == "Check: updated " + Show(|files|) + " entries"
    ensures r.Ok? ==> var loaded := LoadDocState(disk).value.state;
                      r.value.disk.file.state == Check(files, loaded, present, clock)
  {
    match LoadDocState(disk)
    case Err(e) => Err(e)
    case Ok(loaded) =>
      match SaveDocState(loaded.disk, Check(files, loaded.state, present, clock))
      case Err(e) => Err(e)
      case Ok(d) => Ok(Outcome(d, "Check: updated " + Show(|files|) + " entries"))
  }
}

=== FILE: file_linking.dfy ===
/** Links from a doc to its source (src/providers/fileLinkingProvider.ts):
    in a doc `docs/x.md`, every whole-word occurrence of the name of a function,
    class, method, interface or constant of the corresponding source file
    links to the line where that symbol starts; a command toggles whether
    the links are drawn underlined.  Positions are character offsets into
    the document text. */
module FileLinking {
  import opened Wrappers
  import opened Text
  import opened DocPaths
  import opened Symbols
  import opened Words

  const LinkProbe: seq<string> := ["ts", "tsx", "js", "jsx"]

  /** `docPath.replace(/^docs\//, 'src/').replace(/\.md$/, '')`. */
  function LinkSourceBase(docPath: string): string
  {
    ReplaceSuffix(ReplacePrefix(docPath, "docs/", "src/"), ".md", "")
  }

  predicate IsLinkDoc(docPath: string)
  {
    StartsWith(docPath, "docs/") && EndsWith(docPath, ".md")
  }

  /** The kinds that get links; variables are deliberately not among them. */
  predicate IsLinkKind(k: SymbolKind)
  {
    k == Function || k == Class || k == Method || k == Interface || k == Constant
  }

  /** A link: the matched span `[start, end)` of the document and the
      target file with its line fragment. */
  datatype Link = Link(start: nat, end: nat, target: string, fragment: string)

  /** `L` followed by the symbol's one-based start line. */
  function Fragment(sym: Symbol): string
  {
    "L" + Show(sym.range.start.line + 1)
  }

  /** What a link for `sym` at offset `i` of `text` looks like. */
  predicate LinkOf(l: Link, sym: Symbol, text: string, source: string)
  {
    WholeWordAt(text, sym.name, l.start) && l.end == l.start + |sym.name|
    && l.target == source && l.fragment == Fragment(sym)
  }

  /** One link per match of the global `\bname\b` search, in order.  The
      name is escaped before it is put in the pattern, so it is matched
      literally (`EscapeRegexIsLiteral`). */
  function LinksFor(text: string, sym: Symbol, source: string): (r: seq<Link>)
    requires |sym.name| > 0
    ensures var ms := WholeWordMatches(text, sym.name, 0);
            |r| == |ms| && forall k :: 0 <= k < |r| ==> r[k].start == ms[k] && LinkOf(r[k], sym, text, source)
  {
    var ms := WholeWordMatches(text, sym.name, 0);
    seq(|ms|, k requires 0 <= k < |ms| => Link(ms[k], ms[k] + |sym.name|, source, Fragment(sym)))
  }

  /** The links of every symbol of a link kind, symbol after symbol.
      Document symbols always have a name, so a nameless one yields none. */
  function AllLinks(text: string, syms: seq<Symbol>, source: string): (r: seq<Link>)
    ensures forall l :: l in r ==>
              exists sym :: sym in syms && IsLinkKind(sym.kind) && LinkOf(l, sym, text, source)
  {
    if |syms| == 0 then []
    else
      var sym := syms[0];
      var here := if IsLinkKind(sym.kind) && |sym.name| > 0 then LinksFor(text, sym, source) else [];
      var rest := AllLinks(text, syms[1..], source);
      assert forall l :: l in here ==> LinkOf(l, sym, text, source);
      assert forall s :: s in syms[1..] ==> s in syms;
      here + rest
  }

  /** Every whole-word occurrence of a linked symbol's name lies inside one
      of that symbol's links. */
  lemma {:induction false} AllLinksComplete(text: string, syms: seq<Symbol>, source: string, idx: nat, j: nat)
    requires idx < |syms| && IsLinkKind(syms[idx].kind) && |syms[idx].name| > 0
    requires WholeWordAt(text, syms[idx].name, j)
    ensures exists l :: l in AllLinks(text, syms, source)
                        && LinkOf(l, syms[idx], text, source) && l.start <= j < l.end
    decreases |syms|
  {
    var sym := syms[0];
    var here := if IsLinkKind(sym.kind) && |sym.name| > 0 then LinksFor(text, sym, source) else [];
    var rest := AllLinks(text, syms[1..], source);
    assert AllLinks(text, syms, source) == here + rest;
    if idx == 0 {
      WholeWordMatchesComplete(text, sym.name, 0, j);
      var ms := WholeWordMatches(text, sym.name, 0);
      var k :| 0 <= k < |ms| && ms[k] <= j < ms[k] + |sym.name|;
      assert here[k] in here + rest;
    } else {
      assert syms[1..][idx - 1] == syms[idx];
      AllLinksComplete(text, syms[1..], source, idx - 1, j);
      var l :| l in rest && LinkOf(l, syms[idx], text, source) && l.start <= j < l.end;
      assert l in here + rest;
    }
  }

  /** What the provider reads besides the document: whether it lies in a
      workspace folder, the files that exist, the symbol provider's answer
      for a file (`Err` when it fails), whether an editor shows the
      document, and whether links are drawn without underline. */
  datatype Workspace = Workspace(
    inFolder: bool,
    files: set<string>,
    symbolsOf: string -> Result<seq<Symbol>, string>,
    visible: bool,
    linksHidden: bool)

  /** The links, and the ranges set as the no-underline decoration when an
      editor shows the document (`None`: decorations are left alone). */
  datatype LinkResult = LinkResult(links: seq<Link>, decorations: Option<seq<(nat, nat)>>)

  function Spans(links: seq<Link>): (r: seq<(nat, nat)>)
    ensures |r| == |links| && forall k :: 0 <= k < |r| ==> r[k] == (links[k].start, links[k].end)
  {
    seq(|links|, k requires 0 <= k < |links| => (links[k].start, links[k].end))
  }

  /** The source a doc links to: the first existing of its `.ts`, `.tsx`,
      `.js` and `.jsx` candidates. */
  function LinkSource(docPath: string, files: set<string>): Option<string>
  {
    FirstExisting(LinkSourceBase(docPath), LinkProbe, files)
  }

  /** `provideDocumentLinks`. */
  function ProvideDocumentLinks(docPath: string, text: string, ws: Workspace): (r: LinkResult)
    ensures !IsLinkDoc(docPath) || !ws.inFolder ==> r == LinkResult([], None)
    ensures LinkSource(docPath, ws.files).None? ==> r == LinkResult([], None)
    ensures |r.links| > 0 ==>
              var source := LinkSource(docPath, ws.files).value;
              source in ws.files && ws.symbolsOf(source).Ok?
              && forall l :: l in r.links ==>
                   exists sym :: sym in Flatten(ws.symbolsOf(source).value) && IsLinkKind(sym.kind)
                                 && LinkOf(l, sym, text, source)
    ensures r.decorations.Some? ==> ws.visible && r.decorations.value == (if ws.linksHidden then Spans(r.links) else [])
    ensures IsLinkDoc(docPath) && ws.inFolder && LinkSource(docPath, ws.files).Some? ==>
              var source := LinkSource(docPath, ws.files).value;
              (ws.symbolsOf(source).Err? ==> r == LinkResult([], None))
              && (ws.symbolsOf(source).Ok? ==>
                    r.links == AllLinks(text, Flatten(ws.symbolsOf(source).value), source)
                    && (r.decorations.Some? <==> ws.visible))
  {
    if !IsLinkDoc(docPath) || !ws.inFolder then LinkResult([], None)
    else
      match LinkSource(docPath, ws.files)
      case None => LinkResult([], None)
      case Some(source) =>
        match ws.symbolsOf(source)
        case Err(_) => LinkResult([], None)
        case Ok(syms) =>
          var links := AllLinks(text, Flatten(syms), source);
          var decorations := if !ws.visible then None else if ws.linksHidden then Some(Spans(links)) else Some([]);
          LinkResult(links, decorations)
  }

  /** `docs/x.md` links to `src/x.ts` when that exists. */
  lemma DocLinksToTs(x: string, files: set<string>)
    requires "src/" + x + ".ts" in files
    ensures LinkSource("docs/" + x + ".md", files) == Some("src/" + x + ".ts")
  {
    var doc := "docs/" + x + ".md";
    assert doc == "docs/" + (x + ".md");
    ReplacePrefixOf("docs/", x + ".md", "src/");
    assert "src/" + (x + ".md") == ("src/" + x) + ".md";
    ReplaceSuffixOf("src/" + x, ".md", "");
    assert ("src/" + x) + "" == "src/" + x;
    assert Candidate("src/" + x, "ts") == "src/" + x + ".ts";
  }

  /** `toggleLink`: with a markdown editor active the flag flips and the
      decoration follows it; otherwise nothing happens.  The result is the
      new flag and, when it acted, whether underlines are now hidden. */
  function ToggleLink(activeLanguage: Option<string>, hidden: bool): (r: (bool, Option<bool>))
    ensures activeLanguage != Some("markdown") ==> r == (hidden, None)
    ensures activeLanguage == Some("markdown") ==> r.0 == !hidden && r.1 == Some(r.0)
  {
    if activeLanguage != Some("markdown") then (hidden, None)
    else (!hidden, Some(!hidden))
  }

  /** Toggling twice in a markdown editor restores the flag. */
  lemma ToggleTwice(hidden: bool)
    ensures ToggleLink(Some("markdown"), ToggleLink(Some("markdown"), hidden).0).0 == hidden
  {
  }
}

=== FILE: file_status.dfy ===
/** The "Documentation Status" tree (src/providers/fileStatusProvider.ts):
    five category nodes, and under each the workspace files whose status is
    that category.  A file's status comes from whether its counterpart
    exists, the file times, and the entry the `doch` state file holds. */
module FileStatus {
  import opened Wrappers
  import opened Text
  import opened Seqs
  import opened DocPaths
  import opened DocState

  datatype Status = Undocumented | OutOfDate | Documented | NoSource | Independent

  /** What `fs.stat` reports; only the two times are read. */
  datatype Stat = Stat(ctime: int, mtime: int)

  /** The workspace: every existing relative path with its times. */
  type Files = map<string, Stat>

  /** `Math.max(ctime, mtime)`. */
  function FileTime(s: Stat): (t: int)
    ensures t >= s.ctime && t >= s.mtime
    ensures t == s.ctime || t == s.mtime
  {
    if s.ctime >= s.mtime then s.ctime else s.mtime
  }

  /** The state `getChildren` reads: the stored map, or `{}` when the file is
      missing or unparsable (nothing is written here). */
  function ReadState(file: StateFile): (r: State)
    ensures file.Stored? ==> r == file.state
    ensures !file.Stored? ==> r == map[]
  {
    if file.Stored? then file.state else map[]
  }

  /** The rule both branches share once the counterpart exists: an entry
      recorded before either file last changed is stale; otherwise the
      entry's flag decides, and a missing entry counts as undocumented. */
  function Tracked(entry: Option<Entry>, codeTime: int, docTime: int): (s: Status)
    ensures s == OutOfDate <==> entry.Some? && (entry.value.timestamp < codeTime || entry.value.timestamp < docTime)
    ensures s == Documented <==> entry.Some? && entry.value.timestamp >= codeTime
                                 && entry.value.timestamp >= docTime && entry.value.documented
    ensures s in {OutOfDate, Documented, Undocumented}
  {
    if entry.Some? && (entry.value.timestamp < codeTime || entry.value.timestamp < docTime) then OutOfDate
    else if entry.Some? && entry.value.documented then Documented
    else Undocumented
  }

  function Lookup(state: State, key: string): (r: Option<Entry>)
    ensures r.Some? <==> key in state
    ensures r.Some? ==> r.value == state[key]
  {
    if key in state then Some(state[key]) else None
  }

  /** `/\.(ts|js|tsx)$/.test(rel)`. */
  predicate IsSourceFile(rel: string)
  {
    MatchedExtension(rel, SourceExtensions).Some?
  }

  /** `/\.md$/.test(rel)`. */
  predicate IsMarkdownFile(rel: string)
  {
    EndsWith(rel, ".md")
  }

  /** The source base of a markdown path: `^docs[\/\\]` becomes `src/` and a
      trailing `.md` is dropped. */
  function MarkdownBase(rel: string): string
  {
    ReplaceSuffix(ReplaceLeadingDir(rel, "docs", "src/"), ".md", "")
  }

  /** The order in which a markdown file's source is looked for. */
  const ProbeExtensions: seq<string> := ["ts", "js", "tsx"]

  /** The status of one workspace file. */
  function Classify(rel: string, state: State, fs: Files): (s: Status)
    requires rel in fs
    ensures IsSourceFile(rel) && DriftDocPath(rel) !in fs ==> s == Undocumented
    ensures IsSourceFile(rel) && DriftDocPath(rel) in fs ==>
              s == Tracked(Lookup(state, rel), FileTime(fs[rel]), FileTime(fs[DriftDocPath(rel)]))
    ensures !IsSourceFile(rel) && IsMarkdownFile(rel) ==>
              match FirstExisting(MarkdownBase(rel), ProbeExtensions, fs.Keys)
              case None => s == (if StartsWith(rel, "docs/") then NoSource else Independent)
              case Some(src) => s == Tracked(Lookup(state, src), FileTime(fs[src]), FileTime(fs[rel]))
    ensures !IsSourceFile(rel) && !IsMarkdownFile(rel) ==> s == Undocumented
    ensures s in {NoSource, Independent} ==> !IsSourceFile(rel) && IsMarkdownFile(rel)
  {
    if IsSourceFile(rel) then
      var doc := DriftDocPath(rel);
      if doc !in fs then Undocumented
      else Tracked(Lookup(state, rel), FileTime(fs[rel]), FileTime(fs[doc]))
    else if IsMarkdownFile(rel) then
      match FirstExisting(MarkdownBase(rel), ProbeExtensions, fs.Keys)
      case None => if StartsWith(rel, "docs/") then NoSource else Independent
      case Some(src) => Tracked(Lookup(state, src), FileTime(fs[src]), FileTime(fs[rel]))
    else
      Undocumented
  }

  /** A source file drift has just recorded, with a clock reading no
      earlier than either file's last change, shows as documented exactly
      when its documentation exists. */
  lemma StatusAfterDrift(files: seq<string>, j: nat, state: State, fs: Files, clock: nat -> Timestamp)
    requires j < |files| && files[j] in fs && IsSourceFile(files[j])
    requires forall m :: j < m < |files| ==> files[m] != files[j]
    requires clock(j) >= FileTime(fs[files[j]])
    requires DriftDocPath(files[j]) in fs ==> clock(j) >= FileTime(fs[DriftDocPath(files[j])])
    ensures var after := Drift(files, state, fs.Keys, clock);
            Classify(files[j], after, fs) == (if DriftDocPath(files[j]) in fs then Documented else Undocumented)
  {
    var after := Drift(files, state, fs.Keys, clock);
    assert after[files[j]] == Entry(DriftDocPath(files[j]) in fs.Keys, clock(j));
  }

  // ---------------------------------------------------------------------
  // The tree.

  /** The five top-level labels, in display order. */
  const CategoryLabels: seq<string> :=
    ["Undocumented", "Out-of-date", "Documented", "No Source", "Independent Markdown"]

  /** The status a category node lists. */
  function CategoryStatus(caption: string): Option<Status>
  {
    if caption == "Undocumented" then Some(Undocumented)
    else if caption == "Out-of-date" then Some(OutOfDate)
    else if caption == "Documented" then Some(Documented)
    else if caption == "No Source" then Some(NoSource)
    else if caption == "Independent Markdown" then Some(Independent)
    else None
  }

  function StatusLabel(s: Status): string
  {
    match s
    case Undocumented => "Undocumented"
    case OutOfDate => "Out-of-date"
    case Documented => "Documented"
    case NoSource => "No Source"
    case Independent => "Independent Markdown"
  }

  /** Every status is listed under exactly one category, and only the five
      labels list anything. */
  lemma CategoriesPartition(caption: string, s: Status)
    ensures CategoryStatus(caption) == Some(s) <==> caption == StatusLabel(s)
    ensures CategoryStatus(caption).Some? <==> caption in CategoryLabels
    ensures StatusLabel(s) in CategoryLabels
  {
  }

  datatype Command = GenerateDoc(target: string) | OpenFile(target: string)

  datatype Item =
    | Category(caption: string)
    | File(name: string, path: string, status: Status, command: Command)

  /** The command a file item runs. */
  function CommandFor(s: Status, path: string): (c: Command)
    ensures c.target == path
    ensures c.GenerateDoc? <==> s == Undocumented
  {
    if s == Undocumented then GenerateDoc(path) else OpenFile(path)
  }

  /** The search glob: any file ending in `.ts`, `.tsx`, `.js`, `.jsx` or `.md`. */
  predicate InGlob(rel: string)
  {
    MatchedExtension(rel, ["ts", "tsx", "js", "jsx", "md"]).Some?
  }

  /** Whether a file is listed under a category: matched by the glob, not
      ignored, and of that category's status. */
  predicate Listed(rel: string, caption: string, state: State, fs: Files, ignored: string -> bool)
    requires rel in fs
  {
    InGlob(rel) && !ignored(rel) && CategoryStatus(caption) == Some(Classify(rel, state, fs))
  }

  /** The paths of the file items, in order. */
  function Paths(items: seq<Item>): seq<string>
  {
    seq(|items|, k requires 0 <= k < |items| => if items[k].File? then items[k].path else "")
  }

  /** The tree item of a listed file. */
  function ItemFor(rel: string, state: State, fs: Files): (it: Item)
    requires rel in fs
    ensures it.File? && it.path == rel && it.name == DocPaths.Basename(rel)
    ensures it.status == Classify(rel, state, fs)
    ensures it.command.target == rel && (it.command.GenerateDoc? <==> it.status == Undocumented)
  {
    var s := Classify(rel, state, fs);
    File(DocPaths.Basename(rel), rel, s, CommandFor(s, rel))
  }

  /** The found files that pass the filters, in the order found. */
  function ListedFiles(files: seq<string>, caption: string, state: State, fs: Files, ignored: string -> bool): (r: seq<string>)
    requires forall f :: f in files ==> f in fs
    ensures |r| <= |files|
    ensures forall f :: f in r <==> f in files && Listed(f, caption, state, fs, ignored)
  {
    if |files| == 0 then []
    else
      var rest := ListedFiles(files[1..], caption, state, fs, ignored);
      assert forall f :: f in files <==> f == files[0] || f in files[1..];
      if Listed(files[0], caption, state, fs, ignored) then [files[0]] + rest else rest
  }

  /** The listed files keep the order in which they were found. */
  lemma {:induction false} ListedInOrder(files: seq<string>, caption: string, state: State, fs: Files, ignored: string -> bool)
    requires forall f :: f in files ==> f in fs
    ensures Subseq(ListedFiles(files, caption, state, fs, ignored), files)
    decreases |files|
  {
    if |files| > 0 {
      ListedInOrder(files[1..], caption, state, fs, ignored);
      if Listed(files[0], caption, state, fs, ignored) {
        assert ListedFiles(files, caption, state, fs, ignored)[1..] == ListedFiles(files[1..], caption, state, fs, ignored);
      }
    }
  }

  /** One item per listed file. */
  function FileItems(files: seq<string>, caption: string, state: State, fs: Files, ignored: string -> bool): (r: seq<Item>)
    requires forall f :: f in files ==> f in fs
    ensures var listed := ListedFiles(files, caption, state, fs, ignored);
            |r| == |listed| && forall k :: 0 <= k < |r| ==> r[k] == ItemFor(listed[k], state, fs)
    ensures Paths(r) == ListedFiles(files, caption, state, fs, ignored)
  {
    var listed := ListedFiles(files, caption, state, fs, ignored);
    var r := seq(|listed|, k requires 0 <= k < |listed| => ItemFor(listed[k], state, fs));
    assert forall k :: 0 <= k < |r| ==> Paths(r)[k] == listed[k];
    r
  }

  /** `getChildren`: the categories at the top, and under a category the
      listed files in the order they were found.  Without a workspace
      folder a category is empty. */
  function GetChildren(element: Option<string>, hasFolder: bool, files: seq<string>, stateFile: StateFile,
                       fs: Files, ignored: string -> bool): (r: seq<Item>)
    requires forall f :: f in files ==> f in fs
    ensures element.None? ==> |r| == 5 && forall k :: 0 <= k < 5 ==> r[k] == Category(CategoryLabels[k])
    ensures element.Some? && !hasFolder ==> r == []
    ensures element.Some? && hasFolder ==>
              forall f :: f in files ==> (f in Paths(r) <==> Listed(f, element.value, ReadState(stateFile), fs, ignored))
    ensures element.Some? ==> forall k :: 0 <= k < |r| ==>
              r[k].File? && CategoryStatus(element.value) == Some(r[k].status)
              && (r[k].command.GenerateDoc? <==> r[k].status == Undocumented)
  {
    match element
    case None => [Category(CategoryLabels[0]), Category(CategoryLabels[1]), Category(CategoryLabels[2]),
                  Category(CategoryLabels[3]), Category(CategoryLabels[4])]
    case Some(caption) =>
      if !hasFolder then []
      else
        var state := ReadState(stateFile);
        var listed := ListedFiles(files, caption, state, fs, ignored);
        var r := FileItems(files, caption, state, fs, ignored);
        assert forall k :: 0 <= k < |r| ==> listed[k] in listed && r[k] == ItemFor(listed[k], state, fs);
        r
  }

  /** A file listed under one category is listed under no other. */
  lemma ListedOnce(rel: string, c1: string, c2: string, state: State, fs: Files, ignored: string -> bool)
    requires rel in fs
    requires Listed(rel, c1, state, fs, ignored) && Listed(rel, c2, state, fs, ignored)
    ensures c1 == c2
  {
    var s := Classify(rel, state, fs);
    CategoriesPartition(c1, s);
    CategoriesPartition(c2, s);
  }
}

=== FILE: git_log.dfy ===
/** The history view's `runCommand` message
    (src/providers/versionControlViewProvider.ts): `git log` is run with a
    fixed format and its text is cut into commit records.  The subprocess
    is an input: what git prints for an argument list.  `Entry` and
    `LogText` state what git prints for a list of commits, so that the
    parse can be checked against it. */
module GitLog {
  import opened Wrappers
  import opened Text
  import opened Seqs

  /** A commit as git knows it: full hash, author name, ISO date and
      subject line. */
  datatype Commit = Commit(hash: string, author: string, date: string, subject: string)

  /** A record sent to the view.  A chunk with fewer than three lines has
      no author or date (`undefined` in the program). */
  datatype LogRecord = LogRecord(hash: string, author: Option<string>, date: Option<string>, message: string)

  datatype CommandOutput = Records(records: seq<LogRecord>) | Message(text: string)

  /** The argument list as written: `format:` puts a single newline
      between entries. */
  const LogArgsAsWritten: seq<string> := ["log", "--pretty=format:%H%n%an%n%ad%n%s", "--date=iso"]

  /** The argument list that makes entries end in a newline, so that two
      newlines separate them. */
  const LogArgs: seq<string> := ["log", "--pretty=format:%H%n%an%n%ad%n%s%n", "--date=iso"]

  // ---------------------------------------------------------------------
  // Parsing.

  /** `chunks.filter(Boolean)`: the non-empty chunks, in order. */
  function NonEmpty(chunks: seq<string>): (r: seq<string>)
    ensures forall c :: c in r <==> c in chunks && c != ""
    ensures (forall k :: 0 <= k < |chunks| ==> chunks[k] != "") ==> r == chunks
  {
    if |chunks| == 0 then []
    else
      var rest := NonEmpty(chunks[1..]);
      assert forall c :: c in chunks <==> c == chunks[0] || c in chunks[1..];
      if chunks[0] == "" then rest else [chunks[0]] + rest
  }

  /** The non-empty chunks keep their order. */
  lemma {:induction false} NonEmptyInOrder(chunks: seq<string>)
    ensures Subseq(NonEmpty(chunks), chunks)
    decreases |chunks|
  {
    if |chunks| > 0 {
      NonEmptyInOrder(chunks[1..]);
      if chunks[0] != "" {
        assert NonEmpty(chunks)[1..] == NonEmpty(chunks[1..]);
      }
    }
  }

  /** One chunk to a record: its first three lines, and the rest joined
      and trimmed as the message. */
  function ParseEntry(entry: string): (r: LogRecord)
    ensures r.hash == Split(entry, "\n")[0]
    ensures r.author.Some? <==> |Split(entry, "\n")| > 1
    ensures r.date.Some? <==> |Split(entry, "\n")| > 2
    ensures r.author.Some? ==> r.author.value == Split(entry, "\n")[1]
    ensures r.date.Some? ==> r.date.value == Split(entry, "\n")[2]
    ensures var lines := Split(entry, "\n");
            r.message == Trim(Join(if |lines| > 3 then lines[3..] else [], "\n"))
  {
    var lines := Split(entry, "\n");
    var rest := if |lines| > 3 then lines[3..] else [];
    var message := Trim(Join(rest, "\n"));
    LogRecord(lines[0],
              if |lines| > 1 then Some(lines[1]) else None,
              if |lines| > 2 then Some(lines[2]) else None,
              message)
  }

  /** `raw.split('\n\n').filter(Boolean).map(...)`. */
  function ParseLog(raw: string): (r: seq<LogRecord>)
    ensures var chunks := NonEmpty(Split(raw, "\n\n"));
            |r| == |chunks| && forall k :: 0 <= k < |r| ==> r[k] == ParseEntry(chunks[k])
  {
    var chunks := NonEmpty(Split(raw, "\n\n"));
    seq(|chunks|, k requires 0 <= k < |chunks| => ParseEntry(chunks[k]))
  }

  /** The `runCommand` message: only `git log` is run, always with the
      fixed arguments; anything else is answered with a message. */
  function RunCommand(command: string, args: seq<string>, git: seq<string> -> string): (r: CommandOutput)
    ensures command == "git" && |args| > 0 && args[0] == "log" ==> r == Records(ParseLog(git(LogArgs)))
    ensures !(command == "git" && |args| > 0 && args[0] == "log") ==>
              r == Message("Unsupported command: " + command + " " + Join(args, " "))
  {
    if command == "git" && |args| > 0 && args[0] == "log" then Records(ParseLog(git(LogArgs)))
    else Message("Unsupported command: " + command + " " + Join(args, " "))
  }

  /** The view's command handler as written: the same, but git runs with
      the arguments whose format has no trailing newline. */
  function RunCommandAsWritten(command: string, args: seq<string>, git: seq<string> -> string): (r: CommandOutput)
    ensures command == "git" && |args| > 0 && args[0] == "log" ==> r == Records(ParseLog(git(LogArgsAsWritten)))
    ensures !(command == "git" && |args| > 0 && args[0] == "log") ==> r == RunCommand(command, args, git)
  {
    if command == "git" && |args| > 0 && args[0] == "log" then Records(ParseLog(git(LogArgsAsWritten)))
    else Message("Unsupported command: " + command + " " + Join(args, " "))
  }

  // ---------------------------------------------------------------------
  // What git prints.

  /** The four format lines of one commit. */
  function Entry(c: Commit): string
  {
    c.hash + "\n" + (c.author + "\n" + (c.date + "\n" + c.subject))
  }

  /** The entries, each followed by `tail` (the expansion of a trailing
      `%n`, or nothing). */
  function Entries(cs: seq<Commit>, tail: string): (r: seq<string>)
    ensures |r| == |cs|
    ensures forall k :: 0 <= k < |cs| ==> r[k] == Entry(cs[k]) + tail
  {
    if |cs| == 0 then [] else [Entry(cs[0]) + tail] + Entries(cs[1..], tail)
  }

  /** `git log --pretty=format:…`: entries with a newline between them. */
  function LogText(cs: seq<Commit>, tail: string): string
  {
    Join(Entries(cs, tail), "\n")
  }

  predicate NoNewline(s: string)
  {
    forall i :: 0 <= i < |s| ==> s[i] != '\n'
  }

  /** A commit whose fields are single non-empty lines, with a subject that
      has no white space at either end. */
  predicate WellFormed(c: Commit)
  {
    NoNewline(c.hash) && NoNewline(c.author) && NoNewline(c.date) && NoNewline(c.subject)
    && c.author != "" && c.date != "" && c.subject != ""
    && !IsSpace(c.subject[0]) && !IsSpace(c.subject[|c.subject| - 1])
  }

  function Record(c: Commit): LogRecord
  {
    LogRecord(c.hash, Some(c.author), Some(c.date), c.subject)
  }

  // ---------------------------------------------------------------------
  // Splitting facts.

  /** Splitting at a separator that first occurs right after `a`. */
  lemma SplitAt(a: string, sep: string, rest: string)
    requires |sep| > 0
    requires forall j :: 0 <= j < |a| ==> !OccursAt(a + sep + rest, sep, j)
    ensures Split(a + sep + rest, sep) == [a] + Split(rest, sep)
  {
    var s := a + sep + rest;
    assert s[|a|..|a| + |sep|] == sep;
    assert OccursAt(s, sep, |a|);
    assert IndexOf(s, sep) == Some(|a|);
    assert s[..|a|] == a && s[|a| + |sep|..] == rest;
  }

  /** A single line followed by a newline is cut off by splitting at
      newlines. */
  lemma SplitLine(a: string, rest: string)
    requires NoNewline(a)
    ensures Split(a + "\n" + rest, "\n") == [a] + Split(rest, "\n")
  {
    var s := a + "\n" + rest;
    forall j | 0 <= j < |a| ensures !OccursAt(s, "\n", j) {
      assert s[j..j + 1][0] == a[j];
    }
    SplitAt(a, "\n", rest);
  }

  lemma SplitLastLine(a: string)
    requires NoNewline(a)
    ensures Split(a, "\n") == [a]
  {
    forall j | 0 <= j ensures !OccursAt(a, "\n", j) {
      if j + 1 <= |a| {
        assert a[j..j + 1][0] == a[j];
      }
    }
    assert IndexOf(a, "\n").None?;
  }

  /** The lines of an entry followed by `rest`: the first three fields,
      then the lines of the subject followed by `rest`. */
  lemma EntryLines(c: Commit, rest: string)
    requires WellFormed(c)
    ensures Split(Entry(c) + rest, "\n") == [c.hash, c.author, c.date] + Split(c.subject + rest, "\n")
  {
    EntryThen(c, rest);
    ThreeLines(c.hash, c.author, c.date, c.subject + rest);
  }

  lemma EntryThen(c: Commit, rest: string)
    ensures Entry(c) + rest == c.hash + "\n" + (c.author + "\n" + (c.date + "\n" + (c.subject + rest)))
  {
  }

  lemma ThreeLines(h: string, a: string, d: string, rest: string)
    requires NoNewline(h) && NoNewline(a) && NoNewline(d)
    ensures Split(h + "\n" + (a + "\n" + (d + "\n" + rest)), "\n") == [h, a, d] + Split(rest, "\n")
  {
    var lines := Split(rest, "\n");
    var t := d + "\n" + rest;
    var u := a + "\n" + t;
    SplitLine(d, rest);
    SplitLine(a, t);
    SplitLine(h, u);
    ConsThree(h, a, d, lines);
  }

  lemma ConsThree<T>(x: T, y: T, z: T, xs: seq<T>)
    ensures [x] + ([y] + ([z] + xs)) == [x, y, z] + xs
  {
  }

  /** An entry, with or without the trailing newline, parses back to its
      commit. */
  lemma ParseEntryOf(c: Commit, tail: string)
    requires WellFormed(c) && (tail == "" || tail == "\n")
    ensures ParseEntry(Entry(c) + tail) == Record(c)
  {
    EntryLines(c, tail);
    var s := c.subject;
    var lines := Split(Entry(c) + tail, "\n");
    if tail == "" {
      assert s + tail == s;
      SplitLastLine(s);
      assert lines[3..] == [s];
      TrimNoop(s);
    } else {
      assert s + tail == s + "\n" + "";
      SplitLine(s, "");
      SplitLastLine("");
      assert lines[3..] == [s, ""];
      assert Join([s, ""], "\n") == s + "\n";
      TrimSubjectNewline(s);
    }
  }

  lemma TrimSubjectNewline(s: string)
    requires s != "" && !IsSpace(s[0]) && !IsSpace(s[|s| - 1])
    ensures Trim(s + "\n") == s
  {
    var t := s + "\n";
    assert SpaceRun(t) == 0;
    assert t[0..] == t;
    assert t[..|t| - 1] == s;
    TrimNoop(s);
  }

  /** No two newlines in a row. */
  predicate NoBlankLine(s: string)
  {
    forall i :: 0 <= i < |s| - 1 ==> s[i] != '\n' || s[i + 1] != '\n'
  }

  /** A text with no blank line is not cut by `split('\n\n')`. */
  lemma NoBlankLineNoSplit(s: string)
    requires NoBlankLine(s)
    ensures Split(s, "\n\n") == [s]
  {
    forall j | 0 <= j ensures !OccursAt(s, "\n\n", j) {
      if j + 2 <= |s| {
        assert s[j..j + 2][0] == s[j] && s[j..j + 2][1] == s[j + 1];
      }
    }
    assert IndexOf(s, "\n\n").None?;
  }

  /** A block of lines: non-empty, starting and ending inside a line, with
      no blank line. */
  predicate Block(e: string)
  {
    |e| > 0 && e[0] != '\n' && e[|e| - 1] != '\n' && NoBlankLine(e)
  }

  /** A line and a block joined by a newline form a block. */
  lemma LineThenBlock(a: string, b: string)
    requires |a| > 0 && NoNewline(a) && Block(b)
    ensures Block(a + "\n" + b)
  {
    var e := a + "\n" + b;
    forall i | 0 <= i < |e| - 1 ensures e[i] != '\n' || e[i + 1] != '\n' {
      if i < |a| {
        assert e[i] == a[i];
      } else {
        assert e[i + 1] == b[i - |a|];
        if i > |a| {
          assert e[i] == b[i - |a| - 1];
        }
      }
    }
    assert e[0] == a[0];
    assert e[|e| - 1] == b[|b| - 1];
  }

  lemma LineBlock(a: string)
    requires |a| > 0 && NoNewline(a)
    ensures Block(a)
  {
  }

  /** An entry is one block of lines. */
  lemma EntryBlock(c: Commit)
    requires WellFormed(c) && |c.hash| > 0
    ensures Block(Entry(c))
  {
    LineBlock(c.subject);
    LineThenBlock(c.date, c.subject);
    LineThenBlock(c.author, c.date + "\n" + c.subject);
    LineThenBlock(c.hash, c.author + "\n" + (c.date + "\n" + c.subject));
  }

  /** Two blocks joined by one newline form a block. */
  lemma BlockThenBlock(a: string, b: string)
    requires Block(a) && Block(b)
    ensures Block(a + "\n" + b)
  {
    var e := a + "\n" + b;
    forall i | 0 <= i < |e| - 1 ensures e[i] != '\n' || e[i + 1] != '\n' {
      if i < |a| - 1 {
        assert e[i] == a[i] && e[i + 1] == a[i + 1];
      } else if i == |a| - 1 {
        assert e[i] == a[i];
      } else if i == |a| {
        assert e[i + 1] == b[0];
      } else {
        assert e[i] == b[i - |a| - 1] && e[i + 1] == b[i - |a|];
      }
    }
    assert e[0] == a[0];
    assert e[|e| - 1] == b[|b| - 1];
  }

  /** Blocks joined by single newlines form one block. */
  lemma {:induction false} JoinedBlocks(parts: seq<string>)
    requires |parts| > 0 && forall k :: 0 <= k < |parts| ==> Block(parts[k])
    ensures Block(Join(parts, "\n"))
    decreases |parts|
  {
    if |parts| > 1 {
      JoinedBlocks(parts[1..]);
      BlockThenBlock(parts[0], Join(parts[1..], "\n"));
    }
  }

  // ---------------------------------------------------------------------
  // The two formats.

  /** Non-empty text with no blank line is one chunk, so one record. */
  lemma OneChunk(raw: string)
    requires Block(raw)
    ensures ParseLog(raw) == [ParseEntry(raw)]
  {
    NoBlankLineNoSplit(raw);
    assert NonEmpty([raw]) == [raw];
  }

  /** As written, git's output for any well-formed history has no blank
      line, so the whole log becomes one record, carrying the newest
      commit's hash, author and date. */
  lemma LogAsWrittenIsOneRecord(cs: seq<Commit>)
    requires |cs| >= 1 && forall k :: 0 <= k < |cs| ==> WellFormed(cs[k]) && |cs[k].hash| > 0
    ensures var r := ParseLog(LogText(cs, ""));
            |r| == 1 && r[0].hash == cs[0].hash && r[0].author == Some(cs[0].author)
            && r[0].date == Some(cs[0].date)
  {
    var raw := LogText(cs, "");
    AsWrittenBlock(cs);
    OneChunk(raw);
    AsWrittenHead(cs);
  }

  /** As written, git's output is one block of lines. */
  lemma AsWrittenBlock(cs: seq<Commit>)
    requires |cs| >= 1 && forall k :: 0 <= k < |cs| ==> WellFormed(cs[k]) && |cs[k].hash| > 0
    ensures Block(LogText(cs, ""))
  {
    var parts := Entries(cs, "");
    forall k | 0 <= k < |parts| ensures Block(parts[k]) {
      assert parts[k] == Entry(cs[k]);
      EntryBlock(cs[k]);
    }
    JoinedBlocks(parts);
  }

  /** As written, the first three lines of git's output are the newest
      commit's hash, author and date. */
  lemma AsWrittenHead(cs: seq<Commit>)
    requires |cs| >= 1 && WellFormed(cs[0])
    ensures var lines := Split(LogText(cs, ""), "\n");
            |lines| >= 3 && lines[0] == cs[0].hash && lines[1] == cs[0].author && lines[2] == cs[0].date
  {
    var parts := Entries(cs, "");
    var raw := Join(parts, "\n");
    var e := Entry(cs[0]);
    assert parts[0] == e + "" == e;
    if |cs| == 1 {
      assert raw == e + "";
      EntryLines(cs[0], "");
    } else {
      var rest := "\n" + Join(parts[1..], "\n");
      assert raw == e + "\n" + Join(parts[1..], "\n") == e + rest;
      EntryLines(cs[0], rest);
    }
  }

  /** Two well-formed commits, as written, come back as one record. */
  lemma TwoCommitsMerge(a: Commit, b: Commit)
    requires WellFormed(a) && WellFormed(b) && |a.hash| > 0 && |b.hash| > 0
    ensures |ParseLog(LogText([a, b], ""))| == 1
  {
    LogAsWrittenIsOneRecord([a, b]);
  }

  /** The chunks of the corrected output: every entry, the last one still
      carrying its newline. */
  function Chunks(cs: seq<Commit>): (r: seq<string>)
    requires |cs| >= 1
    ensures |r| == |cs|
    ensures forall k :: 0 <= k < |cs| - 1 ==> r[k] == Entry(cs[k])
    ensures r[|cs| - 1] == Entry(cs[|cs| - 1]) + "\n"
  {
    if |cs| == 1 then [Entry(cs[0]) + "\n"] else [Entry(cs[0])] + Chunks(cs[1..])
  }

  /** A block followed by a single newline is still one chunk. */
  lemma BlockNewlineNoSplit(e: string)
    requires Block(e)
    ensures Split(e + "\n", "\n\n") == [e + "\n"]
  {
    var t := e + "\n";
    forall i | 0 <= i < |t| - 1 ensures t[i] != '\n' || t[i + 1] != '\n' {
      assert t[i] == e[i];
      if i < |e| - 1 {
        assert t[i + 1] == e[i + 1];
      }
    }
    NoBlankLineNoSplit(t);
  }

  /** A block followed by a blank line is cut off by `split('\n\n')`. */
  lemma BlockThenBlank(e: string, rest: string)
    requires Block(e)
    ensures Split(e + "\n\n" + rest, "\n\n") == [e] + Split(rest, "\n\n")
  {
    var s := e + "\n\n" + rest;
    forall j | 0 <= j < |e| ensures !OccursAt(s, "\n\n", j) {
      assert s[j..j + 2][0] == e[j];
      if j < |e| - 1 {
        assert s[j..j + 2][1] == e[j + 1];
      }
    }
    SplitAt(e, "\n\n", rest);
  }

  lemma {:induction false} SplitCorrected(cs: seq<Commit>)
    requires |cs| >= 1 && forall k :: 0 <= k < |cs| ==> WellFormed(cs[k]) && |cs[k].hash| > 0
    ensures Split(LogText(cs, "\n"), "\n\n") == Chunks(cs)
    decreases |cs|
  {
    var e := Entry(cs[0]);
    EntryBlock(cs[0]);
    if |cs| == 1 {
      assert LogText(cs, "\n") == e + "\n";
      BlockNewlineNoSplit(e);
    } else {
      var rest := LogText(cs[1..], "\n");
      assert Entries(cs, "\n")[1..] == Entries(cs[1..], "\n");
      assert LogText(cs, "\n") == e + "\n\n" + rest;
      BlockThenBlank(e, rest);
      SplitCorrected(cs[1..]);
    }
  }

  /** Every chunk of the corrected output parses back to its commit. */
  lemma ChunksParse(cs: seq<Commit>)
    requires |cs| >= 1 && forall k :: 0 <= k < |cs| ==> WellFormed(cs[k]) && |cs[k].hash| > 0
    ensures forall k :: 0 <= k < |cs| ==> Chunks(cs)[k] != "" && ParseEntry(Chunks(cs)[k]) == Record(cs[k])
  {
    var chunks := Chunks(cs);
    forall k | 0 <= k < |cs| ensures chunks[k] != "" && ParseEntry(chunks[k]) == Record(cs[k]) {
      EntryBlock(cs[k]);
      if k < |cs| - 1 {
        assert chunks[k] == Entry(cs[k]) + "";
        ParseEntryOf(cs[k], "");
      } else {
        ParseEntryOf(cs[k], "\n");
      }
    }
  }

  /** With the corrected format, parsing git's output gives back every
      commit, in order. */
  lemma LogRoundTrip(cs: seq<Commit>)
    requires forall k :: 0 <= k < |cs| ==> WellFormed(cs[k]) && |cs[k].hash| > 0
    ensures |ParseLog(LogText(cs, "\n"))| == |cs|
    ensures forall k :: 0 <= k < |cs| ==> ParseLog(LogText(cs, "\n"))[k] == Record(cs[k])
  {
    if |cs| == 0 {
      assert LogText(cs, "\n") == "";
      assert IndexOf("", "\n\n").None?;
      assert Split("", "\n\n") == [""];
    } else {
      SplitCorrected(cs);
      ChunksParse(cs);
      assert NonEmpty(Chunks(cs)) == Chunks(cs);
    }
  }

  /** The history view, given git's output for its own arguments, lists
      the commits. */
  lemma RunLogLists(cs: seq<Commit>, args: seq<string>, git: seq<string> -> string)
    requires forall k :: 0 <= k < |cs| ==> WellFormed(cs[k]) && |cs[k].hash| > 0
    requires |args| > 0 && args[0] == "log"
    requires git(LogArgs) == LogText(cs, "\n")
    ensures RunCommand("git", args, git).Records?
    ensures RunCommand("git", args, git).records == seq(|cs|, k requires 0 <= k < |cs| => Record(cs[k]))
  {
    LogRoundTrip(cs);
  }

  /** The history view as written, given git's output for its own
      arguments, shows any non-empty history as a single entry: the
      newest commit's hash, author and date. */
  lemma RunLogAsWrittenMerges(cs: seq<Commit>, args: seq<string>, git: seq<string> -> string)
    requires |cs| >= 1 && forall k :: 0 <= k < |cs| ==> WellFormed(cs[k]) && |cs[k].hash| > 0
    requires |args| > 0 && args[0] == "log"
    requires git(LogArgsAsWritten) == LogText(cs, "")
    ensures var r := RunCommandAsWritten("git", args, git);
            r.Records? && |r.records| == 1 && r.records[0].hash == cs[0].hash
            && r.records[0].author == Some(cs[0].author) && r.records[0].date == Some(cs[0].date)
  {
    LogAsWrittenIsOneRecord(cs);
  }
}

=== FILE: inline_suggestion.dfy ===
/** Inline suggestions while writing a doc
    (src/providers/documentInlineSuggestionProvider.ts): offered only in
    markdown files under the docs directory whose source file can be found,
    with the suggestion text itself coming from a language service that is
    an input here. */
module InlineSuggestion {
  import opened Wrappers
  import opened Text
  import opened DocPaths
  import opened Symbols

  /** `findCorrespondingSourceFile`: the first `base.ext` that exists, with
      the extensions in the order the workspace configuration lists them;
      nothing without a workspace folder. */
  function FindSource(hasFolder: bool, setting: Option<string>, docRel: string,
                      extensions: seq<string>, files: set<string>): (r: Option<string>)
    ensures !hasFolder ==> r.None?
    ensures hasFolder ==> r == FirstExisting(SourceBase(docRel, DocsDirectory(setting)), extensions, files)
    ensures r.Some? ==> r.value in files
  {
    if !hasFolder then None
    else FirstExisting(SourceBase(docRel, DocsDirectory(setting)), extensions, files)
  }

  /** A suggestion shown at the cursor: the text and an empty range there. */
  datatype Completion = Completion(text: string, range: Range)

  /** Everything the provider reads besides the document and cursor: the
      folder, setting and configured extensions, the files that exist, their
      contents (`None` when reading fails), and the language service, which
      answers with a suggestion or fails. */
  datatype Workspace = Workspace(
    hasFolder: bool,
    setting: Option<string>,
    extensions: seq<string>,
    files: set<string>,
    read: string -> Option<string>,
    suggest: (string, string, string, Position) -> Result<string, string>)

  /** The docs gate: a path under the docs directory ending in `.md`. */
  predicate IsDocPath(docPath: string, setting: Option<string>)
  {
    StartsWith(docPath, DocsDirectory(setting)) && EndsWith(docPath, ".md")
  }

  /** `provideInlineCompletionItems`: `None` stands for `null`. */
  function ProvideInline(docPath: string, docContent: string, position: Position, ws: Workspace): (r: Option<seq<Completion>>)
    ensures !IsDocPath(docPath, ws.setting) ==> r.None?
    ensures FindSource(ws.hasFolder, ws.setting, docPath, ws.extensions, ws.files).None? ==> r.None?
    ensures r.Some? ==> |r.value| == 1 && r.value[0].text != "" && r.value[0].range == Range(position, position)
    ensures r.Some? <==>
              IsDocPath(docPath, ws.setting)
              && var source := FindSource(ws.hasFolder, ws.setting, docPath, ws.extensions, ws.files);
                 source.Some? && ws.read(source.value).Some?
                 && var answer := ws.suggest(docContent, ws.read(source.value).value, ToLower(Extname(source.value)), position);
                    answer.Ok? && answer.value != ""
    ensures r.Some? ==>
              var source := FindSource(ws.hasFolder, ws.setting, docPath, ws.extensions, ws.files).value;
              r.value[0].text == ws.suggest(docContent, ws.read(source).value, ToLower(Extname(source)), position).value
  {
    if !IsDocPath(docPath, ws.setting) then None
    else
      match FindSource(ws.hasFolder, ws.setting, docPath, ws.extensions, ws.files)
      case None => None
      case Some(source) =>
        match ws.read(source)
        case None => None
        case Some(code) =>
          match ws.suggest(docContent, code, ToLower(Extname(source)), position)
          case Err(_) => None
          case Ok(text) => if text == "" then None else Some([Completion(text, Range(position, position))])
  }

  /** For `docs/x.md` the language service is told the extension of the
      source found, lower-cased, and the first configured extension whose
      file exists wins. */
  lemma SuggestionUsesFoundSource(setting: Option<string>, x: string, extensions: seq<string>, files: set<string>, k: nat)
    requires |x| > 0 && x[|x| - 1] != '/'
    requires k < |extensions| && Candidate("src/" + x, extensions[k]) in files
    requires forall j :: 0 <= j < k ==> Candidate("src/" + x, extensions[j]) !in files
    requires forall e :: e in extensions ==> NoDot(e) && forall i :: 0 <= i < |e| ==> e[i] != '/'
    ensures var source := FindSource(true, setting, DocsDirectory(setting) + x + ".md", extensions, files);
            source == Some(Candidate("src/" + x, extensions[k]))
            && ToLower(Extname(source.value)) == ToLower("." + extensions[k])
  {
    var dir := DocsDirectory(setting);
    SourceBaseOfDoc(dir, x);
    var base := "src/" + x;
    var r := FirstExisting(base, extensions, files);
    var k' :| 0 <= k' < |extensions| && r.value == Candidate(base, extensions[k'])
              && forall j :: 0 <= j < k' ==> Candidate(base, extensions[j]) !in files;
    assert k' == k;
    ExtnameOfCandidate(base, extensions[k]);
  }
}

=== FILE: missing_doc.dfy ===
/** The missing-documentation check for markdown docs
    (src/providers/missingDocCodeActionProvider.ts): the functions of the
    corresponding source file that no markdown symbol names are reported,
    with a fix that appends numbered sections for them and a fix that
    ignores the document.  The symbol and definition providers are inputs:
    the symbol trees as values, the definition lookup as a predicate. */
module MissingDoc {
  import opened Wrappers
  import opened Text
  import opened Sorting
  import opened DocPaths
  import opened Symbols
  import opened Numbering
  import opened Seqs

  // ---------------------------------------------------------------------
  // Ignored documents (`addIgnoredDoc`, `isDocIgnored`).

  predicate NoDuplicates(xs: seq<string>)
  {
    forall i, j :: 0 <= i < j < |xs| ==> xs[i] != xs[j]
  }

  predicate IsDocIgnored(ignored: seq<string>, uri: string)
  {
    uri in ignored
  }

  /** Appends the document unless it is already there. */
  function AddIgnoredDoc(ignored: seq<string>, uri: string): (r: seq<string>)
    ensures IsDocIgnored(r, uri)
    ensures uri in ignored ==> r == ignored
    ensures uri !in ignored ==> r == ignored + [uri]
    ensures NoDuplicates(ignored) ==> NoDuplicates(r)
    ensures forall u :: u in r <==> u in ignored || u == uri
  {
    if uri in ignored then ignored else ignored + [uri]
  }

  lemma AddIgnoredDocIdempotent(ignored: seq<string>, uri: string)
    ensures AddIgnoredDoc(AddIgnoredDoc(ignored, uri), uri) == AddIgnoredDoc(ignored, uri)
  {
  }

  // ---------------------------------------------------------------------
  // The source file of a doc (`findCorrespondingSourceFile`).

  const SourceProbe: seq<string> := ["ts", "tsx", "js", "jsx"]

  /** The first of `base.ts`, `base.tsx`, `base.js`, `base.jsx` that exists;
      nothing without a workspace folder. */
  function FindSource(hasFolder: bool, setting: Option<string>, docRel: string, files: set<string>): (r: Option<string>)
    ensures !hasFolder ==> r.None?
    ensures hasFolder ==> r == FirstExisting(SourceBase(docRel, DocsDirectory(setting)), SourceProbe, files)
    ensures r.Some? ==> r.value in files
  {
    if !hasFolder then None
    else FirstExisting(SourceBase(docRel, DocsDirectory(setting)), SourceProbe, files)
  }

  /** The source of `docs/x.md` is `src/x.ts` when that exists, and `src/x.tsx`
      is only found when `src/x.ts` does not exist. */
  lemma FindSourcePrefersTs(setting: Option<string>, x: string, files: set<string>)
    ensures var doc := DocsDirectory(setting) + x + ".md";
            ("src/" + x + ".ts" in files ==> FindSource(true, setting, doc, files) == Some("src/" + x + ".ts"))
            && (FindSource(true, setting, doc, files) == Some("src/" + x + ".tsx") ==> "src/" + x + ".ts" !in files)
  {
    var doc := DocsDirectory(setting) + x + ".md";
    var base := "src/" + x;
    var ts, tsx := "src/" + x + ".ts", "src/" + x + ".tsx";
    if ts in files {
      SourceBaseOfDoc(DocsDirectory(setting), x);
      assert Candidate(base, SourceProbe[0]) == ts;
      assert FindSource(true, setting, doc, files) == Some(ts);
      assert |ts| != |tsx|;
    }
  }

  // ---------------------------------------------------------------------
  // Which functions need documentation.

  /** The name filter on source symbols: a function whose name is not blank,
      does not mention `callback` and does not start with `(` or `<`. */
  predicate IsDocumentable(sym: Symbol)
  {
    sym.kind == Function
    && Trim(sym.name) != ""
    && !Contains(sym.name, "callback")
    && !StartsWith(sym.name, "(")
    && !StartsWith(sym.name, "<")
  }

  /** The documentable functions defined in the workspace: `fromLibrary`
      stands for the definition lookup, which reports no definition (or
      fails) for library symbols. */
  function UserFunctions(flat: seq<Symbol>, fromLibrary: Symbol -> bool): (r: seq<Symbol>)
    ensures forall s :: s in r <==> s in flat && IsDocumentable(s) && !fromLibrary(s)
    ensures Subseq(r, flat)
    ensures |r| <= |flat|
  {
    if |flat| == 0 then []
    else
      var rest := UserFunctions(flat[1..], fromLibrary);
      assert forall s :: s in flat <==> s == flat[0] || s in flat[1..];
      if IsDocumentable(flat[0]) && !fromLibrary(flat[0]) then [flat[0]] + rest else rest
  }

  /** The form both names are compared in: trimmed and lower-cased. */
  function Normal(name: string): string
  {
    ToLower(Trim(name))
  }

  /** Some markdown symbol name contains the symbol's name, ignoring case
      and surrounding white space. */
  predicate Mentioned(name: string, mdNames: seq<string>)
  {
    exists k :: 0 <= k < |mdNames| && Contains(Normal(mdNames[k]), Normal(name))
  }

  /** `mdSymbols.some(…)`. */
  function AnyMentions(mdNames: seq<string>, name: string): (r: bool)
    ensures r <==> Mentioned(name, mdNames)
  {
    if |mdNames| == 0 then false
    else if Contains(Normal(mdNames[0]), Normal(name)) then true
    else
      var rest := AnyMentions(mdNames[1..], name);
      assert Mentioned(name, mdNames[1..]) ==> Mentioned(name, mdNames) by {
        if Mentioned(name, mdNames[1..]) {
          var k :| 0 <= k < |mdNames[1..]| && Contains(Normal(mdNames[1..][k]), Normal(name));
          assert mdNames[k + 1] == mdNames[1..][k];
        }
      }
      assert Mentioned(name, mdNames) ==> Mentioned(name, mdNames[1..]) by {
        if Mentioned(name, mdNames) {
          var k :| 0 <= k < |mdNames| && Contains(Normal(mdNames[k]), Normal(name));
          assert k != 0;
          assert mdNames[1..][k - 1] == mdNames[k];
        }
      }
      rest
  }

  /** The functions no markdown symbol mentions, in their original order. */
  function MissingSymbols(user: seq<Symbol>, mdNames: seq<string>): (r: seq<Symbol>)
    ensures forall s :: s in r <==> s in user && !Mentioned(s.name, mdNames)
    ensures Subseq(r, user)
    ensures |r| <= |user|
  {
    if |user| == 0 then []
    else
      var rest := MissingSymbols(user[1..], mdNames);
      assert forall s :: s in user <==> s == user[0] || s in user[1..];
      if !AnyMentions(mdNames, user[0].name) then [user[0]] + rest else rest
  }

  /** A heading that spells a function's name in any case documents it. */
  lemma HeadingInOtherCaseDocuments(name: string, mdNames: seq<string>, k: nat)
    requires k < |mdNames| && Normal(mdNames[k]) == Normal(name)
    ensures Mentioned(name, mdNames)
  {
    var t := Normal(name);
    assert OccursAt(t, t, 0) by {
      assert t[..|t|] == t;
    }
    assert Contains(Normal(mdNames[k]), t);
  }

  /** The names of all markdown symbols, at any depth. */
  function MarkdownNames(symbols: Option<seq<Symbol>>): (r: seq<string>)
    ensures symbols.None? ==> r == []
    ensures symbols.Some? ==> (|r| == |Flatten(symbols.value)|
              && forall k :: 0 <= k < |r| ==> r[k] == Flatten(symbols.value)[k].name)
  {
    match symbols
    case None => []
    case Some(ts) =>
      var flat := Flatten(ts);
      seq(|flat|, k requires 0 <= k < |flat| => flat[k].name)
  }

  // ---------------------------------------------------------------------
  // The provider (`provideCodeActions`).

  datatype Diagnostic = Diagnostic(range: Range, message: string)

  /** `Missing documentation for function 'name'`. */
  function MissingMessage(name: string): string
  {
    "Missing documentation for function '" + name + "'"
  }

  function DiagnosticsFor(missing: seq<Symbol>): (r: seq<Diagnostic>)
    ensures |r| == |missing|
    ensures forall k :: 0 <= k < |r| ==> r[k] == Diagnostic(missing[k].range, MissingMessage(missing[k].name))
  {
    seq(|missing|, k requires 0 <= k < |missing| => Diagnostic(missing[k].range, MissingMessage(missing[k].name)))
  }

  datatype Action =
    | InsertAction(uri: string, symbols: seq<Symbol>)
    | IgnoreAction(uri: string)

  /** What a request leads to: nothing at all (not a doc, or no source),
      the document's diagnostics cleared with no fixes, or new diagnostics
      with the two fixes. */
  datatype Outcome =
    | NotApplicable
    | Cleared
    | Reported(diagnostics: seq<Diagnostic>, actions: seq<Action>)

  /** Everything the provider reads besides the document's own path. */
  datatype Workspace = Workspace(
    hasFolder: bool,
    setting: Option<string>,
    files: set<string>,
    sourceSymbols: string -> Option<seq<Symbol>>,
    fromLibrary: Symbol -> bool,
    markdownSymbols: Option<seq<Symbol>>,
    ignoredDocs: seq<string>)

  /** The functions of a doc's source that it leaves undocumented. */
  function MissingFor(ws: Workspace, source: string): seq<Symbol>
  {
    var flat := Flatten(ws.sourceSymbols(source).GetOr([]));
    MissingSymbols(UserFunctions(flat, ws.fromLibrary), MarkdownNames(ws.markdownSymbols))
  }

  function ProvideCodeActions(docPath: string, uri: string, ws: Workspace): (r: Outcome)
    ensures var dir := DocsDirectory(ws.setting);
            !(StartsWith(docPath, dir) && EndsWith(docPath, ".md")) ==> r == NotApplicable
    ensures FindSource(ws.hasFolder, ws.setting, docPath, ws.files).None? ==> r == NotApplicable
    ensures var dir := DocsDirectory(ws.setting);
            (StartsWith(docPath, dir) && EndsWith(docPath, ".md")
             && FindSource(ws.hasFolder, ws.setting, docPath, ws.files).Some?) ==> r != NotApplicable
    ensures r != NotApplicable ==>
              var source := FindSource(ws.hasFolder, ws.setting, docPath, ws.files).value;
              var missing := MissingFor(ws, source);
              (r == Cleared <==> IsDocIgnored(ws.ignoredDocs, uri) || |missing| == 0)
              && (r.Reported? ==>
                    r.diagnostics == DiagnosticsFor(missing)
                    && r.actions == [InsertAction(uri, missing), IgnoreAction(uri)])
  {
    var dir := DocsDirectory(ws.setting);
    if !(StartsWith(docPath, dir) && EndsWith(docPath, ".md")) then NotApplicable
    else
      match FindSource(ws.hasFolder, ws.setting, docPath, ws.files)
      case None => NotApplicable
      case Some(source) =>
        var missing := MissingFor(ws, source);
        if IsDocIgnored(ws.ignoredDocs, uri) || |missing| == 0 then Cleared
        else Reported(DiagnosticsFor(missing), [InsertAction(uri, missing), IgnoreAction(uri)])
  }

  /** A reported symbol is a workspace function the markdown never names. */
  lemma ReportedMeansUndocumented(docPath: string, uri: string, ws: Workspace, k: nat)
    requires ProvideCodeActions(docPath, uri, ws).Reported?
    requires k < |ProvideCodeActions(docPath, uri, ws).diagnostics|
    ensures var source := FindSource(ws.hasFolder, ws.setting, docPath, ws.files).value;
            var sym := MissingFor(ws, source)[k];
            sym in Flatten(ws.sourceSymbols(source).GetOr([]))
            && sym.kind == Function && !ws.fromLibrary(sym)
            && !Mentioned(sym.name, MarkdownNames(ws.markdownSymbols))
            && ProvideCodeActions(docPath, uri, ws).diagnostics[k].message == MissingMessage(sym.name)
  {
    var source := FindSource(ws.hasFolder, ws.setting, docPath, ws.files).value;
    var missing := MissingFor(ws, source);
    assert missing[k] in missing;
  }

  // ---------------------------------------------------------------------
  // The commands behind the fixes.

  /** The sorting key: the symbol's first line in the source. */
  function SourceLine(s: Symbol): seq<int>
  {
    [s.range.start.line]
  }

  /** The heading line of the `n`-th inserted section. */
  function SectionHeading(n: nat, name: string): string
  {
    CanonicalLine(3, n, '.', " `" + name + "()`")
  }

  /** The template for the `n`-th inserted section. */
  function Section(n: nat, name: string): string
  {
    SectionHeading(n, name) + SectionBody(name)
  }

  /** The lines after a section's heading. */
  function SectionBody(name: string): string
  {
    "\n"
    + "- **Parameters**: \n"
    + "- **Return Value**: \n"
    + "- **Usage Example**:\n"
    + "- **Description**: Description for **" + name + "**.\n\n"
  }

  /** The sections for `syms`, numbered from `first` on. */
  function Sections(syms: seq<Symbol>, first: nat): (r: seq<string>)
    ensures |r| == |syms|
    ensures forall k :: 0 <= k < |syms| ==> r[k] == Section(first + k, syms[k].name)
  {
    seq(|syms|, k requires 0 <= k < |syms| => Section(first + k, syms[k].name))
  }

  function Concat(parts: seq<string>): string
  {
    if |parts| == 0 then "" else parts[0] + Concat(parts[1..])
  }

  /** `insertMissingDocs`: the missing functions in source-line order, each
      with a section numbered by its position from 1, after a blank line,
      appended at the end of the document. */
  function InsertMissingDocs(missing: seq<Symbol>): (r: (seq<Symbol>, string))
    ensures SortedBy(r.0, SourceLine)
    ensures multiset(r.0) == multiset(missing)
    ensures r.1 == "\n\n" + Concat(Sections(r.0, 1))
  {
    var ordered := SortBy(missing, SourceLine);
    (ordered, "\n\n" + Concat(Sections(ordered, 1)))
  }

  /** A section title holds no line terminator when the name holds none,
      and ends with a backquote. */
  lemma SectionTitleLineFree(symName: string)
    requires NoLineTerminator(symName)
    ensures var title := " `" + symName + "()`";
            NoLineTerminator(title) && title[|title| - 1] == '`'
  {
    var title := " `" + symName + "()`";
    forall i | 0 <= i < |title| ensures !IsLineTerminator(title[i]) {
      if 2 <= i < 2 + |symName| {
        assert title[i] == symName[i - 2];
      }
    }
  }

  /** The `k`-th inserted section, counting from 0, opens with a level-3
      heading that reads back as number `k + 1`: the sections are numbered
      1, 2, ... in source-line order. */
  lemma InsertedSectionsNumbered(missing: seq<Symbol>, k: nat, name: string)
    requires k < |missing|
    requires NoLineTerminator(InsertMissingDocs(missing).0[k].name)
    ensures var ordered := InsertMissingDocs(missing).0;
            var heading := SectionHeading(k + 1, ordered[k].name);
            Sections(ordered, 1)[k][..|heading|] == heading
            && var parsed := ParseHeadingLine(heading, name);
               parsed.level == 3 && ExtractNumber(parsed.text) == Some(k + 1)
  {
    var ordered := InsertMissingDocs(missing).0;
    var symName := ordered[k].name;
    SectionTitleLineFree(symName);
    CanonicalLineParses(3, k + 1, '.', " `" + symName + "()`", name);
    var heading := SectionHeading(k + 1, symName);
    assert Sections(ordered, 1)[k] == heading + SectionBody(symName);
  }

  /** `ignoreMissingDocs`: only an explicit "Yes" clears the diagnostics and
      records the document as ignored. */
  function IgnoreMissingDocs(answer: Option<string>, ignored: seq<string>, uri: string): (r: (bool, seq<string>))
    ensures answer != Some("Yes") ==> r == (false, ignored)
    ensures answer == Some("Yes") ==> r.0 && r.1 == AddIgnoredDoc(ignored, uri)
  {
    if answer != Some("Yes") then (false, ignored) else (true, AddIgnoredDoc(ignored, uri))
  }

  /** After the user confirms, the next request for the document clears its
      diagnostics and offers nothing. */
  lemma ConfirmedIgnoreClears(docPath: string, uri: string, ws: Workspace)
    requires StartsWith(docPath, DocsDirectory(ws.setting)) && EndsWith(docPath, ".md")
    requires FindSource(ws.hasFolder, ws.setting, docPath, ws.files).Some?
    ensures var ignored := IgnoreMissingDocs(Some("Yes"), ws.ignoredDocs, uri).1;
            ProvideCodeActions(docPath, uri, ws.(ignoredDocs := ignored)) == Cleared
  {
  }
}

=== FILE: numbering.dfy ===
/** The heading-numbering checker for markdown
    (src/providers/wrongNumberingCodeActionProvider.ts): headings are read
    from the document symbols, their leading numbers are checked level by
    level, the problems become diagnostics unless the user ignored them,
    and four commands fix, renumber or ignore a problem. */
module Numbering {
  import opened Wrappers
  import opened Text
  import opened Sorting
  import opened Symbols
  import opened Words
  import opened Seqs

  // ---------------------------------------------------------------------
  // The number at the start of a heading.

  /** `text.replace(/^#+\s*\/, '')`: leading `#`s and, when there are any,
      the white space after them. */
  function StripHashes(s: string): (r: string)
    ensures CountLeading(s, '#') == 0 ==> r == s
    ensures |r| <= |s| && r == s[|s| - |r|..]
    ensures CountLeading(s, '#') > 0 ==>
              |s| - |r| >= CountLeading(s, '#')
              && (forall k :: CountLeading(s, '#') <= k < |s| - |r| ==> IsSpace(s[k]))
              && (|r| == 0 || !IsSpace(r[0]))
  {
    var h := CountLeading(s, '#');
    if h == 0 then s else s[h + SpaceRun(s[h..])..]
  }

  /** `^(\d+)(?:[.)]\s*|\s+)` matches `t`: a run of digits followed by a
      dot, a closing parenthesis or white space.  The digit run is greedy
      and the character after it is not a digit, so only the maximal run
      can be followed by one of those. */
  predicate NumberedText(t: string)
  {
    var d := DigitRun(t);
    0 < d < |t| && (t[d] == '.' || t[d] == ')' || IsSpace(t[d]))
  }

  /** `extractNumberFromHeading`. */
  function ExtractNumber(heading: string): (r: Option<nat>)
    ensures var t := Trim(StripHashes(heading));
            (r.Some? <==> NumberedText(t))
            && (r.Some? ==> r.value == DigitsValue(t[..DigitRun(t)]))
  {
    var t := Trim(StripHashes(heading));
    if NumberedText(t) then Some(DigitsValue(t[..DigitRun(t)])) else None
  }

  /** A number alone, with nothing after it, is not a heading number. */
  lemma BareNumberIsNotNumbered(n: nat)
    ensures ExtractNumber(Show(n)) == None
  {
    var s := Show(n);
    assert CountLeading(s, '#') == 0;
    TrimNoop(s);
    DigitRunOfShow(n, "");
    assert s + "" == s;
  }

  /** Text that starts with a printed number, then `.` or `)`, reads back as
      that number. */
  lemma ExtractShown(n: nat, sep: char, title: string)
    requires sep == '.' || sep == ')'
    requires |title| > 0 ==> !IsSpace(title[|title| - 1])
    ensures ExtractNumber(Show(n) + [sep] + title) == Some(n)
  {
    var s := Show(n) + [sep] + title;
    ShownTextUntouched(n, sep, title);
    ShownTextNumbered(n, sep, title);
    ShowRoundTrip(n);
    assert DigitsValue(s[..DigitRun(s)]) == n;
  }

  /** Neither hash stripping nor trimming changes such a text. */
  lemma ShownTextUntouched(n: nat, sep: char, title: string)
    requires sep == '.' || sep == ')'
    requires |title| > 0 ==> !IsSpace(title[|title| - 1])
    ensures var s := Show(n) + [sep] + title;
            Trim(StripHashes(s)) == s
  {
    var x := Show(n);
    var tail := [sep] + title;
    var s := x + tail;
    assert s == Show(n) + [sep] + title;
    assert s[0] == x[0] && IsDigit(x[0]);
    assert CountLeading(s, '#') == 0;
    assert StripHashes(s) == s;
    assert s[|s| - 1] == tail[|tail| - 1];
    TrimNoop(s);
  }

  /** Its digits are exactly the printed number, followed by the separator. */
  lemma ShownTextNumbered(n: nat, sep: char, title: string)
    requires sep == '.' || sep == ')'
    ensures var s := Show(n) + [sep] + title;
            NumberedText(s) && s[..DigitRun(s)] == Show(n)
  {
    var x := Show(n);
    var tail := [sep] + title;
    var s := x + tail;
    assert s == Show(n) + [sep] + title;
    DigitRunOfShow(n, tail);
    assert s[|x|] == sep;
  }

  // ---------------------------------------------------------------------
  // Heading lines.

  /** What `/^(#{1,6})\s+(.*)$/` extracts from a line, or the fallback. */
  datatype HeadingLine = HeadingLine(level: nat, text: string)

  predicate NoLineTerminator(s: string)
  {
    forall i :: 0 <= i < |s| ==> !IsLineTerminator(s[i])
  }

  /** The level and text of a heading line: with the regex matching, the
      number of `#`s and the trimmed rest; otherwise level 1 and the
      symbol's own name.  Seven or more `#`s do not match (`#{1,6}` would
      have to be followed by white space), and the rest must not hold a
      line terminator (`.` refuses them and `$` is the end of the line). */
  function ParseHeadingLine(raw: string, name: string): (r: HeadingLine)
    ensures 1 <= r.level <= 6
    ensures r.level == CountLeading(raw, '#') || r == HeadingLine(1, name)
  {
    var h := CountLeading(raw, '#');
    var sp := SpaceRun(raw[h..]);
    if 1 <= h <= 6 && sp > 0 && NoLineTerminator(raw[h + sp..]) then HeadingLine(h, Trim(raw[h + sp..]))
    else HeadingLine(1, name)
  }

  /** A heading line written the usual way: `level` hashes, one space, a
      number, `.` or `)`, then the title. */
  function CanonicalLine(level: nat, n: nat, sep: char, title: string): string
  {
    Repeat('#', level) + " " + Show(n) + [sep] + title
  }

  /** `level` hashes, one space and a trimmed body without line
      terminators parse as that level and body. */
  lemma HashedLineParses(level: nat, body: string, name: string)
    requires 1 <= level <= 6
    requires |body| > 0 && !IsSpace(body[0]) && !IsSpace(body[|body| - 1])
    requires NoLineTerminator(body)
    ensures ParseHeadingLine(Repeat('#', level) + " " + body, name) == HeadingLine(level, body)
  {
    var raw := Repeat('#', level) + " " + body;
    assert raw == Repeat('#', level) + (" " + body);
    CountLeadingOfPrefix(Repeat('#', level), " " + body, '#');
    assert raw[level..] == " " + body;
    assert SpaceRun(raw[level..]) == 1 by {
      assert !IsSpace((" " + body)[1]);
    }
    assert raw[level + 1..] == body;
    TrimNoop(body);
  }

  /** A printed number, a separator and a title hold no line terminator
      when the title holds none. */
  lemma NumberedBodyLineFree(n: nat, sep: char, title: string)
    requires sep == '.' || sep == ')'
    requires NoLineTerminator(title)
    ensures NoLineTerminator(Show(n) + [sep] + title)
  {
    var body := Show(n) + [sep] + title;
    forall i | 0 <= i < |body| ensures !IsLineTerminator(body[i]) {
      if i < |Show(n)| {
        assert body[i] == Show(n)[i];
      } else if i > |Show(n)| {
        assert body[i] == title[i - |Show(n)| - 1];
      }
    }
  }

  /** A canonical heading line of level 1 to 6 reads back as its level and
      its number. */
  lemma CanonicalLineParses(level: nat, n: nat, sep: char, title: string, name: string)
    requires 1 <= level <= 6
    requires sep == '.' || sep == ')'
    requires NoLineTerminator(title)
    requires |title| > 0 ==> !IsSpace(title[|title| - 1])
    ensures var r := ParseHeadingLine(CanonicalLine(level, n, sep, title), name);
            r == HeadingLine(level, Show(n) + [sep] + title)
            && ExtractNumber(r.text) == Some(n)
  {
    var body := Show(n) + [sep] + title;
    var head := Repeat('#', level) + " ";
    assert CanonicalLine(level, n, sep, title) == head + body;
    assert body[0] == Show(n)[0];
    if |title| > 0 {
      assert body[|body| - 1] == title[|title| - 1];
    } else {
      assert body[|body| - 1] == sep;
    }
    NumberedBodyLineFree(n, sep, title);
    HashedLineParses(level, body, name);
    ExtractShown(n, sep, title);
  }

  /** `CountLeading` of a run of `c` followed by something else. */
  lemma {:induction false} CountLeadingOfPrefix(run: string, rest: string, c: char)
    requires forall i :: 0 <= i < |run| ==> run[i] == c
    requires |rest| > 0 && rest[0] != c
    ensures CountLeading(run + rest, c) == |run|
    decreases |run|
  {
    if |run| > 0 {
      assert (run + rest)[1..] == run[1..] + rest;
      CountLeadingOfPrefix(run[1..], rest, c);
    } else {
      assert run + rest == rest;
    }
  }

  // ---------------------------------------------------------------------
  // Headings from document symbols (`extractHeadingInfo`).

  /** The symbol kinds markdown headings come as. */
  predicate IsHeadingKind(k: SymbolKind)
  {
    k == String || k == Namespace || k == Module
  }

  datatype Heading = Heading(level: nat, number: Option<nat>, text: string, line: nat, range: Range)

  /** The heading a symbol stands for, read from its first line. */
  function ToHeading(sym: Symbol, lineAt: nat -> string): (h: Heading)
    ensures h.line == sym.range.start.line && h.range == sym.range
    ensures HeadingLine(h.level, h.text) == ParseHeadingLine(lineAt(h.line), sym.name)
    ensures h.number == ExtractNumber(h.text)
  {
    var line := sym.range.start.line;
    var parsed := ParseHeadingLine(lineAt(line), sym.name);
    Heading(parsed.level, ExtractNumber(parsed.text), parsed.text, line, sym.range)
  }

  /** The heading symbols among symbols already in pre-order, in order. */
  function HeadingSymbols(flat: seq<Symbol>): (r: seq<Symbol>)
    ensures |r| <= |flat|
    ensures forall sym :: sym in r <==> sym in flat && IsHeadingKind(sym.kind)
    ensures Subseq(r, flat)
  {
    if |flat| == 0 then []
    else
      var rest := HeadingSymbols(flat[1..]);
      assert forall sym :: sym in flat <==> sym == flat[0] || sym in flat[1..];
      if IsHeadingKind(flat[0].kind) then [flat[0]] + rest else rest
  }

  /** The headings among symbols already in pre-order. */
  function HeadingsOf(flat: seq<Symbol>, lineAt: nat -> string): (r: seq<Heading>)
    ensures var syms := HeadingSymbols(flat);
            |r| == |syms| && forall k :: 0 <= k < |r| ==> r[k] == ToHeading(syms[k], lineAt)
  {
    var syms := HeadingSymbols(flat);
    seq(|syms|, k requires 0 <= k < |syms| => ToHeading(syms[k], lineAt))
  }

  function LineKey(h: Heading): seq<int>
  {
    [h.line]
  }

  /** `extractHeadingInfo`: every heading symbol at any depth, ordered by
      line; no symbols at all gives none. */
  function ExtractHeadings(symbols: Option<seq<Symbol>>, lineAt: nat -> string): (r: seq<Heading>)
    ensures SortedBy(r, LineKey)
    ensures symbols.None? ==> r == []
    ensures symbols.Some? ==> multiset(r) == multiset(HeadingsOf(Flatten(symbols.value), lineAt))
  {
    match symbols
    case None => []
    case Some(ts) => SortBy(HeadingsOf(Flatten(ts), lineAt), LineKey)
  }

  // ---------------------------------------------------------------------
  // The sequence check (`analyzeNumberingSequence`).

  datatype Missing = Missing(number: nat, level: nat, line: nat)

  datatype Duplicate = Duplicate(number: nat, line: nat)

  datatype Issues = Issues(missing: seq<Missing>, duplicates: seq<Duplicate>)

  const NoIssues := Issues([], [])

  /** The loop state: the number the next heading should carry, the
      distance the last backward jump was reported with, and the problems
      found so far. */
  datatype Scan = Scan(expectedNext: nat, prevDiff: nat, issues: Issues)

  /** A number that already appeared in the current run; `1` always starts
      a new run instead. */
  predicate IsDuplicate(expectedNext: nat, num: nat)
  {
    num != 1 && num < expectedNext
  }

  /** The missing entries `1 .. num-1`, all reported at one line. */
  function MissingBelow(num: nat, level: nat, line: nat): (r: seq<Missing>)
    ensures |r| == if num >= 1 then num - 1 else 0
    ensures forall k :: 0 <= k < |r| ==> r[k] == Missing(k + 1, level, line)
  {
    if num <= 1 then [] else seq(num - 1, k requires 0 <= k < num - 1 => Missing(k + 1, level, line))
  }

  /** One iteration of the loop, for a heading numbered `num` at `line`. */
  function Step(st: Scan, num: nat, level: nat, line: nat): (r: Scan)
    ensures !IsDuplicate(st.expectedNext, num) ==> r.expectedNext == num + 1
    ensures IsDuplicate(st.expectedNext, num) ==> r.expectedNext == st.expectedNext
    ensures r.issues.duplicates ==
              st.issues.duplicates + (if IsDuplicate(st.expectedNext, num) then [Duplicate(num, line)] else [])
    ensures num > st.expectedNext && num != 1 ==> r.issues.missing == st.issues.missing + [Missing(st.expectedNext, level, line)]
    ensures num == 1 || num == st.expectedNext ==> r.issues == st.issues
    ensures IsDuplicate(st.expectedNext, num) ==>
              r.issues.missing == st.issues.missing
                + (if st.expectedNext - num != st.prevDiff then MissingBelow(num, level, line) else [])
    ensures |st.issues.missing| <= |r.issues.missing| && r.issues.missing[..|st.issues.missing|] == st.issues.missing
    ensures forall k :: |st.issues.missing| <= k < |r.issues.missing| ==>
              var m := r.issues.missing[k]; m.level == level && m.line == line && m.number < num
  {
    var issues := st.issues;
    if num == st.expectedNext then
      Scan(st.expectedNext + 1, st.prevDiff, issues)
    else if num == 1 then
      Scan(2, st.prevDiff, issues)
    else if num < st.expectedNext then
      var diff := st.expectedNext - num;
      var dup := issues.duplicates + [Duplicate(num, line)];
      if diff != st.prevDiff then
        Scan(st.expectedNext, diff - 1, Issues(issues.missing + MissingBelow(num, level, line), dup))
      else
        Scan(st.expectedNext, st.prevDiff, Issues(issues.missing, dup))
    else
      Scan(num + 1, st.prevDiff, Issues(issues.missing + [Missing(st.expectedNext, level, line)], issues.duplicates))
  }

  predicate AllNumbered(hs: seq<Heading>)
  {
    forall k :: 0 <= k < |hs| ==> hs[k].number.Some?
  }

  /** Some heading of `hs` sits on `line`. */
  predicate OnHeadingLine(line: nat, hs: seq<Heading>)
  {
    exists j :: 0 <= j < |hs| && hs[j].line == line
  }

  /** The loop over a level's numbered headings, from state `st`: it only
      ever appends problems, and every missing entry is at this level. */
  function ScanAll(st: Scan, hs: seq<Heading>, level: nat): (r: Scan)
    requires AllNumbered(hs)
    ensures |st.issues.missing| <= |r.issues.missing| && r.issues.missing[..|st.issues.missing|] == st.issues.missing
    ensures forall k :: |st.issues.missing| <= k < |r.issues.missing| ==> r.issues.missing[k].level == level
    ensures |st.issues.duplicates| <= |r.issues.duplicates|
    ensures r.issues.duplicates[..|st.issues.duplicates|] == st.issues.duplicates
    decreases |hs|
  {
    if |hs| == 0 then st
    else
      var h := hs[0];
      var next := Step(st, h.number.value, level, h.line);
      var r := ScanAll(next, hs[1..], level);
      assert r.issues.missing[..|next.issues.missing|] == next.issues.missing;
      assert r.issues.duplicates[..|next.issues.duplicates|] == next.issues.duplicates;
      assert forall k :: |st.issues.missing| <= k < |next.issues.missing| ==>
               r.issues.missing[k] == next.issues.missing[k];
      r
  }

  /** Every problem the scan adds sits on the line of a scanned heading. */
  predicate AddedOnHeadingLines(st: Scan, r: Scan, hs: seq<Heading>)
    requires |st.issues.missing| <= |r.issues.missing| && |st.issues.duplicates| <= |r.issues.duplicates|
  {
    (forall k :: |st.issues.missing| <= k < |r.issues.missing| ==> OnHeadingLine(r.issues.missing[k].line, hs))
    && (forall k :: |st.issues.duplicates| <= k < |r.issues.duplicates| ==> OnHeadingLine(r.issues.duplicates[k].line, hs))
  }

  /** Each problem the scan reports sits on the line of a scanned heading. */
  lemma {:induction false} ScanAllLines(st: Scan, hs: seq<Heading>, level: nat)
    requires AllNumbered(hs)
    ensures AddedOnHeadingLines(st, ScanAll(st, hs, level), hs)
    decreases |hs|
  {
    if |hs| > 0 {
      var h := hs[0];
      var next := Step(st, h.number.value, level, h.line);
      var r := ScanAll(next, hs[1..], level);
      ScanAllLines(next, hs[1..], level);
      StepOnLine(st, h, level, r);
      TailLines(next, r, hs);
    }
  }

  /** What one step adds sits on its heading's line, and stays in place. */
  lemma StepOnLine(st: Scan, h: Heading, level: nat, r: Scan)
    requires h.number.Some?
    requires var next := Step(st, h.number.value, level, h.line);
             |next.issues.missing| <= |r.issues.missing| && r.issues.missing[..|next.issues.missing|] == next.issues.missing
             && |next.issues.duplicates| <= |r.issues.duplicates|
             && r.issues.duplicates[..|next.issues.duplicates|] == next.issues.duplicates
    ensures var next := Step(st, h.number.value, level, h.line);
            (forall k :: |st.issues.missing| <= k < |next.issues.missing| ==> r.issues.missing[k].line == h.line)
            && (forall k :: |st.issues.duplicates| <= k < |next.issues.duplicates| ==> r.issues.duplicates[k].line == h.line)
  {
    var next := Step(st, h.number.value, level, h.line);
    forall k | |st.issues.missing| <= k < |next.issues.missing| ensures r.issues.missing[k].line == h.line {
      assert r.issues.missing[k] == r.issues.missing[..|next.issues.missing|][k];
    }
    forall k | |st.issues.duplicates| <= k < |next.issues.duplicates| ensures r.issues.duplicates[k].line == h.line {
      assert r.issues.duplicates[k] == r.issues.duplicates[..|next.issues.duplicates|][k];
    }
  }

  /** Lines found on the later headings are lines of the whole list. */
  lemma TailLines(next: Scan, r: Scan, hs: seq<Heading>)
    requires |hs| > 0
    requires |next.issues.missing| <= |r.issues.missing| && |next.issues.duplicates| <= |r.issues.duplicates|
    requires AddedOnHeadingLines(next, r, hs[1..])
    ensures forall k :: |next.issues.missing| <= k < |r.issues.missing| ==> OnHeadingLine(r.issues.missing[k].line, hs)
    ensures forall k :: |next.issues.duplicates| <= k < |r.issues.duplicates| ==> OnHeadingLine(r.issues.duplicates[k].line, hs)
  {
    forall k | |next.issues.missing| <= k < |r.issues.missing| ensures OnHeadingLine(r.issues.missing[k].line, hs) {
      assert OnHeadingLine(r.issues.missing[k].line, hs[1..]);
      var j :| 0 <= j < |hs[1..]| && hs[1..][j].line == r.issues.missing[k].line;
      assert hs[j + 1].line == r.issues.missing[k].line;
    }
    forall k | |next.issues.duplicates| <= k < |r.issues.duplicates| ensures OnHeadingLine(r.issues.duplicates[k].line, hs) {
      assert OnHeadingLine(r.issues.duplicates[k].line, hs[1..]);
      var j :| 0 <= j < |hs[1..]| && hs[1..][j].line == r.issues.duplicates[k].line;
      assert hs[j + 1].line == r.issues.duplicates[k].line;
    }
  }

  /** Headings numbered `expectedNext`, `expectedNext + 1`, ... in order
      report nothing. */
  lemma {:induction false} ConsecutiveScanClean(st: Scan, hs: seq<Heading>, level: nat)
    requires AllNumbered(hs)
    requires forall k :: 0 <= k < |hs| ==> hs[k].number == Some(st.expectedNext + k)
    ensures ScanAll(st, hs, level).issues == st.issues
    decreases |hs|
  {
    if |hs| > 0 {
      var next := Step(st, hs[0].number.value, level, hs[0].line);
      assert next.issues == st.issues && next.expectedNext == st.expectedNext + 1;
      forall k | 0 <= k < |hs[1..]| ensures hs[1..][k].number == Some(next.expectedNext + k) {
        assert hs[1..][k] == hs[k + 1];
      }
      ConsecutiveScanClean(next, hs[1..], level);
    }
  }

  /** The numbered headings of a group, in the group's order. */
  function NumberedOnly(hs: seq<Heading>): (r: seq<Heading>)
    ensures AllNumbered(r)
    ensures |r| <= |hs|
    ensures forall h :: h in r <==> h in hs && h.number.Some?
  {
    if |hs| == 0 then []
    else
      var rest := NumberedOnly(hs[1..]);
      assert forall h :: h in hs <==> h == hs[0] || h in hs[1..];
      if hs[0].number.Some? then [hs[0]] + rest else rest
  }

  /** The numbered headings keep the order of the document. */
  lemma {:induction false} NumberedOnlyInOrder(hs: seq<Heading>)
    ensures Subseq(NumberedOnly(hs), hs)
    decreases |hs|
  {
    if |hs| > 0 {
      NumberedOnlyInOrder(hs[1..]);
      if hs[0].number.Some? {
        assert NumberedOnly(hs)[1..] == NumberedOnly(hs[1..]);
      }
    }
  }

  /** A level's numbered headings in line order, as the check visits them. */
  function NumberedInLineOrder(group: seq<Heading>): (r: seq<Heading>)
    ensures AllNumbered(r)
    ensures SortedBy(r, LineKey)
    ensures multiset(r) == multiset(NumberedOnly(group))
  {
    var numbered := NumberedOnly(group);
    var r := SortBy(numbered, LineKey);
    assert forall k :: 0 <= k < |r| ==> r[k] in multiset(numbered);
    r
  }

  /** The check of one level: fewer than two numbered headings are not a
      sequence and report nothing. */
  function AnalyzeLevel(group: seq<Heading>, level: nat): (r: Issues)
    ensures |NumberedOnly(group)| < 2 ==> r == NoIssues
    ensures forall k :: 0 <= k < |r.missing| ==> r.missing[k].level == level
  {
    var numbered := NumberedInLineOrder(group);
    if |numbered| < 2 then NoIssues else ScanAll(Scan(1, 0, NoIssues), numbered, level).issues
  }

  /** A level numbered 1, 2, ..., n in line order reports nothing. */
  lemma ConsecutiveLevelClean(group: seq<Heading>, level: nat)
    requires var hs := NumberedInLineOrder(group);
             forall k :: 0 <= k < |hs| ==> hs[k].number == Some(k + 1)
    ensures AnalyzeLevel(group, level) == NoIssues
  {
    var hs := NumberedInLineOrder(group);
    if |hs| >= 2 {
      ConsecutiveScanClean(Scan(1, 0, NoIssues), hs, level);
    }
  }

  /** The headings at one level, in their original order. */
  function AtLevel(headings: seq<Heading>, level: nat): (r: seq<Heading>)
    ensures forall h :: h in r <==> h in headings && h.level == level
  {
    if |headings| == 0 then []
    else
      var rest := AtLevel(headings[1..], level);
      assert forall h :: h in headings <==> h == headings[0] || h in headings[1..];
      if headings[0].level == level then [headings[0]] + rest else rest
  }

  /** A level's headings keep the order of the document. */
  lemma {:induction false} AtLevelInOrder(headings: seq<Heading>, level: nat)
    ensures Subseq(AtLevel(headings, level), headings)
    decreases |headings|
  {
    if |headings| > 0 {
      AtLevelInOrder(headings[1..], level);
      if headings[0].level == level {
        assert AtLevel(headings, level)[1..] == AtLevel(headings[1..], level);
      }
    }
  }

  function MaxLevel(headings: seq<Heading>): (m: nat)
    ensures forall h :: h in headings ==> h.level <= m
  {
    if |headings| == 0 then 0
    else
      var rest := MaxLevel(headings[1..]);
      assert forall h :: h in headings ==> h == headings[0] || h in headings[1..];
      if headings[0].level > rest then headings[0].level else rest
  }

  function Concat(a: Issues, b: Issues): Issues
  {
    Issues(a.missing + b.missing, a.duplicates + b.duplicates)
  }

  /** The check of each level, as a function of the level. */
  function LevelReport(headings: seq<Heading>): nat -> Issues
  {
    (l: nat) => AnalyzeLevel(AtLevel(headings, l), l)
  }

  /** The loop over the levels `from .. top` in ascending order, given each
      level's report: the reports one after the other. */
  function LevelsOf(report: nat -> Issues, from: nat, top: nat): Issues
    decreases top + 1 - from
  {
    if from > top then NoIssues else Concat(report(from), LevelsOf(report, from + 1, top))
  }

  /** Every report's missing entries carry the report's level. */
  ghost predicate Tagged(report: nat -> Issues)
  {
    forall l: nat, k :: 0 <= k < |report(l).missing| ==> report(l).missing[k].level == l
  }

  lemma LevelReportTagged(headings: seq<Heading>)
    ensures Tagged(LevelReport(headings))
  {
    forall l: nat, k | 0 <= k < |LevelReport(headings)(l).missing|
      ensures LevelReport(headings)(l).missing[k].level == l
    {
      assert LevelReport(headings)(l) == AnalyzeLevel(AtLevel(headings, l), l);
    }
  }

  /** The loop reports missing entries of the levels it visits only. */
  lemma {:induction false} LevelsOfRange(report: nat -> Issues, from: nat, top: nat)
    requires Tagged(report)
    ensures InLevels(LevelsOf(report, from, top).missing, from, top)
    decreases top + 1 - from
  {
    if from <= top {
      LevelsOfRange(report, from + 1, top);
      var here := report(from).missing;
      var rest := LevelsOf(report, from + 1, top).missing;
      var r := LevelsOf(report, from, top).missing;
      assert r == here + rest;
      forall k | 0 <= k < |r| ensures from <= r[k].level <= top {
        if k < |here| {
          assert r[k] == here[k];
          assert here[k].level == from;
        } else {
          assert r[k] == rest[k - |here|];
          assert from + 1 <= rest[k - |here|].level <= top;
        }
      }
    }
  }

  /** Every entry's level lies in `from .. top`. */
  predicate InLevels(missing: seq<Missing>, from: nat, top: nat)
  {
    forall k :: 0 <= k < |missing| ==> from <= missing[k].level <= top
  }

  /** The levels `from .. top` in ascending order. */
  function AnalyzeLevels(headings: seq<Heading>, from: nat, top: nat): (r: Issues)
    ensures forall k :: 0 <= k < |r.missing| ==> from <= r.missing[k].level <= top
  {
    LevelReportTagged(headings);
    LevelsOfRange(LevelReport(headings), from, top);
    LevelsOf(LevelReport(headings), from, top)
  }

  /** Missing entries listed in ascending level order. */
  predicate LevelsAscending(missing: seq<Missing>)
  {
    forall i, j :: 0 <= i < j < |missing| ==> missing[i].level <= missing[j].level
  }

  /** One level's entries, then entries of higher levels in order, are in
      order. */
  lemma AscendingConcat(here: seq<Missing>, rest: seq<Missing>, level: nat)
    requires forall k :: 0 <= k < |here| ==> here[k].level == level
    requires forall k :: 0 <= k < |rest| ==> level < rest[k].level
    requires LevelsAscending(rest)
    ensures LevelsAscending(here + rest)
  {
    var s := here + rest;
    forall i, j | 0 <= i < j < |s| ensures s[i].level <= s[j].level {
      if j < |here| {
        assert s[i] == here[i] && s[j] == here[j];
      } else if i < |here| {
        assert s[i] == here[i] && s[j] == rest[j - |here|];
      } else {
        assert s[i] == rest[i - |here|] && s[j] == rest[j - |here|];
      }
    }
  }

  /** Visiting the levels in ascending order lists the missing entries in
      ascending level order. */
  lemma {:induction false} LevelsOfAscending(report: nat -> Issues, from: nat, top: nat)
    requires Tagged(report)
    ensures LevelsAscending(LevelsOf(report, from, top).missing)
    decreases top + 1 - from
  {
    if from <= top {
      LevelsOfAscending(report, from + 1, top);
      LevelsOfRange(report, from + 1, top);
      var rest := LevelsOf(report, from + 1, top).missing;
      assert forall k :: 0 <= k < |rest| ==> from < rest[k].level;
      AscendingConcat(report(from).missing, rest, from);
    }
  }

  /** `analyzeNumberingSequence`.  Levels are visited in ascending order;
      visiting every level up to the largest, present or not, reports the
      same problems in the same order, since an absent level has no
      numbered headings and reports nothing. */
  function Analyze(headings: seq<Heading>): (r: Issues)
    ensures |headings| == 0 ==> r == NoIssues
    ensures forall k :: 0 <= k < |r.missing| ==> r.missing[k].level <= MaxLevel(headings)
  {
    if |headings| == 0 then NoIssues else AnalyzeLevels(headings, 0, MaxLevel(headings))
  }

  /** The document's missing entries come in ascending level order. */
  lemma AnalyzeInOrder(headings: seq<Heading>)
    ensures LevelsAscending(Analyze(headings).missing)
  {
    if |headings| > 0 {
      LevelReportTagged(headings);
      LevelsOfAscending(LevelReport(headings), 0, MaxLevel(headings));
    }
  }

  /** Levels that each report nothing report nothing together. */
  lemma {:induction false} LevelsOfClean(report: nat -> Issues, from: nat, top: nat)
    requires forall l :: from <= l <= top ==> report(l) == NoIssues
    ensures LevelsOf(report, from, top) == NoIssues
    decreases top + 1 - from
  {
    if from <= top {
      LevelsOfClean(report, from + 1, top);
    }
  }

  /** A document where no level holds two numbered headings has no
      numbering problems. */
  lemma SparseLevelsClean(headings: seq<Heading>, from: nat, top: nat)
    requires forall l :: from <= l <= top ==> |NumberedOnly(AtLevel(headings, l))| < 2
    ensures AnalyzeLevels(headings, from, top) == NoIssues
  {
    forall l | from <= l <= top ensures LevelReport(headings)(l) == NoIssues {
      assert LevelReport(headings)(l) == AnalyzeLevel(AtLevel(headings, l), l);
    }
    LevelsOfClean(LevelReport(headings), from, top);
  }

  /** A level above every heading's level holds no headings. */
  lemma {:induction false} AboveMaxLevelEmpty(headings: seq<Heading>, level: nat)
    requires level > MaxLevel(headings)
    ensures AtLevel(headings, level) == []
  {
    if |headings| > 0 {
      AboveMaxLevelEmpty(headings[1..], level);
    }
  }

  /** A document where no level holds two numbered headings has no
      numbering problems at all. */
  lemma SparseDocumentClean(headings: seq<Heading>)
    requires forall l: nat :: |NumberedOnly(AtLevel(headings, l))| < 2
    ensures Analyze(headings) == NoIssues
  {
    if |headings| > 0 {
      SparseLevelsClean(headings, 0, MaxLevel(headings));
    }
  }

  /** The numbers 1, 2, ..., n in order. */
  predicate NumberedOneToN(hs: seq<Heading>)
  {
    forall k :: 0 <= k < |hs| ==> hs[k].number == Some(k + 1)
  }

  /** A document whose every level is numbered 1, 2, ..., n in line order
      has no numbering problems. */
  lemma WellNumberedDocumentClean(headings: seq<Heading>)
    requires forall l: nat :: NumberedOneToN(NumberedInLineOrder(AtLevel(headings, l)))
    ensures Analyze(headings) == NoIssues
  {
    if |headings| > 0 {
      forall l | 0 <= l <= MaxLevel(headings) ensures LevelReport(headings)(l) == NoIssues {
        ConsecutiveLevelClean(AtLevel(headings, l), l);
        assert LevelReport(headings)(l) == AnalyzeLevel(AtLevel(headings, l), l);
      }
      LevelsOfClean(LevelReport(headings), 0, MaxLevel(headings));
    }
  }

  /** The step of `LevelsOfMissing`: `own` says whether the entry's own
      level reports it. */
  lemma SplitMissing(whole: seq<Missing>, here: seq<Missing>, rest: seq<Missing>, m: Missing, from: nat, top: nat, own: bool)
    requires from <= top && whole == here + rest
    requires forall k :: 0 <= k < |here| ==> here[k].level == from
    requires m.level == from ==> (m in here <==> own)
    requires m in rest <==> from + 1 <= m.level <= top && own
    ensures m in whole <==> from <= m.level <= top && own
  {
    assert m in whole <==> m in here || m in rest;
    if m in here {
      var k :| 0 <= k < |here| && here[k] == m;
      assert m.level == from;
    }
  }

  /** A missing entry is reported for the levels `from .. top` exactly when
      its own level is among them and that level's report has it. */
  lemma {:induction false} LevelsOfMissing(report: nat -> Issues, from: nat, top: nat, m: Missing)
    requires Tagged(report)
    ensures m in LevelsOf(report, from, top).missing <==> from <= m.level <= top && m in report(m.level).missing
    decreases top + 1 - from
  {
    if from <= top {
      LevelsOfMissing(report, from + 1, top, m);
      SplitMissing(LevelsOf(report, from, top).missing, report(from).missing,
                   LevelsOf(report, from + 1, top).missing, m, from, top, m in report(m.level).missing);
    }
  }

  lemma InEitherPart(d: Duplicate, whole: seq<Duplicate>, here: seq<Duplicate>, rest: seq<Duplicate>)
    requires whole == here + rest && d in whole
    ensures d in here || d in rest
  {
  }

  /** A duplicate reported for the levels `from .. top` is in the report of
      one of those levels. */
  lemma {:induction false} LevelsOfDuplicate(report: nat -> Issues, from: nat, top: nat, d: Duplicate) returns (l: nat)
    requires d in LevelsOf(report, from, top).duplicates
    ensures from <= l <= top && d in report(l).duplicates
    decreases top + 1 - from
  {
    if from > top {
      assert false;
    }
    InEitherPart(d, LevelsOf(report, from, top).duplicates, report(from).duplicates,
                 LevelsOf(report, from + 1, top).duplicates);
    if d in report(from).duplicates {
      l := from;
    } else {
      l := LevelsOfDuplicate(report, from + 1, top, d);
    }
  }

  /** A duplicate in the report of a level in `from .. top` is reported
      for those levels. */
  lemma {:induction false} DuplicateInLevelsOf(report: nat -> Issues, from: nat, top: nat, l: nat, d: Duplicate)
    requires from <= l <= top && d in report(l).duplicates
    ensures d in LevelsOf(report, from, top).duplicates
    decreases top + 1 - from
  {
    if l > from {
      DuplicateInLevelsOf(report, from + 1, top, l, d);
    }
  }

  /** Every missing number of the document is a missing number of its own
      level's check, and each one that check finds is reported. */
  lemma AnalyzeMissing(headings: seq<Heading>, m: Missing)
    ensures m in Analyze(headings).missing <==> m in AnalyzeLevel(AtLevel(headings, m.level), m.level).missing
  {
    if m.level > MaxLevel(headings) {
      AboveMaxLevelEmpty(headings, m.level);
      assert |NumberedOnly(AtLevel(headings, m.level))| == 0;
    } else if |headings| == 0 {
      assert AtLevel(headings, m.level) == [];
      assert |NumberedOnly(AtLevel(headings, m.level))| == 0;
    } else {
      LevelReportTagged(headings);
      LevelsOfMissing(LevelReport(headings), 0, MaxLevel(headings), m);
      assert LevelReport(headings)(m.level) == AnalyzeLevel(AtLevel(headings, m.level), m.level);
    }
  }

  /** Every duplicate of the document was found by some level's check. */
  lemma DuplicateFoundAtLevel(headings: seq<Heading>, d: Duplicate) returns (l: nat)
    requires d in Analyze(headings).duplicates
    ensures d in AnalyzeLevel(AtLevel(headings, l), l).duplicates
  {
    l := LevelsOfDuplicate(LevelReport(headings), 0, MaxLevel(headings), d);
    assert LevelReport(headings)(l) == AnalyzeLevel(AtLevel(headings, l), l);
  }

  /** Every duplicate some level's check finds is reported for the
      document. */
  lemma LevelDuplicateReported(headings: seq<Heading>, l: nat, d: Duplicate)
    requires d in AnalyzeLevel(AtLevel(headings, l), l).duplicates
    ensures d in Analyze(headings).duplicates
  {
    if l > MaxLevel(headings) {
      AboveMaxLevelEmpty(headings, l);
      assert false;
    } else if |headings| == 0 {
      assert false;
    } else {
      assert LevelReport(headings)(l) == AnalyzeLevel(AtLevel(headings, l), l);
      DuplicateInLevelsOf(LevelReport(headings), 0, MaxLevel(headings), l, d);
    }
  }

  // ---------------------------------------------------------------------
  // Ignored problems, per document (`addIgnoredNumber`).

  datatype Ignored = Ignored(number: nat, level: nat)

  /** The workspace-state record: document URI to ignored pairs. */
  type IgnoreStore = map<string, seq<Ignored>>

  /** `getIgnoredNumbers`: `all[key] || []`. */
  function GetIgnored(store: IgnoreStore, key: string): seq<Ignored>
  {
    if key in store then store[key] else []
  }

  predicate NoDuplicatePairs(xs: seq<Ignored>)
  {
    forall i, j :: 0 <= i < j < |xs| ==> xs[i] != xs[j]
  }

  /** `addIgnoredNumber`: appends the pair unless it is already there. */
  function AddIgnoredNumber(store: IgnoreStore, key: string, num: nat, level: nat): (r: IgnoreStore)
    ensures Ignored(num, level) in GetIgnored(r, key)
    ensures Ignored(num, level) in GetIgnored(store, key) ==> r == store
    ensures Ignored(num, level) !in GetIgnored(store, key) ==>
              GetIgnored(r, key) == GetIgnored(store, key) + [Ignored(num, level)]
    ensures NoDuplicatePairs(GetIgnored(store, key)) ==> NoDuplicatePairs(GetIgnored(r, key))
    ensures forall k :: k != key ==> (k in r <==> k in store) && GetIgnored(r, k) == GetIgnored(store, k)
  {
    var arr := GetIgnored(store, key);
    if Ignored(num, level) in arr then store else store[key := arr + [Ignored(num, level)]]
  }

  /** Ignoring the same pair twice is ignoring it once. */
  lemma AddIgnoredIdempotent(store: IgnoreStore, key: string, num: nat, level: nat)
    ensures var once := AddIgnoredNumber(store, key, num, level);
            AddIgnoredNumber(once, key, num, level) == once
  {
  }

  /** Saving a markdown document forgets what was ignored in it. */
  function ClearIgnoredOnSave(store: IgnoreStore, languageId: string, key: string): (r: IgnoreStore)
    ensures languageId != "markdown" ==> r == store
    ensures languageId == "markdown" ==> GetIgnored(r, key) == [] && key !in r
    ensures forall k :: k != key ==> (k in r <==> k in store) && GetIgnored(r, k) == GetIgnored(store, k)
  {
    if languageId != "markdown" then store else store - {key}
  }

  // ---------------------------------------------------------------------
  // Diagnostic messages and the regexes that read them back.

  datatype ProblemKind = MissingProblem | DuplicateProblem

  function KindWord(kind: ProblemKind): string
  {
    match kind
    case MissingProblem => "Missing"
    case DuplicateProblem => "Duplicate"
  }

  const NumberWord := " number "
  const LevelWord := " in heading sequence (level "

  /** The message a diagnostic carries. */
  function Message(kind: ProblemKind, n: nat, level: nat): string
  {
    KindWord(kind) + NumberWord + Show(n) + LevelWord + Show(level) + ")"
  }

  /** A greedy `\d+` at the start of `s`: the number read and what
      follows it.  What follows does not start with a digit, so only the
      maximal run can be followed by what the patterns expect next. */
  function NumberAt(s: string): Option<(nat, string)>
  {
    var d := DigitRun(s);
    if d == 0 then None else Some((DigitsValue(s[..d]), s[d..]))
  }

  /** `(\d+) in heading sequence \(level (\d+)\)` matched at the start
      of `s`. */
  function MatchNumbers(s: string): Option<(nat, nat)>
  {
    NumbersAround(s, LevelWord)
  }

  /** Two numbers with `mid` between them and `)` after them, matched at
      the start of `s`. */
  function NumbersAround(s: string, mid: string): Option<(nat, nat)>
  {
    match NumberAt(s)
    case None => None
    case Some((n, t)) =>
      if !StartsWith(t, mid) then None
      else
        match NumberAt(t[|mid|..])
        case None => None
        case Some((level, u)) => if StartsWith(u, ")") then Some((n, level)) else None
  }

  /** `word number (\d+) in heading sequence \(level (\d+)\)` matched at
      index `i`, with both numbers parsed. */
  function MatchAt(msg: string, i: nat, word: string): Option<(nat, nat)>
  {
    if OccursAt(msg, word + NumberWord, i) then MatchNumbers(msg[i + |word + NumberWord|..]) else None
  }

  /** The leftmost match at or after `i`, trying the alternatives in order
      at each index. */
  function FindMatch(msg: string, words: seq<string>, i: nat): (r: Option<(nat, nat)>)
    decreases |msg| + 1 - i, |words| + 1
  {
    if i > |msg| then None
    else FirstAlternative(msg, words, i, words)
  }

  function FirstAlternative(msg: string, words: seq<string>, i: nat, left: seq<string>): Option<(nat, nat)>
    requires i <= |msg|
    decreases |msg| + 1 - i, |left|
  {
    if |left| == 0 then FindMatch(msg, words, i + 1)
    else
      match MatchAt(msg, i, left[0])
      case Some(v) => Some(v)
      case None => FirstAlternative(msg, words, i, left[1..])
  }

  /** No alternative matches at any index in `lo..hi`. */
  ghost predicate NoMatchIn(msg: string, words: seq<string>, lo: nat, hi: nat)
  {
    forall k: nat, w :: lo <= k < hi && w in words ==> MatchAt(msg, k, w).None?
  }

  /** `r` is what some alternative reads at `j`, and nothing matches between
      `lo` and `j`: the leftmost match from `lo`. */
  ghost predicate LeftmostAt(msg: string, words: seq<string>, lo: nat, j: nat, r: Option<(nat, nat)>)
  {
    lo <= j <= |msg| && NoMatchIn(msg, words, lo, j)
    && exists w :: w in words && MatchAt(msg, j, w) == r
  }

  /** The search from `i` finds the leftmost match from `i`, and finds
      nothing exactly when no alternative matches anywhere from `i`. */
  lemma {:induction false} FindMatchSpec(msg: string, words: seq<string>, i: nat)
    ensures var r := FindMatch(msg, words, i);
            (r.None? <==> NoMatchIn(msg, words, i, |msg| + 1))
            && (r.Some? ==> exists j :: LeftmostAt(msg, words, i, j, r))
    decreases |msg| + 1 - i, |words| + 1
  {
    if i <= |msg| {
      FirstAltSpec(msg, words, i, words);
    }
  }

  /** Trying the alternatives `left` at `i`, when every other one has
      already failed there. */
  lemma {:induction false} FirstAltSpec(msg: string, words: seq<string>, i: nat, left: seq<string>)
    requires i <= |msg|
    requires forall w :: w in left ==> w in words
    requires forall w :: w in words && w !in left ==> MatchAt(msg, i, w).None?
    ensures var r := FirstAlternative(msg, words, i, left);
            (r.None? <==> NoMatchIn(msg, words, i, |msg| + 1))
            && (r.Some? ==> exists j :: LeftmostAt(msg, words, i, j, r))
    decreases |msg| + 1 - i, |left|
  {
    if |left| == 0 {
      FindMatchSpec(msg, words, i + 1);
      var r := FindMatch(msg, words, i + 1);
      if r.Some? {
        var j :| LeftmostAt(msg, words, i + 1, j, r);
        assert LeftmostAt(msg, words, i, j, r);
      } else {
        forall k: nat, w | i <= k < |msg| + 1 && w in words
          ensures MatchAt(msg, k, w).None?
        {
          if k > i {
            assert i + 1 <= k < |msg| + 1;
          }
        }
      }
    } else {
      var v := MatchAt(msg, i, left[0]);
      if v.Some? {
        assert LeftmostAt(msg, words, i, i, v);
      } else {
        FirstAltSpec(msg, words, i, left[1..]);
      }
    }
  }

  /** `message.match(regex)` with the two numbers parsed: the leftmost
      match, and nothing exactly when no alternative matches anywhere. */
  function ParseMessage(msg: string, words: seq<string>): (r: Option<(nat, nat)>)
    ensures r.None? <==> NoMatchIn(msg, words, 0, |msg| + 1)
    ensures r.Some? ==> exists j :: LeftmostAt(msg, words, 0, j, r)
  {
    FindMatchSpec(msg, words, 0);
    FindMatch(msg, words, 0)
  }

  const MissingPattern: seq<string> := ["Missing"]
  const DuplicatePattern: seq<string> := ["Duplicate"]
  const EitherPattern: seq<string> := ["Missing", "Duplicate"]

  /** A printed number followed by a non-digit is what a greedy `\d+`
      reads. */
  lemma NumberAtShown(n: nat, tail: string)
    requires |tail| > 0 && !IsDigit(tail[0])
    ensures NumberAt(Show(n) + tail) == Some((n, tail))
  {
    DigitRunOfShow(n, tail);
    assert (Show(n) + tail)[|Show(n)|..] == tail;
    ShowRoundTrip(n);
  }

  /** The numbers part of a message reads back as its two numbers. */
  lemma MatchNumbersShown(n: nat, mid: string, level: nat)
    requires |mid| > 0 && !IsDigit(mid[0])
    ensures NumbersAround(Show(n) + (mid + (Show(level) + ")")), mid) == Some((n, level))
  {
    var t := mid + (Show(level) + ")");
    NumberAtShown(n, t);
    assert t[..|mid|] == mid;
    assert t[|mid|..] == Show(level) + ")";
    NumberAtShown(level, ")");
  }

  lemma LevelWordFacts()
    ensures |LevelWord| > 0 && !IsDigit(LevelWord[0])
  {
  }

  /** The matcher reads a message at its start. */
  lemma MatchAtMessage(word: string, n: nat, level: nat)
    ensures MatchAt(word + NumberWord + Show(n) + LevelWord + Show(level) + ")", 0, word) == Some((n, level))
  {
    var msg := word + NumberWord + Show(n) + LevelWord + Show(level) + ")";
    var p := word + NumberWord;
    var rest := Show(n) + (LevelWord + (Show(level) + ")"));
    assert msg == p + rest;
    assert OccursAt(msg, p, 0) by {
      assert msg[..|p|] == p;
    }
    assert msg[|p|..] == rest;
    LevelWordFacts();
    MatchNumbersShown(n, LevelWord, level);
  }

  /** Every diagnostic message reads back, with the command's own regex
      and with the combined one, as the number and level it was built
      from. */
  lemma MessageRoundTrip(kind: ProblemKind, n: nat, level: nat)
    ensures ParseMessage(Message(kind, n, level), [KindWord(kind)]) == Some((n, level))
    ensures ParseMessage(Message(kind, n, level), EitherPattern) == Some((n, level))
  {
    var msg := Message(kind, n, level);
    MatchAtMessage(KindWord(kind), n, level);
    assert FirstAlternative(msg, [KindWord(kind)], 0, [KindWord(kind)]) == Some((n, level));
    assert ParseMessage(msg, EitherPattern) == FirstAlternative(msg, EitherPattern, 0, EitherPattern);
    if kind == DuplicateProblem {
      assert msg[0] == 'D';
      assert !OccursAt(msg, "Missing" + NumberWord, 0) by {
        assert ("Missing" + NumberWord)[0] == 'M';
      }
      assert MatchAt(msg, 0, "Missing") == None;
      assert EitherPattern[1..] == ["Duplicate"];
      assert FirstAlternative(msg, EitherPattern, 0, EitherPattern)
          == FirstAlternative(msg, EitherPattern, 0, ["Duplicate"]);
      assert MatchAt(msg, 0, "Duplicate") == Some((n, level));
    } else {
      assert MatchAt(msg, 0, "Missing") == Some((n, level));
    }
  }
}

=== FILE: numbering_actions.dfy ===
/** What the heading-numbering checker shows and does
    (src/providers/wrongNumberingCodeActionProvider.ts): the diagnostics
    built from the problems found, the quick fixes offered for them, and
    the four commands behind those fixes. */
module NumberingActions {
  import opened Wrappers
  import opened Text
  import opened Symbols
  import opened Words
  import opened Numbering
  import opened Seqs

  // ---------------------------------------------------------------------
  // Diagnostics (`updateNumberingDiagnostics`).

  const CheckerSource := "numberingChecker"

  /** A warning on a range; the severity is always "warning". */
  datatype Diagnostic = Diagnostic(range: Range, message: string, source: string)

  /** The index of the first heading on `line` at `level`. */
  function FirstOnLineAtLevel(hs: seq<Heading>, line: nat, level: nat): (r: Option<nat>)
    ensures r.Some? ==> r.value < |hs| && hs[r.value].line == line && hs[r.value].level == level
    ensures r.Some? ==> forall j :: 0 <= j < r.value ==> !(hs[j].line == line && hs[j].level == level)
    ensures r.None? ==> forall j :: 0 <= j < |hs| ==> !(hs[j].line == line && hs[j].level == level)
  {
    if |hs| == 0 then None
    else if hs[0].line == line && hs[0].level == level then Some(0)
    else
      match FirstOnLineAtLevel(hs[1..], line, level)
      case None => None
      case Some(k) => Some(k + 1)
  }

  /** `headings.find(h => h.line === line)`, as an index. */
  function FirstOnLine(hs: seq<Heading>, line: nat): (r: Option<nat>)
    ensures r.Some? ==> r.value < |hs| && hs[r.value].line == line
    ensures r.Some? ==> forall j :: 0 <= j < r.value ==> hs[j].line != line
    ensures r.None? ==> forall j :: 0 <= j < |hs| ==> hs[j].line != line
  {
    if |hs| == 0 then None
    else if hs[0].line == line then Some(0)
    else
      match FirstOnLine(hs[1..], line)
      case None => None
      case Some(k) => Some(k + 1)
  }

  /** Where a missing number is shown: the first numbered heading on the
      entry's line and level, else the last numbered heading. */
  function MissingTarget(numbered: seq<Heading>, m: Missing): (r: Option<Heading>)
    ensures r.Some? <==> |numbered| > 0
    ensures r.Some? ==> r.value in numbered
    ensures FirstOnLineAtLevel(numbered, m.line, m.level).Some? ==>
              r == Some(numbered[FirstOnLineAtLevel(numbered, m.line, m.level).value])
    ensures FirstOnLineAtLevel(numbered, m.line, m.level).None? && |numbered| > 0 ==>
              r == Some(numbered[|numbered| - 1])
  {
    match FirstOnLineAtLevel(numbered, m.line, m.level)
    case Some(k) => Some(numbered[k])
    case None => if |numbered| > 0 then Some(numbered[|numbered| - 1]) else None
  }

  /** The diagnostic for one missing entry that is not ignored. */
  function MissingDiagnostic(numbered: seq<Heading>, m: Missing): Option<Diagnostic>
  {
    match MissingTarget(numbered, m)
    case None => None
    case Some(h) => Some(Diagnostic(h.range, Message(MissingProblem, m.number, m.level), CheckerSource))
  }

  /** No missing entry's pair is on the ignore list. */
  predicate NoneIgnored(missing: seq<Missing>, ignored: seq<Ignored>)
  {
    forall k :: 0 <= k < |missing| ==> Ignored(missing[k].number, missing[k].level) !in ignored
  }

  /** The diagnostic of every missing entry, ignored or not, in order. */
  function AllMissingDiagnostics(numbered: seq<Heading>, missing: seq<Missing>): (r: seq<Diagnostic>)
    requires |numbered| > 0
    ensures |r| == |missing|
    ensures forall k :: 0 <= k < |r| ==> MissingDiagnostic(numbered, missing[k]) == Some(r[k])
  {
    seq(|missing|, k requires 0 <= k < |missing| => MissingDiagnostic(numbered, missing[k]).value)
  }

  /** One diagnostic per missing entry whose pair is not ignored, as long as
      some heading carries a number, in the order of the entries. */
  function MissingDiagnostics(numbered: seq<Heading>, missing: seq<Missing>, ignored: seq<Ignored>): (r: seq<Diagnostic>)
    ensures forall x :: x in r <==>
              exists m :: m in missing && Ignored(m.number, m.level) !in ignored
                          && MissingDiagnostic(numbered, m) == Some(x)
    ensures |r| <= |missing|
  {
    if |missing| == 0 then []
    else
      var m := missing[0];
      var rest := MissingDiagnostics(numbered, missing[1..], ignored);
      assert forall m' :: m' in missing <==> m' == m || m' in missing[1..];
      if Ignored(m.number, m.level) in ignored then rest
      else
        match MissingDiagnostic(numbered, m)
        case None => rest
        case Some(d) => [d] + rest
  }

  /** The diagnostic for one duplicate: on the first heading of its line,
      with that heading's level, unless that pair is ignored. */
  function DuplicateDiagnostic(headings: seq<Heading>, dup: Duplicate, ignored: seq<Ignored>): (r: Option<Diagnostic>)
    ensures FirstOnLine(headings, dup.line).None? ==> r.None?
    ensures FirstOnLine(headings, dup.line).Some? ==>
              var h := headings[FirstOnLine(headings, dup.line).value];
              (r.Some? <==> Ignored(dup.number, h.level) !in ignored)
              && (r.Some? ==> r.value == Diagnostic(h.range, Message(DuplicateProblem, dup.number, h.level), CheckerSource))
  {
    match FirstOnLine(headings, dup.line)
    case None => None
    case Some(k) =>
      var h := headings[k];
      if Ignored(dup.number, h.level) in ignored then None
      else Some(Diagnostic(h.range, Message(DuplicateProblem, dup.number, h.level), CheckerSource))
  }

  /** Every duplicate is shown: its line holds a heading and its pair is
      not ignored. */
  predicate AllShown(headings: seq<Heading>, dups: seq<Duplicate>, ignored: seq<Ignored>)
  {
    forall k :: 0 <= k < |dups| ==> DuplicateDiagnostic(headings, dups[k], ignored).Some?
  }

  /** One diagnostic per shown duplicate, in the order of the duplicates. */
  function DuplicateDiagnostics(headings: seq<Heading>, dups: seq<Duplicate>, ignored: seq<Ignored>): (r: seq<Diagnostic>)
    ensures forall x :: x in r <==> exists dup :: dup in dups && DuplicateDiagnostic(headings, dup, ignored) == Some(x)
    ensures |r| <= |dups|
  {
    if |dups| == 0 then []
    else
      var rest := DuplicateDiagnostics(headings, dups[1..], ignored);
      assert forall d :: d in dups <==> d == dups[0] || d in dups[1..];
      match DuplicateDiagnostic(headings, dups[0], ignored)
      case None => rest
      case Some(d) => [d] + rest
  }

  lemma AllMissingTail(numbered: seq<Heading>, missing: seq<Missing>)
    requires |numbered| > 0 && |missing| > 0
    ensures var all := AllMissingDiagnostics(numbered, missing);
            all[1..] == AllMissingDiagnostics(numbered, missing[1..])
            && all == [all[0]] + all[1..]
  {
  }

  lemma NoneIgnoredTail(missing: seq<Missing>, ignored: seq<Ignored>)
    requires |missing| > 0 && NoneIgnored(missing, ignored)
    ensures NoneIgnored(missing[1..], ignored)
  {
    forall k | 0 <= k < |missing[1..]| ensures Ignored(missing[1..][k].number, missing[1..][k].level) !in ignored {
      assert missing[1..][k] == missing[k + 1];
    }
  }

  /** The missing-number warnings keep the order of their entries: they
      are the warnings of all entries with the ignored ones left out. */
  lemma {:induction false} MissingDiagnosticsInOrder(numbered: seq<Heading>, missing: seq<Missing>, ignored: seq<Ignored>)
    requires |numbered| > 0
    ensures Subseq(MissingDiagnostics(numbered, missing, ignored), AllMissingDiagnostics(numbered, missing))
    decreases |missing|
  {
    if |missing| > 0 {
      MissingDiagnosticsInOrder(numbered, missing[1..], ignored);
      AllMissingTail(numbered, missing);
    }
  }

  /** With nothing ignored, there is exactly one warning per missing entry,
      the k-th for the k-th entry. */
  lemma {:induction false} MissingDiagnosticsOnePerEntry(numbered: seq<Heading>, missing: seq<Missing>, ignored: seq<Ignored>)
    requires |numbered| > 0 && NoneIgnored(missing, ignored)
    ensures MissingDiagnostics(numbered, missing, ignored) == AllMissingDiagnostics(numbered, missing)
    decreases |missing|
  {
    if |missing| > 0 {
      NoneIgnoredTail(missing, ignored);
      MissingDiagnosticsOnePerEntry(numbered, missing[1..], ignored);
      AllMissingTail(numbered, missing);
    }
  }

  lemma AllShownTail(headings: seq<Heading>, dups: seq<Duplicate>, ignored: seq<Ignored>)
    requires |dups| > 0 && AllShown(headings, dups, ignored)
    ensures AllShown(headings, dups[1..], ignored)
  {
    forall k | 0 <= k < |dups[1..]| ensures DuplicateDiagnostic(headings, dups[1..][k], ignored).Some? {
      assert dups[1..][k] == dups[k + 1];
    }
  }

  /** When every duplicate is shown there is exactly one warning per
      duplicate, the k-th for the k-th duplicate. */
  lemma {:induction false} DuplicateDiagnosticsOnePer(headings: seq<Heading>, dups: seq<Duplicate>, ignored: seq<Ignored>)
    requires AllShown(headings, dups, ignored)
    ensures var r := DuplicateDiagnostics(headings, dups, ignored);
            |r| == |dups| && forall k :: 0 <= k < |r| ==> DuplicateDiagnostic(headings, dups[k], ignored) == Some(r[k])
    decreases |dups|
  {
    if |dups| > 0 {
      AllShownTail(headings, dups, ignored);
      DuplicateDiagnosticsOnePer(headings, dups[1..], ignored);
      var r := DuplicateDiagnostics(headings, dups, ignored);
      var rest := DuplicateDiagnostics(headings, dups[1..], ignored);
      assert DuplicateDiagnostic(headings, dups[0], ignored).Some?;
      forall k | 0 <= k < |r| ensures DuplicateDiagnostic(headings, dups[k], ignored) == Some(r[k]) {
        if k > 0 {
          assert r[k] == rest[k - 1] && dups[k] == dups[1..][k - 1];
        }
      }
    }
  }

  /** `updateNumberingDiagnostics`: nothing for a document that is not
      markdown; otherwise the missing-number diagnostics, then the
      duplicate ones. */
  function UpdateDiagnostics(languageId: string, headings: seq<Heading>, ignored: seq<Ignored>): (r: Option<seq<Diagnostic>>)
    ensures r.Some? <==> languageId == "markdown"
    ensures r.Some? ==> forall d :: d in r.value ==> Reportable(d, ignored)
    ensures r.Some? ==>
              r.value == MissingDiagnostics(NumberedOnly(headings), Analyze(headings).missing, ignored)
                         + DuplicateDiagnostics(headings, Analyze(headings).duplicates, ignored)
  {
    if languageId != "markdown" then None
    else
      var issues := Analyze(headings);
      var numbered := NumberedOnly(headings);
      var missing := MissingDiagnostics(numbered, issues.missing, ignored);
      var dups := DuplicateDiagnostics(headings, issues.duplicates, ignored);
      forall d | d in missing + dups ensures Reportable(d, ignored) {
        if d in missing {
          MissingShownReportable(numbered, issues.missing, ignored, d);
        } else {
          DuplicateShownReportable(headings, issues.duplicates, ignored, d);
        }
      }
      Some(missing + dups)
  }

  /** A missing-number diagnostic is one the checker may show. */
  lemma MissingShownReportable(numbered: seq<Heading>, missing: seq<Missing>, ignored: seq<Ignored>, d: Diagnostic)
    requires d in MissingDiagnostics(numbered, missing, ignored)
    ensures Reportable(d, ignored)
  {
    var m :| m in missing && Ignored(m.number, m.level) !in ignored
             && MissingDiagnostic(numbered, m) == Some(d);
    assert d.message == Message(MissingProblem, m.number, m.level);
  }

  /** A duplicate-number diagnostic is one the checker may show. */
  lemma DuplicateShownReportable(headings: seq<Heading>, dups: seq<Duplicate>, ignored: seq<Ignored>, d: Diagnostic)
    requires d in DuplicateDiagnostics(headings, dups, ignored)
    ensures Reportable(d, ignored)
  {
    var dup :| dup in dups && DuplicateDiagnostic(headings, dup, ignored) == Some(d);
    var h := headings[FirstOnLine(headings, dup.line).value];
    assert d.message == Message(DuplicateProblem, dup.number, h.level);
  }

  /** A diagnostic the checker may show: its own source, a message it
      writes, and a number and level the user has not ignored. */
  ghost predicate Reportable(d: Diagnostic, ignored: seq<Ignored>)
  {
    d.source == CheckerSource
    && exists kind, n, level :: d.message == Message(kind, n, level) && Ignored(n, level) !in ignored
  }

  /** Every unignored missing entry is shown once some heading carries a
      number, and every unignored duplicate whose line holds a heading is
      shown. */
  lemma UpdateDiagnosticsComplete(headings: seq<Heading>, ignored: seq<Ignored>)
    ensures var r := UpdateDiagnostics("markdown", headings, ignored).value;
            var issues := Analyze(headings);
            var numbered := NumberedOnly(headings);
            (forall m :: m in issues.missing && Ignored(m.number, m.level) !in ignored && |numbered| > 0 ==>
               MissingDiagnostic(numbered, m).Some? && MissingDiagnostic(numbered, m).value in r)
            && (forall dup :: dup in issues.duplicates && DuplicateDiagnostic(headings, dup, ignored).Some? ==>
                  DuplicateDiagnostic(headings, dup, ignored).value in r)
  {
  }

  /** A shown diagnostic's message reads back, with the pattern the ignore
      command uses, as a pair that is not ignored. */
  lemma ReportableParses(d: Diagnostic, ignored: seq<Ignored>)
    requires Reportable(d, ignored)
    ensures ParseMessage(d.message, EitherPattern).Some?
    ensures var (n, level) := ParseMessage(d.message, EitherPattern).value; Ignored(n, level) !in ignored
  {
    var kind, n, level :| d.message == Message(kind, n, level) && Ignored(n, level) !in ignored;
    MessageRoundTrip(kind, n, level);
  }

  // ---------------------------------------------------------------------
  // Quick fixes (`provideCodeActions`).

  const FixMissingCommand := "doc-helper-0711.fixMissingNumber"
  const FixDuplicateCommand := "doc-helper-0711.fixDuplicateNumber"
  const RenumberCommand := "doc-helper-0711.renumberAllHeadings"
  const IgnoreCommand := "doc-helper-0711.ignoreNumberingProblem"

  /** A quick fix: its title, the command it runs with the diagnostic as
      argument, and whether the diagnostic is attached to the fix. */
  datatype CodeAction = CodeAction(title: string, command: string, diagnostic: Diagnostic, attached: bool)

  const MissingMention := "Missing number"
  const DuplicateMention := "Duplicate number"

  predicate MentionsProblem(msg: string)
  {
    Contains(msg, MissingMention) || Contains(msg, DuplicateMention)
  }

  /** Every diagnostic of `rel` mentions a numbering problem. */
  predicate AllMention(rel: seq<Diagnostic>)
  {
    forall d :: d in rel ==> MentionsProblem(d.message)
  }

  /** The diagnostics a request over `range` acts on. */
  predicate Relevant(d: Diagnostic, range: Range)
  {
    d.source == CheckerSource && MentionsProblem(d.message) && Intersects(d.range, range)
  }

  function RelevantOf(diags: seq<Diagnostic>, range: Range): (r: seq<Diagnostic>)
    ensures forall d :: d in r <==> d in diags && Relevant(d, range)
    ensures Subseq(r, diags)
  {
    if |diags| == 0 then []
    else
      var rest := RelevantOf(diags[1..], range);
      assert forall d :: d in diags <==> d == diags[0] || d in diags[1..];
      if Relevant(diags[0], range) then [diags[0]] + rest else rest
  }

  const FixMissingTitle := "Fix missing number in sequence"
  const FixDuplicateTitle := "Fix duplicate number in sequence"
  const RenumberTitle := "Renumber all same level headings in sequence"
  const IgnoreTitle := "Ignore this numbering problem"

  /** The fixes for one diagnostic: the specific fix when the message names
      a missing or a duplicate number, then renumbering, then ignoring. */
  function ActionsFor(d: Diagnostic): (r: seq<CodeAction>)
    ensures |r| == (if MentionsProblem(d.message) then 3 else 2)
    ensures forall a :: a in r ==> a.diagnostic == d
    ensures r[|r| - 2].command == RenumberCommand && !r[|r| - 2].attached
    ensures r[|r| - 1].command == IgnoreCommand && r[|r| - 1].attached
    ensures |r| == 3 ==>
              r[0].attached
              && r[0].command == (if Contains(d.message, MissingMention) then FixMissingCommand else FixDuplicateCommand)
  {
    var fix :=
      if Contains(d.message, MissingMention) then [CodeAction(FixMissingTitle, FixMissingCommand, d, true)]
      else if Contains(d.message, DuplicateMention) then [CodeAction(FixDuplicateTitle, FixDuplicateCommand, d, true)]
      else [];
    fix + [CodeAction(RenumberTitle, RenumberCommand, d, false), CodeAction(IgnoreTitle, IgnoreCommand, d, true)]
  }

  /** `f` applied to every element, the results concatenated in order. */
  function FlatMap<A, B>(xs: seq<A>, f: A -> seq<B>): seq<B>
  {
    if |xs| == 0 then [] else f(xs[0]) + FlatMap(xs[1..], f)
  }

  /** The part `f` gives the `k`-th element sits between the parts of the
      elements before and after it. */
  lemma {:induction false} FlatMapSplit<A, B>(xs: seq<A>, f: A -> seq<B>, k: nat)
    requires k < |xs|
    ensures FlatMap(xs, f) == FlatMap(xs[..k], f) + f(xs[k]) + FlatMap(xs[k + 1..], f)
    decreases k
  {
    if k == 0 {
      assert xs[..0] == [];
      assert FlatMap(xs[..0], f) == [];
    } else {
      var tail := xs[1..];
      FlatMapSplit(tail, f, k - 1);
      assert tail[..k - 1] == xs[1..k] && tail[k - 1] == xs[k] && tail[k..] == xs[k + 1..];
      assert xs[..k][1..] == xs[1..k];
      var a, b, c, e := f(xs[0]), FlatMap(xs[1..k], f), f(xs[k]), FlatMap(xs[k + 1..], f);
      assert FlatMap(xs[..k], f) == a + b;
      assert FlatMap(xs, f) == a + (b + c + e);
      assert a + (b + c + e) == (a + b) + c + e;
    }
  }

  /** The fixes of every diagnostic of `rel`, diagnostic after diagnostic. */
  function ActionsForAll(rel: seq<Diagnostic>): (r: seq<CodeAction>)
    ensures forall a :: a in r ==> a.diagnostic in rel
  {
    ActionsForAllMembers(rel);
    FlatMap(rel, ActionsFor)
  }

  /** Every action produced is one of the given diagnostics' fixes. */
  lemma {:induction false} ActionsForAllMembers(rel: seq<Diagnostic>)
    ensures forall a :: a in FlatMap(rel, ActionsFor) ==> a.diagnostic in rel
  {
    if |rel| > 0 {
      ActionsForAllMembers(rel[1..]);
      assert FlatMap(rel, ActionsFor) == ActionsFor(rel[0]) + FlatMap(rel[1..], ActionsFor);
    }
  }

  /** Relevant diagnostics all name a problem, so each gets three fixes. */
  lemma {:induction false} ActionsForAllCount(rel: seq<Diagnostic>)
    requires AllMention(rel)
    ensures |ActionsForAll(rel)| == 3 * |rel|
  {
    if |rel| > 0 {
      assert MentionsProblem(rel[0].message);
      assert AllMention(rel[1..]) by {
        forall d | d in rel[1..] ensures MentionsProblem(d.message) {
          assert d in rel;
        }
      }
      ActionsForAllCount(rel[1..]);
      assert ActionsForAll(rel) == ActionsFor(rel[0]) + ActionsForAll(rel[1..]);
    }
  }

  /** The fixes of the `k`-th diagnostic sit between those of the
      diagnostics before it and those of the diagnostics after it. */
  lemma ActionsForAllSplit(rel: seq<Diagnostic>, k: nat)
    requires k < |rel|
    ensures ActionsForAll(rel) == ActionsForAll(rel[..k]) + ActionsFor(rel[k]) + ActionsForAll(rel[k + 1..])
  {
    FlatMapSplit(rel, ActionsFor, k);
  }

  /** `provideCodeActions`: nothing for a document that is not markdown;
      otherwise three fixes for each relevant diagnostic, in order. */
  function ProvideCodeActions(languageId: string, diags: seq<Diagnostic>, range: Range): (r: Option<seq<CodeAction>>)
    ensures r.Some? <==> languageId == "markdown"
    ensures r.Some? ==> |r.value| == 3 * |RelevantOf(diags, range)|
    ensures r.Some? ==> forall a :: a in r.value ==> a.diagnostic in diags && Relevant(a.diagnostic, range)
  {
    if languageId != "markdown" then None
    else
      var rel := RelevantOf(diags, range);
      ActionsForAllCount(rel);
      Some(ActionsForAll(rel))
  }

  /** A duplicate message has no capital M, so it never mentions a
      missing number. */
  lemma DuplicateMessageNotMissing(n: nat, level: nat)
    ensures !Contains(Message(DuplicateProblem, n, level), MissingMention)
  {
    var msg := Message(DuplicateProblem, n, level);
    NoLetterInDigits(Show(n), 'M');
    NoLetterInDigits(Show(level), 'M');
    assert 'M' !in KindWord(DuplicateProblem) && 'M' !in NumberWord && 'M' !in LevelWord && 'M' !in ")";
    assert 'M' !in msg;
    ContainsMeans(msg, MissingMention);
    forall i | 0 <= i <= |msg| - |MissingMention| ensures !OccursAt(msg, MissingMention, i) {
      assert msg[i] != 'M';
      assert MissingMention[0] == 'M';
    }
  }

  lemma NoLetterInDigits(s: string, c: char)
    requires AllDigits(s) && !IsDigit(c)
    ensures c !in s
  {
  }

  /** The words a quick-fix request looks for in a message of each kind. */
  function KindMention(kind: ProblemKind): string
  {
    match kind
    case MissingProblem => MissingMention
    case DuplicateProblem => DuplicateMention
  }

  /** Each message mentions its own kind of problem. */
  lemma MessageMentionsKind(kind: ProblemKind, n: nat, level: nat)
    ensures Contains(Message(kind, n, level), KindMention(kind))
  {
    var msg := Message(kind, n, level);
    var p := KindMention(kind);
    assert p == KindWord(kind) + " number";
    assert msg[..|p|] == p;
    assert OccursAt(msg, p, 0);
  }

  /** A shown diagnostic under the cursor gets the fix for its own kind of
      problem first, then renumbering and ignoring. */
  lemma ShownDiagnosticGetsItsFix(kind: ProblemKind, n: nat, level: nat, at: Range, range: Range)
    requires Intersects(at, range)
    ensures var d := Diagnostic(at, Message(kind, n, level), CheckerSource);
            Relevant(d, range)
            && ActionsFor(d)[0].command == (if kind == MissingProblem then FixMissingCommand else FixDuplicateCommand)
  {
    var msg := Message(kind, n, level);
    var d := Diagnostic(at, msg, CheckerSource);
    MessageMentionsKind(kind, n, level);
    if kind == MissingProblem {
      assert Contains(msg, MissingMention);
    } else {
      assert Contains(msg, DuplicateMention);
      DuplicateMessageNotMissing(n, level);
    }
    assert MentionsProblem(msg);
    assert |ActionsFor(d)| == 3;
  }

  // ---------------------------------------------------------------------
  // The commands behind the fixes.

  const MissingTitle := " [Missing Section]"

  /** An edit of the document. */
  datatype Edit = Insert(at: Position, text: string) | ReplaceLine(line: nat, text: string)

  lemma MissingTitleOneLine()
    ensures NoLineTerminator(MissingTitle)
  {
  }

  /** The inserted text is the canonical placeholder heading and a blank
      line. */
  lemma MissingSnippet(level: nat, n: nat)
    ensures Repeat('#', level) + " " + Show(n) + ". [Missing Section]\n\n"
            == CanonicalLine(level, n, '.', MissingTitle) + "\n\n"
  {
  }

  /** `fixMissingNumber`: a placeholder heading for the missing number,
      inserted where the diagnostic starts, followed by a blank line. */
  function FixMissingNumber(message: string, at: Position): (r: Option<Edit>)
    ensures r.Some? <==> ParseMessage(message, MissingPattern).Some?
    ensures r.Some? ==>
              var (n, level) := ParseMessage(message, MissingPattern).value;
              r.value == Insert(at, CanonicalLine(level, n, '.', MissingTitle) + "\n\n")
  {
    match ParseMessage(message, MissingPattern)
    case None => None
    case Some((n, level)) =>
      var snippet := Repeat('#', level) + " " + Show(n) + ". [Missing Section]\n\n";
      MissingSnippet(level, n);
      Some(Insert(at, snippet))
  }

  /** The placeholder inserted for a missing-number diagnostic is a heading
      of the reported level carrying the missing number. */
  lemma FixMissingFillsGap(n: nat, level: nat, at: Position, name: string)
    requires 1 <= level <= 6
    ensures var r := FixMissingNumber(Message(MissingProblem, n, level), at);
            r.Some? && r.value.at == at
            && r.value.text == CanonicalLine(level, n, '.', MissingTitle) + "\n\n"
            && var parsed := ParseHeadingLine(CanonicalLine(level, n, '.', MissingTitle), name);
               parsed.level == level && ExtractNumber(parsed.text) == Some(n)
  {
    FixMissingOfMessage(n, level, at);
    MissingTitleOneLine();
    CanonicalLineParses(level, n, '.', MissingTitle, name);
  }

  lemma FixMissingOfMessage(n: nat, level: nat, at: Position)
    ensures FixMissingNumber(Message(MissingProblem, n, level), at)
            == Some(Insert(at, CanonicalLine(level, n, '.', MissingTitle) + "\n\n"))
  {
    MessageRoundTrip(MissingProblem, n, level);
  }

  /** The largest number among numbered headings. */
  function MaxNumber(hs: seq<Heading>): (m: nat)
    requires |hs| > 0 && AllNumbered(hs)
    ensures forall k :: 0 <= k < |hs| ==> hs[k].number.value <= m
    ensures exists k :: 0 <= k < |hs| && hs[k].number.value == m
  {
    if |hs| == 1 then hs[0].number.value
    else
      var rest := MaxNumber(hs[1..]);
      assert forall k :: 1 <= k < |hs| ==> hs[k] == hs[1..][k - 1];
      if hs[0].number.value > rest then hs[0].number.value else rest
  }

  datatype DuplicateFix =
    | DuplicateNotParsed
    | NoHeadingsAtLevel(level: nat)
    | Renamed(edit: Edit, next: nat)

  /** No heading at `level` carries a number. */
  predicate Unnumbered(headings: seq<Heading>, level: nat)
  {
    forall h :: h in headings && h.level == level ==> h.number.None?
  }

  /** Every number at `level` is below `next`. */
  predicate AllBelow(headings: seq<Heading>, level: nat, next: nat)
  {
    forall h :: h in headings && h.level == level && h.number.Some? ==> h.number.value < next
  }

  /** Some heading at `level` carries the number `n`. */
  predicate Reached(headings: seq<Heading>, level: nat, n: nat)
  {
    exists h :: h in headings && h.level == level && h.number == Some(n)
  }

  /** `fixDuplicateNumber` once the message has given the duplicate number
      and the level: the first whole-word occurrence of the duplicate on
      the diagnostic's first line becomes one more than the largest number
      at that level. */
  function RenameDuplicate(dup: nat, level: nat, headings: seq<Heading>, line: nat, lineText: string): (r: DuplicateFix)
    ensures !r.DuplicateNotParsed?
    ensures r.NoHeadingsAtLevel? ==> r.level == level && Unnumbered(headings, level)
    ensures r.Renamed? ==>
              r.edit == ReplaceLine(line, ReplaceFirstWholeWord(lineText, Show(dup), Show(r.next)))
              && AllBelow(headings, level, r.next) && r.next > 0 && Reached(headings, level, r.next - 1)
  {
    var levelHeadings := NumberedOnly(AtLevel(headings, level));
    if |levelHeadings| == 0 then
      LevelUnnumbered(headings, level);
      NoHeadingsAtLevel(level)
    else
      var next := MaxNumber(levelHeadings) + 1;
      NextAfterMax(headings, level);
      Renamed(ReplaceLine(line, ReplaceFirstWholeWord(lineText, Show(dup), Show(next))), next)
  }

  lemma LevelUnnumbered(headings: seq<Heading>, level: nat)
    requires |NumberedOnly(AtLevel(headings, level))| == 0
    ensures Unnumbered(headings, level)
  {
    forall h | h in headings && h.level == level ensures h.number.None? {
      assert h in AtLevel(headings, level);
      assert h !in NumberedOnly(AtLevel(headings, level));
    }
  }

  /** One more than the largest number at the level exceeds them all, and
      the largest is there. */
  lemma NextAfterMax(headings: seq<Heading>, level: nat)
    requires |NumberedOnly(AtLevel(headings, level))| > 0
    ensures var m := MaxNumber(NumberedOnly(AtLevel(headings, level)));
            AllBelow(headings, level, m + 1) && Reached(headings, level, m)
  {
    var hs := NumberedOnly(AtLevel(headings, level));
    var m := MaxNumber(hs);
    forall h | h in headings && h.level == level && h.number.Some? ensures h.number.value < m + 1 {
      assert h in hs;
      var k :| 0 <= k < |hs| && hs[k] == h;
    }
    var k :| 0 <= k < |hs| && hs[k].number.value == m;
    assert hs[k] in hs;
  }

  /** `fixDuplicateNumber`: a message the duplicate pattern does not match
      is an error; otherwise the renaming above. */
  function FixDuplicateNumber(message: string, headings: seq<Heading>, line: nat, lineText: string): (r: DuplicateFix)
    ensures ParseMessage(message, DuplicatePattern).None? <==> r == DuplicateNotParsed
    ensures ParseMessage(message, DuplicatePattern).Some? ==>
              var (dup, level) := ParseMessage(message, DuplicatePattern).value;
              r == RenameDuplicate(dup, level, headings, line, lineText)
  {
    match ParseMessage(message, DuplicatePattern)
    case None => DuplicateNotParsed
    case Some((dup, level)) => RenameDuplicate(dup, level, headings, line, lineText)
  }

  /** In a canonical heading line the number is the first digit run and
      the first whole-word occurrence of itself. */
  lemma CanonicalNumberPosition(level: nat, n: nat, sep: char, title: string)
    requires sep == '.' || sep == ')'
    ensures var s := CanonicalLine(level, n, sep, title);
            OccursAt(s, Show(n), level + 1)
            && (forall j :: 0 <= j <= level ==> !IsDigit(s[j]))
            && s[level + 1..] == Show(n) + ([sep] + title)
            && s[..level + 1] == Repeat('#', level) + " "
  {
    var s := CanonicalLine(level, n, sep, title);
    var head := Repeat('#', level) + " ";
    assert s == head + (Show(n) + ([sep] + title));
    assert s[..level + 1] == head;
    assert s[level + 1..] == Show(n) + ([sep] + title);
    assert s[level + 1..level + 1 + |Show(n)|] == Show(n);
    forall j | 0 <= j <= level ensures !IsDigit(s[j]) {
      assert s[j] == head[j];
    }
  }

  /** Putting another number in place of a canonical line's number. */
  lemma SwapNumber(level: nat, n: nat, m: nat, sep: char, title: string)
    requires sep == '.' || sep == ')'
    ensures level + 1 + |Show(n)| <= |CanonicalLine(level, n, sep, title)|
    ensures Splice(CanonicalLine(level, n, sep, title), level + 1, |Show(n)|, Show(m)) == CanonicalLine(level, m, sep, title)
  {
    var s := CanonicalLine(level, n, sep, title);
    CanonicalNumberPosition(level, n, sep, title);
    var tail := [sep] + title;
    assert s[level + 1 + |Show(n)|..] == s[level + 1..][|Show(n)|..];
    assert s[level + 1..][|Show(n)|..] == tail;
    assert CanonicalLine(level, m, sep, title) == Repeat('#', level) + " " + Show(m) + tail;
  }

  /** On a canonical heading line, replacing the duplicate number as a whole
      word renumbers the heading and keeps its level, separator and title. */
  lemma FixDuplicateOnCanonicalLine(level: nat, dup: nat, next: nat, sep: char, title: string)
    requires sep == '.' || sep == ')'
    ensures ReplaceFirstWholeWord(CanonicalLine(level, dup, sep, title), Show(dup), Show(next))
            == CanonicalLine(level, next, sep, title)
  {
    var s := CanonicalLine(level, dup, sep, title);
    CanonicalFirstWord(level, dup, sep, title);
    SwapNumber(level, dup, next, sep, title);
    ReplaceKnownFirst(s, Show(dup), Show(next), level + 1, CanonicalLine(level, next, sep, title));
  }

  /** On a canonical line the number stands as a whole word right after
      the hashes and the space. */
  lemma CanonicalWholeWord(level: nat, n: nat, sep: char, title: string)
    requires sep == '.' || sep == ')'
    ensures WholeWordAt(CanonicalLine(level, n, sep, title), Show(n), level + 1)
  {
    var s := CanonicalLine(level, n, sep, title);
    var w := Show(n);
    CanonicalNumberPosition(level, n, sep, title);
    var i := level + 1;
    var rest := [sep] + title;
    assert s[i] == w[0];
    assert s[i - 1] == ' ';
    assert s[i + |w| - 1] == w[|w| - 1];
    assert s[i + |w|] == sep by {
      assert s[i..][|w|] == rest[0];
    }
  }

  /** ... and it is the first whole-word occurrence of that number. */
  lemma CanonicalFirstWord(level: nat, n: nat, sep: char, title: string)
    requires sep == '.' || sep == ')'
    ensures FirstWholeWord(CanonicalLine(level, n, sep, title), Show(n), 0) == Some(level + 1)
  {
    var s := CanonicalLine(level, n, sep, title);
    var w := Show(n);
    CanonicalWholeWord(level, n, sep, title);
    CanonicalNumberPosition(level, n, sep, title);
    var first := FirstWholeWord(s, w, 0);
    assert first.Some? && first.value <= level + 1;
    assert first.value >= level + 1 by {
      var f := first.value;
      assert OccursAt(s, w, f);
      assert s[f] == w[0];
    }
  }

  datatype Renumbering =
    | RenumberNotParsed
    | NoNumberedAtLevel(level: nat)
    | Renumbered(level: nat, edits: seq<Edit>)

  /** The edit giving the `k`-th heading, counting from 0, the number
      `k + 1` in place of the first digit run on its line. */
  function RenumberEdits(hs: seq<Heading>, lineAt: nat -> string): (r: seq<Edit>)
    ensures |r| == |hs|
    ensures forall k :: 0 <= k < |hs| ==>
              r[k] == ReplaceLine(hs[k].line, ReplaceFirstDigitRun(lineAt(hs[k].line), Show(k + 1)))
  {
    seq(|hs|, k requires 0 <= k < |hs| => ReplaceLine(hs[k].line, ReplaceFirstDigitRun(lineAt(hs[k].line), Show(k + 1))))
  }

  /** `renumberAllHeadings`: the numbered headings of the reported level,
      in line order, get 1, 2, 3, ... in place of the first digit run on
      their lines. */
  function RenumberAll(message: string, headings: seq<Heading>, lineAt: nat -> string): (r: Renumbering)
    ensures ParseMessage(message, EitherPattern).None? <==> r == RenumberNotParsed
    ensures r.NoNumberedAtLevel? ==>
              forall h :: h in headings && h.level == r.level ==> h.number.None?
    ensures r.Renumbered? ==>
              var hs := NumberedInLineOrder(AtLevel(headings, r.level));
              r.level == ParseMessage(message, EitherPattern).value.1
              && |hs| > 0 && r.edits == RenumberEdits(hs, lineAt)
  {
    match ParseMessage(message, EitherPattern)
    case None => RenumberNotParsed
    case Some((_, level)) =>
      var group := AtLevel(headings, level);
      if |NumberedOnly(group)| == 0 then NoNumberedAtLevel(level)
      else
        var hs := NumberedInLineOrder(group);
        assert |hs| == |NumberedOnly(group)| by {
          assert |multiset(hs)| == |multiset(NumberedOnly(group))|;
        }
        Renumbered(level, RenumberEdits(hs, lineAt))
  }

  /** On a canonical heading line, replacing the first digit run renumbers
      the heading and keeps its level, separator and title. */
  lemma RenumberCanonicalLine(level: nat, n: nat, m: nat, sep: char, title: string)
    requires sep == '.' || sep == ')'
    ensures ReplaceFirstDigitRun(CanonicalLine(level, n, sep, title), Show(m)) == CanonicalLine(level, m, sep, title)
  {
    var s := CanonicalLine(level, n, sep, title);
    CanonicalDigitRun(level, n, sep, title);
    SwapNumber(level, n, m, sep, title);
    ReplaceKnownDigitRun(s, Show(m), level + 1, |Show(n)|, CanonicalLine(level, m, sep, title));
  }

  /** The first digit run of a canonical line is its number. */
  lemma CanonicalDigitRun(level: nat, n: nat, sep: char, title: string)
    requires sep == '.' || sep == ')'
    ensures FirstDigitRun(CanonicalLine(level, n, sep, title)) == Some(Span(level + 1, |Show(n)|))
  {
    var s := CanonicalLine(level, n, sep, title);
    CanonicalNumberPosition(level, n, sep, title);
    var first := FirstDigitRun(s);
    assert IsDigit(s[level + 1]) by {
      assert s[level + 1] == Show(n)[0];
    }
    assert first.Some?;
    var i := first.value.start;
    assert i == level + 1 by {
      assert IsDigit(s[i]) by {
        assert s[i..][0] == s[i];
      }
    }
    DigitRunOfShow(n, [sep] + title);
  }

  /** After renumbering, every canonical heading line of the level reads
      back as its position in line order, 1 for the first. */
  lemma RenumberedLinesReadBack(level: nat, n: nat, k: nat, sep: char, title: string, name: string)
    requires 1 <= level <= 6
    requires sep == '.' || sep == ')'
    requires NoLineTerminator(title)
    requires |title| > 0 ==> !IsSpace(title[|title| - 1])
    ensures var text := ReplaceFirstDigitRun(CanonicalLine(level, n, sep, title), Show(k + 1));
            var parsed := ParseHeadingLine(text, name);
            parsed.level == level && ExtractNumber(parsed.text) == Some(k + 1)
  {
    RenumberCanonicalLine(level, n, k + 1, sep, title);
    CanonicalLineParses(level, k + 1, sep, title, name);
  }

  /** `ignoreNumberingProblem`: the number and level read from the message
      are added to the document's ignored pairs. */
  function IgnoreNumberingProblem(store: IgnoreStore, key: string, message: string): (r: Result<IgnoreStore, string>)
    ensures r.Err? <==> ParseMessage(message, EitherPattern).None?
    ensures r.Ok? ==>
              var (n, level) := ParseMessage(message, EitherPattern).value;
              r.value == AddIgnoredNumber(store, key, n, level)
              && Ignored(n, level) in GetIgnored(r.value, key)
  {
    match ParseMessage(message, EitherPattern)
    case None => Err("Could not parse heading number from diagnostic.")
    case Some((n, level)) => Ok(AddIgnoredNumber(store, key, n, level))
  }

  /** Ignoring a shown problem removes it: once the pair is stored, the
      recomputed diagnostics carry no message with that number and level. */
  lemma IgnoreSuppresses(headings: seq<Heading>, store: IgnoreStore, key: string, d: Diagnostic)
    requires d in UpdateDiagnostics("markdown", headings, GetIgnored(store, key)).value
    ensures var r := IgnoreNumberingProblem(store, key, d.message);
            r.Ok?
            && forall d' :: d' in UpdateDiagnostics("markdown", headings, GetIgnored(r.value, key)).value ==>
                 ParseMessage(d'.message, EitherPattern) != ParseMessage(d.message, EitherPattern)
  {
    ReportableParses(d, GetIgnored(store, key));
    var r := IgnoreNumberingProblem(store, key, d.message);
    var after := GetIgnored(r.value, key);
    forall d' | d' in UpdateDiagnostics("markdown", headings, after).value
      ensures ParseMessage(d'.message, EitherPattern) != ParseMessage(d.message, EitherPattern)
    {
      ReportableParses(d', after);
    }
  }
}

=== FILE: seqs.dfy ===
/** Subsequences: the order fact shared by every filter of the program
    (`Array.prototype.filter`, and the loops that push the elements they
    keep).  A filter keeps the elements it accepts in the order they came. */
module Seqs {

  /** `r` is `s` with some elements left out and the rest kept in order. */
  ghost predicate Subseq<T>(r: seq<T>, s: seq<T>)
    decreases |s|
  {
    if |s| == 0 then |r| == 0
    else (|r| > 0 && r[0] == s[0] && Subseq(r[1..], s[1..])) || Subseq(r, s[1..])
  }

  predicate StrictlyIncreasing(idx: seq<nat>)
  {
    forall i, j :: 0 <= i < j < |idx| ==> idx[i] < idx[j]
  }

  /** Every position moved one place to the right. */
  function Shift(idx: seq<nat>): (r: seq<nat>)
    ensures |r| == |idx| && forall k :: 0 <= k < |r| ==> r[k] == idx[k] + 1
  {
    seq(|idx|, k requires 0 <= k < |idx| => idx[k] + 1)
  }

  /** `idx` lists strictly increasing positions of `s` holding the
      elements of `r` in turn. */
  ghost predicate Picks<T>(idx: seq<nat>, r: seq<T>, s: seq<T>)
  {
    |idx| == |r| && StrictlyIncreasing(idx)
    && forall k :: 0 <= k < |r| ==> idx[k] < |s| && s[idx[k]] == r[k]
  }

  /** Position 0, then every position moved one place to the right. */
  function ZeroThenShift(idx: seq<nat>): (r: seq<nat>)
    ensures |r| == |idx| + 1 && r[0] == 0
    ensures forall k :: 1 <= k < |r| ==> r[k] == idx[k - 1] + 1
  {
    seq(|idx| + 1, k requires 0 <= k <= |idx| => if k == 0 then 0 else idx[k - 1] + 1)
  }

  lemma ShiftIncreasing(idx: seq<nat>)
    requires StrictlyIncreasing(idx)
    ensures StrictlyIncreasing(Shift(idx))
  {
  }

  lemma ZeroThenShiftIncreasing(idx: seq<nat>)
    requires StrictlyIncreasing(idx)
    ensures StrictlyIncreasing(ZeroThenShift(idx))
  {
    var r := ZeroThenShift(idx);
    forall i, j | 0 <= i < j < |r| ensures r[i] < r[j] {
      if i > 0 {
        assert r[i] == idx[i - 1] + 1 && r[j] == idx[j - 1] + 1;
      } else {
        assert r[j] == idx[j - 1] + 1;
      }
    }
  }

  /** A subsequence takes its elements from strictly increasing positions
      of the sequence: the k-th kept element is `s[idx[k]]`. */
  lemma {:induction false} SubseqIndices<T>(r: seq<T>, s: seq<T>) returns (idx: seq<nat>)
    requires Subseq(r, s)
    ensures Picks(idx, r, s)
    decreases |s|
  {
    if |s| == 0 {
      idx := [];
    } else if |r| > 0 && r[0] == s[0] && Subseq(r[1..], s[1..]) {
      var tail := SubseqIndices(r[1..], s[1..]);
      idx := ZeroThenShift(tail);
      KeepFirst(r, s, tail);
    } else {
      var tail := SubseqIndices(r, s[1..]);
      idx := Shift(tail);
      SkipFirst(r, s, tail);
    }
  }

  /** Positions in `s[1..]`, moved one place on, are positions in `s`. */
  lemma SkipFirst<T>(r: seq<T>, s: seq<T>, tail: seq<nat>)
    requires |s| > 0 && Picks(tail, r, s[1..])
    ensures Picks(Shift(tail), r, s)
  {
    var idx := Shift(tail);
    ShiftIncreasing(tail);
    forall k | 0 <= k < |r| ensures idx[k] < |s| && s[idx[k]] == r[k] {
      assert s[1..][tail[k]] == r[k];
    }
  }

  /** Position 0, then the positions of the rest moved one place on. */
  lemma KeepFirst<T>(r: seq<T>, s: seq<T>, tail: seq<nat>)
    requires |s| > 0 && |r| > 0 && r[0] == s[0] && Picks(tail, r[1..], s[1..])
    ensures Picks(ZeroThenShift(tail), r, s)
  {
    var idx := ZeroThenShift(tail);
    ZeroThenShiftIncreasing(tail);
    forall k | 0 <= k < |r| ensures idx[k] < |s| && s[idx[k]] == r[k] {
      if k > 0 {
        assert idx[k] == tail[k - 1] + 1;
        assert s[1..][tail[k - 1]] == r[1..][k - 1];
      }
    }
  }

  /** A subsequence is no longer than the sequence. */
  lemma {:induction false} SubseqLength<T>(r: seq<T>, s: seq<T>)
    requires Subseq(r, s)
    ensures |r| <= |s|
    decreases |s|
  {
    if |s| > 0 {
      if |r| > 0 && r[0] == s[0] && Subseq(r[1..], s[1..]) {
        SubseqLength(r[1..], s[1..]);
      } else {
        SubseqLength(r, s[1..]);
      }
    }
  }
}

=== FILE: simplify_writing.dfy ===
/** The generate-documentation command (src/utils/simplifyWriting.ts): read
    a source file, ask a language model for its documentation, and write the
    answer to the doc path that mirrors the source under `docs/`.  Reading,
    the model and writing are inputs that either answer or fail; any failure
    ends the command with one error message. */
module SimplifyWriting {
  import opened Wrappers
  import opened Text
  import opened DocPaths

  /** The extensions the doc path replaces; unlike the drift mapping of the
      command-line tool, `.jsx` is among them. */
  const GeneratedExtensions: seq<string> := ["ts", "js", "tsx", "jsx"]

  lemma ExtensionsDotFree()
    ensures forall e :: e in GeneratedExtensions ==> NoDot(e)
  {
  }

  const NoFolderError := "No workspace folder found"
  const FailurePrefix := "Failed to generate documentation: "
  const SuccessMessage := "Documentation generated successfully!"

  /** `^src[\/\\]` becomes `docs/`, then a trailing `.ts`, `.js`, `.tsx` or
      `.jsx` becomes `.md`. */
  function GeneratedDocPath(rel: string): (r: string)
    ensures (exists e :: e in GeneratedExtensions && EndsWith(rel, "." + e)) ==> EndsWith(r, ".md")
    ensures (!StartsWith(rel, "src/") && !StartsWith(rel, "src\\")
             && forall e :: e in GeneratedExtensions ==> !EndsWith(rel, "." + e)) ==> r == rel
  {
    MovedPath(rel, "src", "docs/", GeneratedExtensions, ".md");
    ReplaceExtension(ReplaceLeadingDir(rel, "src", "docs/"), GeneratedExtensions, ".md")
  }

  /** The language named to the model for a lower-cased extension:
      TypeScript for `.ts` and `.tsx`, JavaScript for everything else. */
  function LanguageOf(ext: string): (r: string)
    ensures r == "typescript" <==> (ext == ".ts" || ext == ".tsx")
    ensures r != "typescript" ==> r == "javascript"
  {
    if ext == ".ts" || ext == ".tsx" then "typescript" else "javascript"
  }

  /** The extension is compared in lower case, so `.TS` is TypeScript too. */
  function Language(sourcePath: string): string
  {
    LanguageOf(ToLower(Extname(sourcePath)))
  }

  /** What the command reads and calls: the file's text (or why it could
      not be read), the model (code and language to documentation, or an
      error), whether a workspace folder is open, the file write (an error
      for a path, or `None` when it succeeds), and opening and showing the
      written file in an editor (an error, or `None`). */
  datatype Environment = Environment(
    read: Result<string, string>,
    generate: (string, string) -> Result<string, string>,
    hasFolder: bool,
    write: (string, string) -> Option<string>,
    open: string -> Option<string>)

  /** The command ends either with the error shown or with the path written
      and the text written there, which has been opened. */
  datatype Outcome = Failed(message: string) | Generated(docRel: string, content: string)

  /** `generateDocumentation` for a source at workspace-relative path `rel`. */
  function GenerateDocumentation(rel: string, env: Environment): (r: Outcome)
    ensures r.Generated? <==>
              env.read.Ok? && env.generate(env.read.value, Language(rel)).Ok? && env.hasFolder
              && env.write(GeneratedDocPath(rel), env.generate(env.read.value, Language(rel)).value).None?
              && env.open(GeneratedDocPath(rel)).None?
    ensures r.Generated? ==>
              r.docRel == GeneratedDocPath(rel) && r.content == env.generate(env.read.value, Language(rel)).value
    ensures env.read.Err? ==> r == Failed(FailurePrefix + env.read.error)
    ensures env.read.Ok? && env.generate(env.read.value, Language(rel)).Err? ==>
              r == Failed(FailurePrefix + env.generate(env.read.value, Language(rel)).error)
    ensures env.read.Ok? && env.generate(env.read.value, Language(rel)).Ok? && !env.hasFolder ==>
              r == Failed(FailurePrefix + NoFolderError)
    ensures env.read.Ok? && env.generate(env.read.value, Language(rel)).Ok? && env.hasFolder ==>
              var written := env.write(GeneratedDocPath(rel), env.generate(env.read.value, Language(rel)).value);
              (written.Some? ==> r == Failed(FailurePrefix + written.value))
              && (written.None? && env.open(GeneratedDocPath(rel)).Some? ==>
                    r == Failed(FailurePrefix + env.open(GeneratedDocPath(rel)).value))
  {
    match env.read
    case Err(e) => Failed(FailurePrefix + e)
    case Ok(code) =>
      match env.generate(code, Language(rel))
      case Err(e) => Failed(FailurePrefix + e)
      case Ok(documentation) =>
        if !env.hasFolder then Failed(FailurePrefix + NoFolderError)
        else
          var docRel := GeneratedDocPath(rel);
          match env.write(docRel, documentation)
          case Some(e) => Failed(FailurePrefix + e)
          case None =>
            match env.open(docRel)
            case Some(e) => Failed(FailurePrefix + e)
            case None => Generated(docRel, documentation)
  }

  /** The message shown when the command ends. */
  function Notification(r: Outcome): (m: string)
    ensures r.Generated? ==> m == SuccessMessage
    ensures r.Failed? ==> StartsWith(m, FailurePrefix) || m == r.message
  {
    if r.Generated? then SuccessMessage else r.message
  }

  /** A source under `src/` is documented at the same place under `docs/`. */
  lemma GeneratedDocPathUnderSrc(x: string, ext: string)
    requires ext in GeneratedExtensions
    ensures GeneratedDocPath("src/" + x + "." + ext) == "docs/" + x + ".md"
  {
    ReplaceLeadingDirOf("src", x + "." + ext, "docs/");
    assert "src" + "/" + (x + "." + ext) == "src/" + x + "." + ext;
    ExtensionsDotFree();
    ReplaceExtensionOf("docs/" + x, ext, GeneratedExtensions, ".md");
    assert "docs/" + (x + "." + ext) == "docs/" + x + "." + ext;
  }

  /** A source outside `src/` keeps its directory; only its extension
      becomes `.md`. */
  lemma GeneratedDocPathOutsideSrc(p: string, ext: string)
    requires ext in GeneratedExtensions
    requires !StartsWith(p, "src/") && !StartsWith(p, "src\\")
    ensures GeneratedDocPath(p + "." + ext) == p + ".md"
  {
    assert "src" + "/" == "src/" && "src" + "\\" == "src\\";
    LeadingDirKept(p, ext, "src", "docs/");
    ExtensionsDotFree();
    ReplaceExtensionOf(p, ext, GeneratedExtensions, ".md");
  }

  /** The generated doc leads back to its source: the missing-doc and
      inline-suggestion lookups, with the default docs directory, strip the
      doc path to the source's path without its extension. */
  lemma GeneratedDocLeadsBack(x: string, ext: string)
    requires ext in GeneratedExtensions
    ensures SourceBase(GeneratedDocPath("src/" + x + "." + ext), "docs/") + "." + ext == "src/" + x + "." + ext
  {
    GeneratedDocPathUnderSrc(x, ext);
    SourceBaseOfDoc("docs/", x);
  }

  /** The model is told TypeScript for `.ts` and `.tsx` sources and
      JavaScript for `.js` and `.jsx` ones. */
  lemma LanguageOfSource(x: string, ext: string)
    requires |x| > 0 && x[|x| - 1] != '/'
    requires ext in GeneratedExtensions
    ensures Language("src/" + x + "." + ext) == (if ext == "ts" || ext == "tsx" then "typescript" else "javascript")
  {
    var base := "src/" + x;
    assert base[|base| - 1] == x[|x| - 1];
    ExtnameOfCandidate(base, ext);
    assert Candidate(base, ext) == "src/" + x + "." + ext;
    LanguageOfExtension("src/" + x + "." + ext, ext);
  }

  lemma LanguageOfExtension(p: string, ext: string)
    requires ext in GeneratedExtensions && Extname(p) == "." + ext
    ensures Language(p) == (if ext == "ts" || ext == "tsx" then "typescript" else "javascript")
  {
    LowerExtension(ext);
    LanguageOfListed(ext);
  }

  lemma LanguageOfListed(ext: string)
    requires ext in GeneratedExtensions
    ensures LanguageOf("." + ext) == (if ext == "ts" || ext == "tsx" then "typescript" else "javascript")
  {
    if ext == "js" || ext == "jsx" {
      assert ("." + ext)[1] == 'j' && ".ts"[1] == 't' && ".tsx"[1] == 't';
    }
  }

  lemma LowerExtension(ext: string)
    requires ext in GeneratedExtensions
    ensures ToLower("." + ext) == "." + ext
  {
    if ext == "ts" {
      assert ToLower(".ts") == ".ts";
    } else if ext == "js" {
      assert ToLower(".js") == ".js";
    } else if ext == "tsx" {
      assert ToLower(".tsx") == ".tsx";
    } else {
      assert ToLower(".jsx") == ".jsx";
    }
  }
}

=== FILE: sorting.dfy ===
/** Stable sorting by a lexicographic integer key.  Every comparator of the
    program that is used with `Array.prototype.sort` is a consistent total
    preorder, so each is modelled by the key it compares: a sequence of
    integers ordered lexicographically. */
module Sorting {

  /** Lexicographic "less than or equal" on integer keys. */
  predicate LexLe(a: seq<int>, b: seq<int>)
    decreases |a|
  {
    |a| == 0 || (|b| > 0 && (a[0] < b[0] || (a[0] == b[0] && LexLe(a[1..], b[1..]))))
  }

  lemma {:induction false} LexLeRefl(a: seq<int>)
    ensures LexLe(a, a)
    decreases |a|
  {
    if |a| > 0 {
      LexLeRefl(a[1..]);
    }
  }

  lemma {:induction false} LexLeTotal(a: seq<int>, b: seq<int>)
    ensures LexLe(a, b) || LexLe(b, a)
    decreases |a|
  {
    if |a| > 0 && |b| > 0 && a[0] == b[0] {
      LexLeTotal(a[1..], b[1..]);
    }
  }

  lemma {:induction false} LexLeTrans(a: seq<int>, b: seq<int>, c: seq<int>)
    requires LexLe(a, b) && LexLe(b, c)
    ensures LexLe(a, c)
    decreases |a|
  {
    if |a| > 0 && a[0] == b[0] && b[0] == c[0] {
      LexLeTrans(a[1..], b[1..], c[1..]);
    }
  }

  /** Keys compare first on their first component. */
  lemma LexLeHead(a: seq<int>, b: seq<int>)
    requires LexLe(a, b) && |a| > 0
    ensures |b| > 0 && a[0] <= b[0]
    ensures a[0] == b[0] ==> LexLe(a[1..], b[1..])
  {
  }

  /** Keys that agree on their first `k` components compare on the next. */
  lemma {:induction false} LexLeAt(a: seq<int>, b: seq<int>, k: nat)
    requires LexLe(a, b) && k < |a| && k <= |b| && a[..k] == b[..k]
    ensures k < |b| && a[k] <= b[k]
    decreases k
  {
    LexLeHead(a, b);
    if k > 0 {
      assert a[..k][0] == a[0] && b[..k][0] == b[0];
      assert a[1..][..k - 1] == a[..k][1..] && b[1..][..k - 1] == b[..k][1..];
      LexLeAt(a[1..], b[1..], k - 1);
    }
  }

  ghost predicate SortedBy<T>(s: seq<T>, key: T -> seq<int>)
  {
    forall i, j :: 0 <= i < j < |s| ==> LexLe(key(s[i]), key(s[j]))
  }

  /** Inserts `x` after every element whose key is not greater than its own,
      which keeps equal keys in arrival order. */
  function Insert<T>(x: T, s: seq<T>, key: T -> seq<int>): (r: seq<T>)
    requires SortedBy(s, key)
    ensures SortedBy(r, key)
    ensures multiset(r) == multiset(s) + multiset{x}
    ensures |r| == |s| + 1
  {
    if |s| == 0 then
      [x]
    else if !LexLe(key(s[0]), key(x)) then
      LexLeTotal(key(s[0]), key(x));
      forall j | 0 <= j < |s| ensures LexLe(key(x), key(s[j])) {
        if j > 0 {
          LexLeTrans(key(x), key(s[0]), key(s[j]));
        }
      }
      [x] + s
    else
      var rest := Insert(x, s[1..], key);
      assert s == [s[0]] + s[1..];
      forall j | 0 <= j < |rest| ensures LexLe(key(s[0]), key(rest[j])) {
        assert rest[j] in multiset(rest);
        if rest[j] != x {
          assert rest[j] in multiset(s[1..]);
          var k :| 0 <= k < |s[1..]| && s[1..][k] == rest[j];
          assert s[k + 1] == rest[j];
        }
      }
      [s[0]] + rest
  }

  /** `[...s].sort(cmp)` where `cmp(a, b)` compares `key(a)` with `key(b)`. */
  function SortBy<T>(s: seq<T>, key: T -> seq<int>): (r: seq<T>)
    ensures SortedBy(r, key)
    ensures multiset(r) == multiset(s)
    ensures |r| == |s|
  {
    if |s| == 0 then []
    else
      assert s == s[..|s| - 1] + [s[|s| - 1]];
      Insert(s[|s| - 1], SortBy(s[..|s| - 1], key), key)
  }
}

=== FILE: symbols.dfy ===
/** The document-symbol trees VS Code's symbol providers return, and the
    pre-order flattening the numbering, missing-documentation and linking
    providers each apply to them (`processSymbol` in
    src/providers/wrongNumberingCodeActionProvider.ts, `flattenSymbols` in
    src/providers/missingDocCodeActionProvider.ts and
    src/providers/fileLinkingProvider.ts). */
module Symbols {
  /** A zero-based line and character offset. */
  datatype Position = Position(line: nat, character: nat)

  predicate Before(a: Position, b: Position)
  {
    a.line < b.line || (a.line == b.line && a.character < b.character)
  }

  datatype Range = Range(start: Position, end: Position)

  /** `Range.intersection` is defined: the later start is not after the
      earlier end. */
  predicate Intersects(a: Range, b: Range)
  {
    !Before(a.end, b.start) && !Before(b.end, a.start)
  }

  /** The kinds the providers test for; every other kind is `Other`. */
  datatype SymbolKind = Module | Namespace | Class | Method | Interface | Function | Constant | String | Other

  datatype Symbol = Symbol(name: string, kind: SymbolKind, range: Range, children: seq<Symbol>)

  /** The number of symbols in a forest, counting every descendant. */
  function ForestSize(ts: seq<Symbol>): nat
    decreases ts
  {
    if |ts| == 0 then 0 else 1 + ForestSize(ts[0].children) + ForestSize(ts[1..])
  }

  /** Pre-order: each symbol, then its children's flattening, then the
      following siblings. */
  function Flatten(ts: seq<Symbol>): (r: seq<Symbol>)
    ensures |r| == ForestSize(ts)
    decreases ts
  {
    if |ts| == 0 then [] else [ts[0]] + Flatten(ts[0].children) + Flatten(ts[1..])
  }

  /** A symbol together with everything below it, in pre-order. */
  function Subtree(t: Symbol): seq<Symbol>
  {
    [t] + Flatten(t.children)
  }

  /** The symbol at index `i` of `r` is followed at once by the rest of its
      subtree. */
  predicate ContiguousAt(r: seq<Symbol>, i: nat)
  {
    i < |r| && i + |Subtree(r[i])| <= |r| && r[i..i + |Subtree(r[i])|] == Subtree(r[i])
  }

  lemma ContiguousLeft(r: seq<Symbol>, x: seq<Symbol>, y: seq<Symbol>, i: nat)
    requires r == x + y && ContiguousAt(x, i)
    ensures ContiguousAt(r, i)
  {
    var n := |Subtree(x[i])|;
    assert r[i] == x[i];
    assert r[i..i + n] == x[i..i + n];
  }

  lemma ContiguousRight(r: seq<Symbol>, x: seq<Symbol>, y: seq<Symbol>, j: nat, k: nat)
    requires r == x + y && ContiguousAt(y, j) && k == |x| + j
    ensures ContiguousAt(r, k)
  {
    var n := |Subtree(y[j])|;
    assert r[k] == y[j];
    assert r[k..k + n] == y[j..j + n];
  }

  lemma Regroup<T>(h: seq<T>, x: seq<T>, p: seq<T>, q: seq<T>)
    ensures h + x + (p + q) == (h + x + p) + q
  {
  }

  /** Flattening distributes over concatenation of forests. */
  lemma {:induction false} FlattenAppend(a: seq<Symbol>, b: seq<Symbol>)
    ensures Flatten(a + b) == Flatten(a) + Flatten(b)
    decreases a
  {
    if |a| > 0 {
      assert (a + b)[0] == a[0];
      assert (a + b)[1..] == a[1..] + b;
      var x := Flatten(a[0].children);
      assert Flatten(a + b) == [a[0]] + x + Flatten(a[1..] + b);
      FlattenAppend(a[1..], b);
      Regroup([a[0]], x, Flatten(a[1..]), Flatten(b));
    } else {
      assert a + b == b;
    }
  }

  /** In the flattening, every symbol is immediately followed by all of its
      descendants and by nothing else first: a parent precedes its
      children, and each subtree is contiguous. */
  lemma {:induction false} SubtreeContiguous(ts: seq<Symbol>, i: nat)
    requires i < |Flatten(ts)|
    ensures ContiguousAt(Flatten(ts), i)
    decreases ts
  {
    var r := Flatten(ts);
    var head := Subtree(ts[0]);
    var b := Flatten(ts[1..]);
    assert r == head + b;
    if i == 0 {
      assert head[0] == ts[0] && head[0..|head|] == head;
      ContiguousLeft(r, head, b, 0);
    } else if i < |head| {
      var a := Flatten(ts[0].children);
      SubtreeContiguous(ts[0].children, i - 1);
      ContiguousRight(head, [ts[0]], a, i - 1, i);
      ContiguousLeft(r, head, b, i);
    } else {
      SubtreeContiguous(ts[1..], i - |head|);
      ContiguousRight(r, head, b, i - |head|, i);
    }
  }

  /** Every symbol of the forest, at any depth, appears in the flattening,
      and nothing else does. */
  ghost predicate InForest(s: Symbol, ts: seq<Symbol>)
    decreases ts
  {
    |ts| > 0 && (s == ts[0] || InForest(s, ts[0].children) || InForest(s, ts[1..]))
  }

  lemma {:induction false} FlattenMembers(ts: seq<Symbol>, s: Symbol)
    ensures s in Flatten(ts) <==> InForest(s, ts)
    decreases ts
  {
    if |ts| > 0 {
      FlattenMembers(ts[0].children, s);
      FlattenMembers(ts[1..], s);
      assert Flatten(ts) == [ts[0]] + Flatten(ts[0].children) + Flatten(ts[1..]);
    }
  }
}

=== FILE: task_tree.dfy ===
/** The to-do tree view (src/providers/taskTreeProvider.ts): the tasks in
    the chosen sort order, each shown with its title, a shortened
    description with deadline and file notes, a tooltip and an icon for its
    urgency.  The clock is an input, and so are the locale's date text and
    the locale's title collation (as a key whose lexicographic order is
    `localeCompare`'s with base sensitivity). */
module TaskTree {
  import opened Wrappers
  import opened Text
  import opened Sorting
  import opened Tasks

  // ---------------------------------------------------------------------
  // Sort modes.

  datatype SortMode = ByCreation | ByPriority | ByName | ByStatus | ByDeadline

  /** The value a mode is saved under in the `taskTracker.sortMode` setting. */
  function ModeName(m: SortMode): string
  {
    match m
    case ByCreation => "creation"
    case ByPriority => "priority"
    case ByName => "alphabetical"
    case ByStatus => "status"
    case ByDeadline => "deadline"
  }

  /** The constructor's reading of the saved setting: a known name selects
      its mode, anything else (or nothing) the creation order. */
  function ParseSortMode(saved: Option<string>): (r: SortMode)
    ensures (exists m :: saved == Some(ModeName(m))) ==> saved == Some(ModeName(r))
    ensures !(exists m :: saved == Some(ModeName(m))) ==> r == ByCreation
  {
    if saved == Some("priority") then ByPriority
    else if saved == Some("alphabetical") then ByName
    else if saved == Some("status") then ByStatus
    else if saved == Some("deadline") then ByDeadline
    else
      assert forall m :: saved == Some(ModeName(m)) ==> m == ByCreation;
      ByCreation
  }

  /** A mode saved by `setSortMode` is the mode the view starts with next
      time. */
  lemma SortModeRoundTrip(m: SortMode)
    ensures ParseSortMode(Some(ModeName(m))) == m
  {
  }

  /** `getSortModeDescription`. */
  function SortModeDescription(m: SortMode): string
  {
    match m
    case ByPriority => "🎯 Sorted by Priority"
    case ByName => "🔤 Sorted Alphabetically"
    case ByStatus => "✅ Sorted by Status"
    case ByDeadline => "⏰ Sorted by Deadline"
    case ByCreation => "📅 Sorted by Creation"
  }

  // ---------------------------------------------------------------------
  // Sorting.  Each comparator of `sortTasks` is the lexicographic order on
  // a key; `InOrder` says in plain terms what the comparator asks of two
  // tasks one before the other.

  function StatusRank(t: Task): int
  {
    if t.completed then 1 else 0
  }

  /** `{ high: 0, medium: 1, low: 2 }`. */
  function PriorityRank(p: Priority): int
  {
    match p
    case High => 0
    case Medium => 1
    case Low => 2
  }

  function SortKey(mode: SortMode, collate: string -> seq<int>, t: Task): (k: seq<int>)
    ensures |k| >= 1 && (mode != ByCreation ==> k[0] == StatusRank(t))
  {
    match mode
    case ByPriority => [StatusRank(t), PriorityRank(t.priority)]
    case ByName => [StatusRank(t)] + collate(t.title)
    case ByStatus => [StatusRank(t), t.createdAt]
    case ByDeadline =>
      (match t.deadline
       case None => [StatusRank(t), 1, -t.createdAt, 0]
       case Some(d) => [StatusRank(t), 0, d, PriorityRank(t.priority)])
    case ByCreation => [-t.createdAt]
  }

  /** Within one status: deadlines first, earliest first, then by priority;
      tasks without a deadline newest first. */
  predicate DeadlineInOrder(a: Task, b: Task)
  {
    (b.deadline.Some? ==> a.deadline.Some?)
    && (a.deadline.Some? && b.deadline.Some? ==>
          a.deadline.value <= b.deadline.value
          && (a.deadline.value == b.deadline.value ==> PriorityRank(a.priority) <= PriorityRank(b.priority)))
    && (a.deadline.None? && b.deadline.None? ==> a.createdAt >= b.createdAt)
  }

  /** What mode `mode` asks of `a` placed before `b`. */
  predicate InOrder(mode: SortMode, collate: string -> seq<int>, a: Task, b: Task)
  {
    (mode == ByCreation ==> a.createdAt >= b.createdAt)
    && (mode != ByCreation ==> (a.completed ==> b.completed))
    && (mode != ByCreation && a.completed == b.completed ==>
          match mode
          case ByPriority => PriorityRank(a.priority) <= PriorityRank(b.priority)
          case ByName => LexLe(collate(a.title), collate(b.title))
          case ByStatus => a.createdAt <= b.createdAt
          case ByDeadline => DeadlineInOrder(a, b)
          case ByCreation => true)
  }

  lemma KeyOrder(mode: SortMode, collate: string -> seq<int>, a: Task, b: Task)
    requires LexLe(SortKey(mode, collate, a), SortKey(mode, collate, b))
    ensures InOrder(mode, collate, a, b)
  {
    var ka := SortKey(mode, collate, a);
    var kb := SortKey(mode, collate, b);
    LexLeAt(ka, kb, 0);
    if mode != ByCreation && a.completed == b.completed {
      match mode
      case ByName =>
        LexLeHead(ka, kb);
        assert ka[1..] == collate(a.title) && kb[1..] == collate(b.title);
      case ByDeadline =>
        DeadlineKeyOrder(ka, kb, a, b);
      case ByPriority =>
        assert ka[..1] == kb[..1];
        LexLeAt(ka, kb, 1);
      case ByStatus =>
        assert ka[..1] == kb[..1];
        LexLeAt(ka, kb, 1);
      case ByCreation =>
    }
  }

  lemma DeadlineKeyOrder(ka: seq<int>, kb: seq<int>, a: Task, b: Task)
    requires ka == SortKey(ByDeadline, t => [], a) && kb == SortKey(ByDeadline, t => [], b)
    requires LexLe(ka, kb) && a.completed == b.completed
    ensures DeadlineInOrder(a, b)
  {
    assert ka[..1] == kb[..1];
    LexLeAt(ka, kb, 1);
    if ka[1] == kb[1] {
      assert ka[..2] == kb[..2];
      LexLeAt(ka, kb, 2);
      if ka[2] == kb[2] {
        assert ka[..3] == kb[..3];
        LexLeAt(ka, kb, 3);
      }
    }
  }

  /** `sortTasks`: a copy of the tasks in the order of the mode. */
  function SortTasks(mode: SortMode, collate: string -> seq<int>, tasks: seq<Task>): (r: seq<Task>)
    ensures multiset(r) == multiset(tasks) && |r| == |tasks|
    ensures forall i, j :: 0 <= i < j < |r| ==> InOrder(mode, collate, r[i], r[j])
  {
    var key := t => SortKey(mode, collate, t);
    var r := SortBy(tasks, key);
    forall i, j | 0 <= i < j < |r| ensures InOrder(mode, collate, r[i], r[j]) {
      assert LexLe(key(r[i]), key(r[j]));
      if mode == ByDeadline {
        assert SortKey(ByDeadline, collate, r[i]) == SortKey(ByDeadline, t => [], r[i]);
        assert SortKey(ByDeadline, collate, r[j]) == SortKey(ByDeadline, t => [], r[j]);
      }
      KeyOrder(mode, collate, r[i], r[j]);
    }
    r
  }

  /** In every mode but creation order, pending tasks come before
      completed ones. */
  lemma PendingFirst(mode: SortMode, collate: string -> seq<int>, tasks: seq<Task>, i: nat, j: nat)
    requires mode != ByCreation
    requires i < j < |tasks|
    ensures var r := SortTasks(mode, collate, tasks);
            r[i].completed ==> r[j].completed
  {
  }

  // ---------------------------------------------------------------------
  // Tree items.

  const MsPerDay := 1000 * 60 * 60 * 24

  /** `Math.ceil((deadline - now) / MsPerDay)`: whole days left, rounded up. */
  function DiffDays(deadline: int, now: int): (r: int)
    ensures MsPerDay * (r - 1) < deadline - now <= MsPerDay * r
  {
    -((now - deadline) / MsPerDay)
  }

  /** An integer written in decimal, with a minus sign when negative. */
  function ShowInt(n: int): string
  {
    if n >= 0 then Show(n) else "-" + Show(-n)
  }

  /** `description.length > 50 ? description.substring(0, 47) + '...' : description`. */
  function Truncate(s: string): (r: string)
    ensures |r| <= 50
    ensures |s| <= 50 <==> r == s
    ensures |s| > 50 ==> r == s[..47] + "..."
  {
    if |s| > 50 then s[..47] + "..." else s
  }

  /** The short deadline note of the description. */
  function ShortDeadlineText(days: int, date: string): (r: string)
    ensures |r| > 0 && (r[0] == '⚠' <==> days < 0)
  {
    if days < 0 then "⚠️ " + Show(-days) + "d overdue"
    else if days == 0 then "⏰ Due today"
    else if days == 1 then "⏰ Due tomorrow"
    else if days <= 7 then "⏰ " + Show(days) + "d left"
    else "⏰ " + date
  }

  /** The deadline line of the tooltip: the date, and how near it is when
      at most a week away. */
  function DeadlineText(days: int, date: string): (r: string)
    ensures StartsWith(r, date)
    ensures days > 7 <==> r == date
  {
    if days < 0 then date + " (" + Show(-days) + " days overdue)"
    else if days == 0 then date + " (due today)"
    else if days == 1 then date + " (due tomorrow)"
    else if days <= 7 then date + " (" + Show(days) + " days)"
    else date
  }

  predicate IsPathSeparator(c: char)
  {
    c == '/' || c == '\\'
  }

  /** `uri.split(/[\\\/]/).pop()`: the text after the last separator. */
  function LastSegment(p: string): (r: string)
    ensures |r| <= |p| && r == p[|p| - |r|..]
    ensures forall i :: 0 <= i < |r| ==> !IsPathSeparator(r[i])
    ensures |r| < |p| ==> IsPathSeparator(p[|p| - |r| - 1])
    decreases |p|
  {
    if |p| == 0 || IsPathSeparator(p[|p| - 1]) then ""
    else
      var b := LastSegment(p[..|p| - 1]);
      assert p[..|p| - 1][|p| - 1 - |b|..] == p[|p| - 1 - |b|..|p| - 1];
      b + [p[|p| - 1]]
  }

  /** The file name shown, or `fallback` when the path ends in a separator. */
  function FileName(uri: string, fallback: string): string
  {
    var seg := LastSegment(uri);
    if seg == "" then fallback else seg
  }

  /** JavaScript truthiness of the optional fields: an empty path and line
      zero count as absent. */
  predicate HasFile(t: Task)
  {
    t.fileUri.Some? && t.fileUri.value != ""
  }

  predicate HasLine(t: Task)
  {
    t.lineNumber.Some? && t.lineNumber.value != 0
  }

  /** `a ? `${a} ${b}` : b`. */
  function AppendNote(a: string, b: string): (r: string)
    ensures StartsWith(r, a) && EndsWith(r, b)
  {
    if a != "" then a + " " + b else b
  }

  function FileNote(t: Task): string
    requires HasFile(t)
  {
    var name := FileName(t.fileUri.value, "Unknown");
    if HasLine(t) then " 📁" + name + ":" + ShowInt(t.lineNumber.value) else " 📁" + name
  }

  /** The item's description: the shortened description, then the short
      deadline note, then the file note, each joined by a space. */
  function Description(t: Task, now: int, date: int -> string): (r: string)
    ensures StartsWith(r, Truncate(t.description))
    ensures t.deadline.None? && !HasFile(t) ==> r == Truncate(t.description)
    ensures HasFile(t) ==> EndsWith(r, FileNote(t))
    ensures t.deadline.Some? && !HasFile(t) ==>
              EndsWith(r, ShortDeadlineText(DiffDays(t.deadline.value, now), date(t.deadline.value)))
  {
    var d0 := Truncate(t.description);
    var d1 := if t.deadline.Some? then AppendNote(d0, ShortDeadlineText(DiffDays(t.deadline.value, now), date(t.deadline.value))) else d0;
    var d2 := if HasFile(t) then AppendNote(d1, FileNote(t)) else d1;
    assert StartsWith(d1, d0);
    assert StartsWith(d2, d1);
    d2
  }

  /** The tooltip: title and full description on two lines, then a deadline
      line and a file line when it has them. */
  function Tooltip(t: Task, now: int, date: int -> string): (r: string)
    ensures StartsWith(r, t.title + "\n" + t.description)
    ensures t.deadline.None? && !HasFile(t) ==> r == t.title + "\n" + t.description
  {
    var head := t.title + "\n" + t.description;
    var deadline := if t.deadline.Some? then "\n⏰ Deadline: " + DeadlineText(DiffDays(t.deadline.value, now), date(t.deadline.value)) else "";
    var file :=
      if HasFile(t) then
        var line := if HasLine(t) then " (Line " + ShowInt(t.lineNumber.value) + ")" else "";
        "\n📁 File: " + FileName(t.fileUri.value, "Unknown file") + line
      else "";
    StartsWithAppend(head, deadline + file);
    head + (deadline + file)
  }

  datatype ThemeIcon = ThemeIcon(id: string, color: Option<string>)

  function PriorityColor(p: Priority): string
  {
    match p
    case High => "errorForeground"
    case Medium => "notificationsWarningIcon.foreground"
    case Low => "charts.green"
  }

  /** `getIcon`: a check for completed tasks; for pending ones a warning
      when overdue, a watch when due within three days, else a dot in the
      priority's colour. */
  function Icon(t: Task, now: int): (r: ThemeIcon)
    ensures t.completed ==> r == ThemeIcon("check", Some("charts.green"))
    ensures r.id == "warning" <==> !t.completed && t.deadline.Some? && DiffDays(t.deadline.value, now) < 0
    ensures r.id == "watch" <==> !t.completed && t.deadline.Some? && 0 <= DiffDays(t.deadline.value, now) <= 3
    ensures r.id == "circle-filled" <==> !t.completed && (t.deadline.None? || DiffDays(t.deadline.value, now) > 3)
    ensures r.id == "circle-filled" ==> r.color == Some(PriorityColor(t.priority))
  {
    if t.completed then ThemeIcon("check", Some("charts.green"))
    else if t.deadline.Some? && DiffDays(t.deadline.value, now) <= 3 then
      var days := DiffDays(t.deadline.value, now);
      if days < 0 then ThemeIcon("warning", Some("errorForeground"))
      else if days == 0 then ThemeIcon("watch", Some("errorForeground"))
      else if days == 1 then ThemeIcon("watch", Some("notificationsWarningIcon.foreground"))
      else ThemeIcon("watch", Some("foreground"))
    else ThemeIcon("circle-filled", Some(PriorityColor(t.priority)))
  }

  const ToggleCommand := "doc-helper-0711.toggleTask"

  datatype TreeItem = TreeItem(
    task: Task,
    caption: string,
    description: string,
    tooltip: string,
    icon: ThemeIcon,
    contextValue: string,
    command: string,
    arguments: seq<string>)

  /** `new TaskTreeItem(task, None)`: clicking the item toggles its task. */
  function MakeItem(t: Task, now: int, date: int -> string): (r: TreeItem)
    ensures r.task == t && r.caption == t.title
    ensures r.contextValue == (if t.completed then "completedTask" else "pendingTask")
    ensures r.command == ToggleCommand && r.arguments == [t.id]
  {
    TreeItem(t, t.title, Description(t, now, date), Tooltip(t, now, date), Icon(t, now),
             if t.completed then "completedTask" else "pendingTask", ToggleCommand, [t.id])
  }

  /** `getChildren`: the root shows every task once, in the mode's order;
      items have no children. */
  function GetChildren(element: Option<TreeItem>, mode: SortMode, collate: string -> seq<int>,
                       tasks: seq<Task>, now: int, date: int -> string): (r: seq<TreeItem>)
    ensures element.Some? ==> r == []
    ensures element.None? ==>
              |r| == |tasks|
              && (forall k :: 0 <= k < |r| ==> r[k] == MakeItem(r[k].task, now, date))
              && multiset(seq(|r|, k requires 0 <= k < |r| => r[k].task)) == multiset(tasks)
              && forall i, j :: 0 <= i < j < |r| ==> InOrder(mode, collate, r[i].task, r[j].task)
  {
    if element.Some? then []
    else
      var sorted := SortTasks(mode, collate, tasks);
      var r := seq(|sorted|, k requires 0 <= k < |sorted| => MakeItem(sorted[k], now, date));
      assert seq(|r|, k requires 0 <= k < |r| => r[k].task) == sorted;
      r
  }
}

=== FILE: tasks.dfy ===
/** The documentation task list (src/services/taskManager.ts, repeated
    verbatim in src/providers/taskTreeProvider.ts): tasks kept in creation
    order and saved after every change.  The clock and the random part of
    a new id are inputs; times are milliseconds since the epoch. */
module Tasks {
  import opened Wrappers
  import opened Seqs

  datatype Priority = Low | Medium | High

  datatype Task = Task(
    id: string,
    title: string,
    description: string,
    completed: bool,
    priority: Priority,
    createdAt: int,
    updatedAt: int,
    deadline: Option<int>,
    fileUri: Option<string>,
    lineNumber: Option<int>)

  /** What `addTask` is given: a task without its id and timestamps. */
  datatype TaskData = TaskData(
    title: string,
    description: string,
    completed: bool,
    priority: Priority,
    deadline: Option<int>,
    fileUri: Option<string>,
    lineNumber: Option<int>)

  /** A `Partial<Task>` spread over a task.  `None` is a key that is absent
      and keeps the field; for the optional fields `Some(None)` is a key
      present with the value `undefined`, which clears the field.  The
      timestamp `updatedAt` is always overwritten, so it has no entry. */
  datatype TaskPatch = TaskPatch(
    id: Option<string>,
    title: Option<string>,
    description: Option<string>,
    completed: Option<bool>,
    priority: Option<Priority>,
    createdAt: Option<int>,
    deadline: Option<Option<int>>,
    fileUri: Option<Option<string>>,
    lineNumber: Option<Option<int>>)

  const EmptyPatch := TaskPatch(None, None, None, None, None, None, None, None, None)

  predicate UniqueIds(tasks: seq<Task>)
  {
    forall i, j :: 0 <= i < j < |tasks| ==> tasks[i].id != tasks[j].id
  }

  predicate HasId(tasks: seq<Task>, id: string)
  {
    exists k :: 0 <= k < |tasks| && tasks[k].id == id
  }

  /** `findIndex(task => task.id === id)`. */
  function FindIndex(tasks: seq<Task>, id: string): (r: Option<nat>)
    ensures r.None? <==> !HasId(tasks, id)
    ensures r.Some? ==> r.value < |tasks| && tasks[r.value].id == id
                        && forall k :: 0 <= k < r.value ==> tasks[k].id != id
  {
    if |tasks| == 0 then None
    else if tasks[0].id == id then Some(0)
    else
      match FindIndex(tasks[1..], id)
      case None =>
        assert forall k :: 1 <= k < |tasks| ==> tasks[k] == tasks[1..][k - 1];
        None
      case Some(i) => Some(i + 1)
  }

  /** Two tasks that differ at most in `updatedAt`. */
  predicate SameButUpdated(a: Task, b: Task)
  {
    a.(updatedAt := 0) == b.(updatedAt := 0)
  }

  /** A field after the spread: the patch's value when the patch has the
      key, the task's own value otherwise. */
  ghost predicate Takes<T>(after: T, before: T, patched: Option<T>)
  {
    (patched.Some? ==> after == patched.value) && (patched.None? ==> after == before)
  }

  /** Every field of `r` is the patch's where the patch has the key, and
      the task's where it has not. */
  ghost predicate Overrides(r: Task, t: Task, p: TaskPatch)
  {
    Takes(r.id, t.id, p.id) && Takes(r.title, t.title, p.title)
    && Takes(r.description, t.description, p.description)
    && Takes(r.completed, t.completed, p.completed) && Takes(r.priority, t.priority, p.priority)
    && Takes(r.createdAt, t.createdAt, p.createdAt) && Takes(r.deadline, t.deadline, p.deadline)
    && Takes(r.fileUri, t.fileUri, p.fileUri) && Takes(r.lineNumber, t.lineNumber, p.lineNumber)
  }

  /** `{...task, ...patch, updatedAt: now}`. */
  function Apply(t: Task, p: TaskPatch, now: int): (r: Task)
    ensures r.updatedAt == now
    ensures Overrides(r, t, p)
    ensures p == EmptyPatch ==> SameButUpdated(r, t)
    ensures p.id.None? ==> r.id == t.id
  {
    Task(
      p.id.GetOr(t.id),
      p.title.GetOr(t.title),
      p.description.GetOr(t.description),
      p.completed.GetOr(t.completed),
      p.priority.GetOr(t.priority),
      p.createdAt.GetOr(t.createdAt),
      now,
      p.deadline.GetOr(t.deadline),
      p.fileUri.GetOr(t.fileUri),
      p.lineNumber.GetOr(t.lineNumber))
  }

  /** Applying the same patch again changes only the timestamp. */
  lemma ApplyTwice(t: Task, p: TaskPatch, n1: int, n2: int)
    ensures Apply(Apply(t, p, n1), p, n2) == Apply(t, p, n2)
  {
  }

  /** `addTask`: the new task, with the given id and both timestamps the
      current time, goes at the end. */
  function AddTask(tasks: seq<Task>, data: TaskData, id: string, now: int): (r: (seq<Task>, Task))
    ensures r.0 == tasks + [r.1]
    ensures r.1.id == id && r.1.createdAt == now && r.1.updatedAt == now
    ensures r.1.title == data.title && r.1.description == data.description
            && r.1.completed == data.completed && r.1.priority == data.priority
            && r.1.deadline == data.deadline && r.1.fileUri == data.fileUri
            && r.1.lineNumber == data.lineNumber
  {
    var t := Task(id, data.title, data.description, data.completed, data.priority,
                  now, now, data.deadline, data.fileUri, data.lineNumber);
    (tasks + [t], t)
  }

  /** `updateTask`: the first task with the id gets the patch and the new
      timestamp; nothing changes when there is none. */
  function UpdateTask(tasks: seq<Task>, id: string, p: TaskPatch, now: int): (r: (seq<Task>, Option<Task>))
    ensures !HasId(tasks, id) ==> r == (tasks, None)
    ensures HasId(tasks, id) ==>
              var i := FindIndex(tasks, id).value;
              |r.0| == |tasks| && r.0[i] == Apply(tasks[i], p, now) && r.1 == Some(r.0[i])
              && forall k :: 0 <= k < |tasks| && k != i ==> r.0[k] == tasks[k]
  {
    match FindIndex(tasks, id)
    case None => (tasks, None)
    case Some(i) =>
      var t := Apply(tasks[i], p, now);
      (tasks[i := t], Some(t))
  }

  /** `tasks.filter(task => task.id !== id)`. */
  function RemoveId(tasks: seq<Task>, id: string): (r: seq<Task>)
    ensures forall t :: t in r <==> t in tasks && t.id != id
    ensures |r| <= |tasks|
    ensures |r| == |tasks| <==> !HasId(tasks, id)
  {
    if |tasks| == 0 then []
    else
      var rest := RemoveId(tasks[1..], id);
      assert forall k :: 1 <= k < |tasks| ==> tasks[k] == tasks[1..][k - 1];
      assert HasId(tasks[1..], id) ==> HasId(tasks, id);
      if tasks[0].id == id then rest else [tasks[0]] + rest
  }

  /** The kept tasks stay in their order. */
  lemma {:induction false} RemoveIdInOrder(tasks: seq<Task>, id: string)
    ensures Subseq(RemoveId(tasks, id), tasks)
    decreases |tasks|
  {
    if |tasks| > 0 {
      RemoveIdInOrder(tasks[1..], id);
      if tasks[0].id != id {
        assert RemoveId(tasks, id)[1..] == RemoveId(tasks[1..], id);
      }
    }
  }

  /** `deleteTask`: removes every task with the id, and says whether there
      was one. */
  function DeleteTask(tasks: seq<Task>, id: string): (r: (seq<Task>, bool))
    ensures forall t :: t in r.0 <==> t in tasks && t.id != id
    ensures r.1 <==> HasId(tasks, id)
    ensures !r.1 ==> r.0 == tasks
  {
    var kept := RemoveId(tasks, id);
    if |kept| != |tasks| then (kept, true)
    else
      RemoveNothing(tasks, id);
      (tasks, false)
  }

  /** Filtering out an id no task has keeps the list as it is. */
  lemma {:induction false} RemoveNothing(tasks: seq<Task>, id: string)
    requires !HasId(tasks, id)
    ensures RemoveId(tasks, id) == tasks
  {
    if |tasks| > 0 {
      assert !HasId(tasks[1..], id) by {
        forall k | 0 <= k < |tasks[1..]| ensures tasks[1..][k].id != id {
          assert tasks[1..][k] == tasks[k + 1];
        }
      }
      RemoveNothing(tasks[1..], id);
      assert tasks == [tasks[0]] + tasks[1..];
    }
  }

  /** `toggleTask`: the first task with the id changes state and gets the
      new timestamp. */
  function ToggleTask(tasks: seq<Task>, id: string, now: int): (r: (seq<Task>, Option<Task>))
    ensures !HasId(tasks, id) ==> r == (tasks, None)
    ensures HasId(tasks, id) ==>
              var i := FindIndex(tasks, id).value;
              |r.0| == |tasks| && r.1 == Some(r.0[i])
              && r.0[i].completed == !tasks[i].completed && r.0[i].updatedAt == now
              && r.0[i].(completed := tasks[i].completed, updatedAt := tasks[i].updatedAt) == tasks[i]
              && forall k :: 0 <= k < |tasks| && k != i ==> r.0[k] == tasks[k]
  {
    match FindIndex(tasks, id)
    case None => (tasks, None)
    case Some(i) =>
      var t := tasks[i].(completed := !tasks[i].completed, updatedAt := now);
      (tasks[i := t], Some(t))
  }

  /** The constructor's load: the stored list, or none at first start. */
  function LoadTasks(stored: Option<seq<Task>>): (r: seq<Task>)
    ensures stored.None? ==> r == []
    ensures stored.Some? ==> r == stored.value
  {
    stored.GetOr([])
  }

  // ---------------------------------------------------------------------
  // Properties of the operations together.

  /** Deleting a task just added with a fresh id restores the list. */
  lemma DeleteAfterAdd(tasks: seq<Task>, data: TaskData, id: string, now: int)
    requires !HasId(tasks, id)
    ensures DeleteTask(AddTask(tasks, data, id, now).0, id) == (tasks, true)
  {
    var added := AddTask(tasks, data, id, now).0;
    assert added[|tasks|].id == id;
    RemoveNothing(tasks, id);
    RemoveAppended(tasks, AddTask(tasks, data, id, now).1, id);
  }

  lemma {:induction false} RemoveAppended(tasks: seq<Task>, t: Task, id: string)
    requires t.id == id
    ensures RemoveId(tasks + [t], id) == RemoveId(tasks, id)
    decreases |tasks|
  {
    if |tasks| == 0 {
      assert tasks + [t] == [t];
      assert RemoveId([t], id) == RemoveId([t][1..], id);
    } else {
      assert (tasks + [t])[1..] == tasks[1..] + [t];
      RemoveAppended(tasks[1..], t, id);
    }
  }

  /** Toggling twice restores the list but for the toggled task's
      timestamp. */
  lemma ToggleTwice(tasks: seq<Task>, id: string, n1: int, n2: int)
    ensures var twice := ToggleTask(ToggleTask(tasks, id, n1).0, id, n2).0;
            |twice| == |tasks| && forall k :: 0 <= k < |tasks| ==> SameButUpdated(twice[k], tasks[k])
    ensures !HasId(tasks, id) ==> ToggleTask(ToggleTask(tasks, id, n1).0, id, n2).0 == tasks
  {
    if HasId(tasks, id) {
      var i := FindIndex(tasks, id).value;
      var once := ToggleTask(tasks, id, n1).0;
      assert once[i].id == id;
      assert forall k :: 0 <= k < i ==> once[k].id != id;
      assert FindIndex(once, id) == Some(i);
    }
  }

  /** A fresh id keeps ids unique. */
  lemma AddKeepsUnique(tasks: seq<Task>, data: TaskData, id: string, now: int)
    requires UniqueIds(tasks) && !HasId(tasks, id)
    ensures UniqueIds(AddTask(tasks, data, id, now).0)
  {
    var r := AddTask(tasks, data, id, now).0;
    forall i, j | 0 <= i < j < |r| ensures r[i].id != r[j].id {
      if j == |tasks| {
        assert r[i] == tasks[i];
      }
    }
  }

  /** An update that leaves ids alone, a toggle and a delete keep ids
      unique. */
  lemma ChangesKeepUnique(tasks: seq<Task>, id: string, p: TaskPatch, now: int)
    requires UniqueIds(tasks) && p.id.None?
    ensures UniqueIds(UpdateTask(tasks, id, p, now).0)
    ensures UniqueIds(ToggleTask(tasks, id, now).0)
    ensures UniqueIds(DeleteTask(tasks, id).0)
  {
    RemoveKeepsUnique(tasks, id);
  }

  lemma {:induction false} RemoveKeepsUnique(tasks: seq<Task>, id: string)
    requires UniqueIds(tasks)
    ensures UniqueIds(RemoveId(tasks, id))
    decreases |tasks|
  {
    if |tasks| > 0 {
      UniqueTail(tasks);
      RemoveKeepsUnique(tasks[1..], id);
      if tasks[0].id != id {
        UniqueCons(tasks[0], RemoveId(tasks[1..], id));
      }
    }
  }

  /** The tail of a list with unique ids has unique ids, none of them the
      head's. */
  lemma UniqueTail(tasks: seq<Task>)
    requires UniqueIds(tasks) && |tasks| > 0
    ensures UniqueIds(tasks[1..])
    ensures forall u :: u in tasks[1..] ==> u.id != tasks[0].id
  {
    forall i, j | 0 <= i < j < |tasks[1..]| ensures tasks[1..][i].id != tasks[1..][j].id {
      assert tasks[1..][i] == tasks[i + 1] && tasks[1..][j] == tasks[j + 1];
    }
    forall u | u in tasks[1..] ensures u.id != tasks[0].id {
      var k :| 0 <= k < |tasks[1..]| && tasks[1..][k] == u;
      assert tasks[k + 1] == u;
    }
  }

  lemma UniqueCons(t: Task, rest: seq<Task>)
    requires UniqueIds(rest)
    requires forall u :: u in rest ==> u.id != t.id
    ensures UniqueIds([t] + rest)
  {
    var r := [t] + rest;
    forall i, j | 0 <= i < j < |r| ensures r[i].id != r[j].id {
      if i == 0 {
        assert r[j] == rest[j - 1];
        assert r[j] in rest;
      } else {
        assert r[i] == rest[i - 1] && r[j] == rest[j - 1];
      }
    }
  }

  /** A delete keeps the other tasks in their order. */
  lemma DeleteTaskInOrder(tasks: seq<Task>, id: string)
    ensures Subseq(DeleteTask(tasks, id).0, tasks)
    ensures DeleteTask(tasks, id).0 == RemoveId(tasks, id)
  {
    RemoveIdInOrder(tasks, id);
    if !HasId(tasks, id) {
      RemoveNothing(tasks, id);
    }
  }

  /** After a delete no task has the id. */
  lemma DeleteRemovesAll(tasks: seq<Task>, id: string)
    ensures !HasId(DeleteTask(tasks, id).0, id)
  {
    var r := DeleteTask(tasks, id).0;
    forall k | 0 <= k < |r| ensures r[k].id != id {
      assert r[k] in r;
    }
  }
}

=== FILE: text.dfy ===
/** String helpers shared by the whole model: JavaScript's character classes,
    prefix/suffix tests, `indexOf`, `trim`, ASCII lower-casing, decimal
    numerals and `split`/`join`.  Strings are sequences of Unicode scalar
    values; the program's JavaScript strings count UTF-16 code units, and
    the two agree on text inside the Basic Multilingual Plane. */
module Text {
  import opened Wrappers

  /** JavaScript's white-space class: what `\s` matches and `trim` removes. */
  predicate IsSpace(c: char)
  {
    || c == ' ' || c == '\t' || c == '\n' || c == '\r' || c == '\U{000B}' || c == '\U{000C}'
    || c == '\U{00A0}' || c == '\U{1680}' || ('\U{2000}' <= c <= '\U{200A}')
    || c == '\U{2028}' || c == '\U{2029}' || c == '\U{202F}' || c == '\U{205F}'
    || c == '\U{3000}' || c == '\U{FEFF}'
  }

  /** The characters `.` refuses to match in a regular expression. */
  predicate IsLineTerminator(c: char)
  {
    c == '\n' || c == '\r' || c == '\U{2028}' || c == '\U{2029}'
  }

  predicate IsDigit(c: char)
  {
    '0' <= c <= '9'
  }

  /** The `\w` class; `\b` sits between a word character and anything else. */
  predicate IsWordChar(c: char)
  {
    ('a' <= c <= 'z') || ('A' <= c <= 'Z') || IsDigit(c) || c == '_'
  }

  predicate AllDigits(s: string)
  {
    forall i :: 0 <= i < |s| ==> IsDigit(s[i])
  }

  predicate StartsWith(s: string, p: string)
  {
    |p| <= |s| && s[..|p|] == p
  }

  lemma StartsWithAppend(p: string, t: string)
    ensures StartsWith(p + t, p)
  {
    assert (p + t)[..|p|] == p;
  }

  predicate EndsWith(s: string, p: string)
  {
    |p| <= |s| && s[|s| - |p|..] == p
  }

  /** `p` occurs in `s` starting at index `i`. */
  predicate OccursAt(s: string, p: string, i: int)
  {
    0 <= i && i + |p| <= |s| && s[i..i + |p|] == p
  }

  lemma OccursAtShift(s: string, p: string, j: int)
    requires |s| > 0 && 0 <= j
    ensures OccursAt(s, p, j + 1) <==> OccursAt(s[1..], p, j)
  {
    if j + 1 + |p| <= |s| {
      var a, b := s[j + 1..j + 1 + |p|], s[1..][j..j + |p|];
      assert |a| == |b|;
      forall k | 0 <= k < |a| ensures a[k] == b[k] {
      }
      assert a == b;
    }
  }

  /** `p` occurs nowhere in `s` before index `n`. */
  predicate AbsentBefore(s: string, p: string, n: int)
  {
    forall j :: 0 <= j < n ==> !OccursAt(s, p, j)
  }

  /** `p` occurs nowhere in `s`. */
  ghost predicate Absent(s: string, p: string)
  {
    forall j :: !OccursAt(s, p, j)
  }

  /** `s.indexOf(p)`: the first index where `p` occurs, if any. */
  function IndexOf(s: string, p: string): (r: Option<nat>)
    ensures r.Some? ==> OccursAt(s, p, r.value)
    ensures r.Some? ==> AbsentBefore(s, p, r.value)
    ensures r.None? ==> Absent(s, p)
    decreases |s|
  {
    if StartsWith(s, p) then
      Some(0)
    else if |s| == 0 then
      None
    else
      var rest := IndexOf(s[1..], p);
      forall j | 1 <= j ensures OccursAt(s, p, j) <==> OccursAt(s[1..], p, j - 1) {
        OccursAtShift(s, p, j - 1);
      }
      assert !OccursAt(s, p, 0);
      if rest.None? then None else Some(rest.value + 1)
  }

  /** Where `p` does not start `s`, the first `p` is the one in the tail,
      one place on. */
  lemma IndexOfStep(s: string, p: string)
    requires |s| > 0 && !StartsWith(s, p)
    ensures IndexOf(s, p) == Offset(IndexOf(s[1..], p), 1)
  {
  }

  /** An index found in a suffix, as an index into the whole text. */
  function Offset(found: Option<nat>, k: nat): (r: Option<nat>)
    ensures r.Some? <==> found.Some?
    ensures r.Some? ==> r.value == found.value + k
  {
    match found
    case None => None
    case Some(i) => Some(i + k)
  }

  lemma OffsetTwice(found: Option<nat>, j: nat, k: nat)
    ensures Offset(Offset(found, j), k) == Offset(found, j + k)
  {
  }

  /** `s.includes(p)`. */
  predicate Contains(s: string, p: string)
  {
    IndexOf(s, p).Some?
  }

  lemma ContainsMeans(s: string, p: string)
    ensures Contains(s, p) <==> exists i :: 0 <= i <= |s| - |p| && OccursAt(s, p, i)
  {
  }

  /** `s.replace(/^#+/, '')`-style helper: the number of leading copies of `c`. */
  function CountLeading(s: string, c: char): (k: nat)
    ensures k <= |s|
    ensures forall i :: 0 <= i < k ==> s[i] == c
    ensures k < |s| ==> s[k] != c
  {
    if |s| > 0 && s[0] == c then 1 + CountLeading(s[1..], c) else 0
  }

  /** The length of the maximal white-space prefix of `s`. */
  function SpaceRun(s: string): (k: nat)
    ensures k <= |s|
    ensures forall i :: 0 <= i < k ==> IsSpace(s[i])
    ensures k < |s| ==> !IsSpace(s[k])
  {
    if |s| > 0 && IsSpace(s[0]) then 1 + SpaceRun(s[1..]) else 0
  }

  /** The length of the maximal decimal-digit prefix of `s` (what a greedy
      `\d+` consumes). */
  function DigitRun(s: string): (k: nat)
    ensures k <= |s|
    ensures AllDigits(s[..k])
    ensures k < |s| ==> !IsDigit(s[k])
  {
    if |s| > 0 && IsDigit(s[0]) then
      var k := 1 + DigitRun(s[1..]);
      assert s[..k] == [s[0]] + s[1..][..k - 1];
      k
    else 0
  }

  function TrimStart(s: string): (r: string)
    ensures |r| <= |s| && r == s[|s| - |r|..]
    ensures |r| > 0 ==> !IsSpace(r[0])
    ensures forall i :: 0 <= i < |s| - |r| ==> IsSpace(s[i])
  {
    s[SpaceRun(s)..]
  }

  function TrimEnd(s: string): (r: string)
    ensures |r| <= |s| && r == s[..|r|]
    ensures |r| > 0 ==> !IsSpace(r[|r| - 1])
    ensures forall i :: |r| <= i < |s| ==> IsSpace(s[i])
    decreases |s|
  {
    if |s| > 0 && IsSpace(s[|s| - 1]) then TrimEnd(s[..|s| - 1]) else s
  }

  /** `s.trim()`: drops white space at both ends and nothing else. */
  function Trim(s: string): (r: string)
    ensures |r| > 0 ==> !IsSpace(r[0]) && !IsSpace(r[|r| - 1])
    ensures exists i :: 0 <= i <= |s| - |r| && OccursAt(s, r, i)
  {
    var t := TrimStart(s);
    var r := TrimEnd(t);
    assert r == s[|s| - |t|..|s| - |t| + |r|];
    assert OccursAt(s, r, |s| - |t|);
    r
  }

  /** Text with no white space at either end is its own trim. */
  lemma TrimNoop(s: string)
    requires |s| > 0 ==> !IsSpace(s[0]) && !IsSpace(s[|s| - 1])
    ensures Trim(s) == s
  {
    assert SpaceRun(s) == 0;
    assert s[0..] == s;
  }

  function LowerChar(c: char): char
  {
    if 'A' <= c <= 'Z' then (c as int + 32) as char else c
  }

  /** `s.toLowerCase()` restricted to ASCII letters. */
  function ToLower(s: string): (r: string)
    ensures |r| == |s|
    ensures forall i :: 0 <= i < |s| ==> r[i] == LowerChar(s[i])
  {
    seq(|s|, i requires 0 <= i < |s| => LowerChar(s[i]))
  }

  function Repeat(c: char, n: nat): (r: string)
    ensures |r| == n
    ensures forall i :: 0 <= i < n ==> r[i] == c
  {
    seq(n, i => c)
  }

  // ---------------------------------------------------------------------
  // Decimal numerals: `n.toString()` and `parseInt(digits, 10)`.

  function DigitChar(d: nat): (c: char)
    requires d < 10
    ensures IsDigit(c)
  {
    ('0' as int + d) as char
  }

  function DigitVal(c: char): nat
    requires IsDigit(c)
  {
    c as int - '0' as int
  }

  /** `n.toString()` for a non-negative integer. */
  function Show(n: nat): (r: string)
    ensures |r| > 0 && AllDigits(r)
    ensures |r| > 1 ==> r[0] != '0'
    decreases n
  {
    if n < 10 then [DigitChar(n)] else Show(n / 10) + [DigitChar(n % 10)]
  }

  /** `parseInt(s, 10)` for a string made of digits only. */
  function DigitsValue(s: string): nat
    requires AllDigits(s)
    decreases |s|
  {
    if |s| == 0 then 0 else DigitsValue(s[..|s| - 1]) * 10 + DigitVal(s[|s| - 1])
  }

  /** Printing a number and parsing it back gives the number. */
  lemma {:induction false} ShowRoundTrip(n: nat)
    ensures DigitsValue(Show(n)) == n
    decreases n
  {
    if n >= 10 {
      var s := Show(n);
      assert s[..|s| - 1] == Show(n / 10);
      ShowRoundTrip(n / 10);
    }
  }

  /** A greedy `\d+` at a printed number stops exactly at its end when the
      next character is not a digit. */
  lemma DigitRunOfShow(n: nat, rest: string)
    requires |rest| == 0 || !IsDigit(rest[0])
    ensures DigitRun(Show(n) + rest) == |Show(n)|
    ensures (Show(n) + rest)[..|Show(n)|] == Show(n)
  {
    var x := Show(n);
    var s := x + rest;
    assert s[..|x|] == x;
    assert |x| < |s| ==> s[|x|] == rest[0];
    DigitRunAt(s, |x|);
  }

  /** The maximal digit prefix is the one followed by a non-digit. */
  lemma DigitRunAt(s: string, k: nat)
    requires k <= |s| && AllDigits(s[..k]) && (k < |s| ==> !IsDigit(s[k]))
    ensures DigitRun(s) == k
  {
    var d := DigitRun(s);
    forall j | 0 <= j < k ensures IsDigit(s[j]) {
      assert s[..k][j] == s[j];
    }
    forall j | 0 <= j < d ensures IsDigit(s[j]) {
      assert s[..d][j] == s[j];
    }
  }

  // ---------------------------------------------------------------------
  // `split` and `join` with a string separator.

  function Join(parts: seq<string>, sep: string): string
  {
    if |parts| == 0 then ""
    else if |parts| == 1 then parts[0]
    else parts[0] + sep + Join(parts[1..], sep)
  }

  /** None of the pieces holds the separator. */
  predicate NoPieceContains(pieces: seq<string>, sep: string)
  {
    forall i :: 0 <= i < |pieces| ==> !Contains(pieces[i], sep)
  }

  /** `s.split(sep)`: cut at the non-overlapping occurrences of `sep`, found
      from left to right. */
  function Split(s: string, sep: string): (r: seq<string>)
    requires |sep| > 0
    ensures |r| >= 1
    decreases |s|
  {
    match IndexOf(s, sep)
    case None => [s]
    case Some(i) => [s[..i]] + Split(s[i + |sep|..], sep)
  }

  /** No piece of a split holds the separator. */
  lemma {:induction false} SplitPiecesFree(s: string, sep: string)
    requires |sep| > 0
    ensures NoPieceContains(Split(s, sep), sep)
    decreases |s|
  {
    match IndexOf(s, sep)
    case None =>
    case Some(i) =>
      var head := s[..i];
      var tail := s[i + |sep|..];
      assert !Contains(head, sep) by {
        forall j | OccursAt(head, sep, j) ensures false {
          assert OccursAt(s, sep, j);
        }
      }
      SplitPiecesFree(tail, sep);
      SplitAtFirst(s, sep, i);
      var r := Split(s, sep);
      forall k | 0 <= k < |r| ensures !Contains(r[k], sep) {
        if k > 0 {
          assert r[k] == Split(tail, sep)[k - 1];
        }
      }
  }

  /** `Join` of a piece followed by at least one more. */
  lemma JoinCons(h: string, rest: seq<string>, sep: string)
    requires |rest| >= 1
    ensures Join([h] + rest, sep) == h + sep + Join(rest, sep)
  {
    assert ([h] + rest)[1..] == rest;
  }

  /** `Split` cuts at the first occurrence of the separator. */
  lemma SplitAtFirst(s: string, sep: string, i: nat)
    requires |sep| > 0 && IndexOf(s, sep) == Some(i)
    ensures Split(s, sep) == [s[..i]] + Split(s[i + |sep|..], sep)
  {
  }

  /** Joining the pieces of a split with the same separator restores the string. */
  lemma {:induction false} JoinSplit(s: string, sep: string)
    requires |sep| > 0
    ensures Join(Split(s, sep), sep) == s
    decreases |s|
  {
    match IndexOf(s, sep)
    case None =>
    case Some(i) =>
      var tail := s[i + |sep|..];
      JoinSplit(tail, sep);
      SplitAtFirst(s, sep, i);
      JoinCons(s[..i], Split(tail, sep), sep);
      CutAround(s, sep, i);
  }

  /** A string is the text before an occurrence, the occurrence and the
      text after it. */
  lemma CutAround(s: string, sep: string, i: nat)
    requires i + |sep| <= |s| && s[i..i + |sep|] == sep
    ensures s == s[..i] + sep + s[i + |sep|..]
  {
    assert s == s[..i] + s[i..i + |sep|] + s[i + |sep|..];
  }
}

=== FILE: todo_tracker.dfy ===
/** The to-do commands (src/utils/todoTracker.ts): adding and editing a task
    through a row of input boxes and pick lists, and choosing the sort
    order.  The user's answers are inputs (`None` where a dialog is
    dismissed), and so is the clock: the current time, the weekday, the
    calendar's end of a day a number of days ahead, and date parsing. */
module TodoTracker {
  import opened Wrappers
  import opened Text
  import opened Tasks
  import opened TaskTree

  // ---------------------------------------------------------------------
  // Pick-list items and the file choice.

  datatype PickItem = PickItem(caption: string, description: string, detail: Option<string>)

  /** The editor open when the command starts: the file's relative and
      absolute paths and the zero-based line of the cursor. */
  datatype EditorInfo = EditorInfo(rel: string, fsPath: string, line: nat)

  /** A file of the workspace search: relative and absolute path. */
  datatype WorkspaceFile = WorkspaceFile(rel: string, fsPath: string)

  const NoFileCaption := "🚫 No file association"
  const EditNoFileCaption := "📄 No file association"
  const CurrentFilePrefix := "📝 Current file"

  const NoFileItem := PickItem(NoFileCaption, "Create task without linking to a file", None)

  function CurrentFileItem(e: EditorInfo): PickItem
  {
    PickItem(CurrentFilePrefix + " (" + e.rel + ")", e.fsPath, Some("Line " + Show(e.line + 1)))
  }

  function FileItem(f: WorkspaceFile): PickItem
  {
    PickItem("📄 " + f.rel, f.fsPath, None)
  }

  /** The workspace files offered, without the file already offered as the
      current one. */
  function OtherFiles(editor: Option<EditorInfo>, files: seq<WorkspaceFile>): (r: seq<PickItem>)
    ensures forall it :: it in r ==> exists f :: f in files && it == FileItem(f)
                                        && (editor.Some? ==> f.fsPath != editor.value.fsPath)
    ensures forall f :: f in files && (editor.None? || f.fsPath != editor.value.fsPath) ==> FileItem(f) in r
  {
    if |files| == 0 then []
    else
      var rest := OtherFiles(editor, files[1..]);
      assert forall f :: f in files[1..] ==> f in files;
      assert forall f :: f in files ==> f == files[0] || f in files[1..];
      if editor.None? || files[0].fsPath != editor.value.fsPath then [FileItem(files[0])] + rest else rest
  }

  /** `addTask`'s file list: no file, then the current file when an editor
      is open, then the other workspace files when a folder is open. */
  function AddFileOptions(editor: Option<EditorInfo>, hasFolder: bool, files: seq<WorkspaceFile>): (r: seq<PickItem>)
    ensures |r| >= 1 && r[0] == NoFileItem
    ensures editor.Some? ==> |r| >= 2 && r[1] == CurrentFileItem(editor.value)
    ensures forall it :: it in r && it != NoFileItem && (editor.None? || it != CurrentFileItem(editor.value)) ==>
              hasFolder && it in OtherFiles(editor, files)
    ensures hasFolder ==> forall it :: it in OtherFiles(editor, files) ==> it in r
    ensures !hasFolder ==> |r| == (if editor.Some? then 2 else 1)
  {
    var current := if editor.Some? then [CurrentFileItem(editor.value)] else [];
    var others := if hasFolder then OtherFiles(editor, files) else [];
    [NoFileItem] + current + others
  }

  /** The three captions differ in their first character. */
  lemma CaptionsDiffer()
    ensures !StartsWith(NoFileCaption, CurrentFilePrefix)
    ensures !StartsWith(EditNoFileCaption, CurrentFilePrefix)
    ensures NoFileCaption != EditNoFileCaption
  {
    assert NoFileCaption[0] != CurrentFilePrefix[0];
    assert EditNoFileCaption[0] != CurrentFilePrefix[0];
    assert NoFileCaption[0] != EditNoFileCaption[0];
  }

  /** `addTask`'s reading of the chosen item, as written: it compares with
      the caption of the edit command's no-file item, which the add
      command does not offer. */
  function FileChoiceAsWritten(item: PickItem, editor: Option<EditorInfo>): (r: (Option<string>, Option<int>))
    requires StartsWith(item.caption, CurrentFilePrefix) ==> editor.Some?
    ensures StartsWith(item.caption, CurrentFilePrefix) ==>
              r == (Some(editor.value.fsPath), Some(editor.value.line + 1))
    ensures !StartsWith(item.caption, CurrentFilePrefix) && item.caption != EditNoFileCaption ==>
              r == (Some(item.description), None)
  {
    if StartsWith(item.caption, CurrentFilePrefix) then (Some(editor.value.fsPath), Some(editor.value.line + 1))
    else if item.caption != EditNoFileCaption then (Some(item.description), None)
    else (None, None)
  }

  /** Choosing "no file" in the add command links a new task to a file named
      after the item's description. */
  lemma NoFileBecomesAFile(editor: Option<EditorInfo>)
    ensures !StartsWith(NoFileCaption, CurrentFilePrefix)
    ensures FileChoiceAsWritten(NoFileItem, editor) == (Some("Create task without linking to a file"), None)
  {
    CaptionsDiffer();
  }

  /** The file choice as evidently intended: the add command's own no-file
      caption means no file. */
  function FileChoice(item: PickItem, editor: Option<EditorInfo>): (r: (Option<string>, Option<int>))
    requires StartsWith(item.caption, CurrentFilePrefix) ==> editor.Some?
    ensures item.caption == NoFileCaption ==> r == (None, None)
    ensures StartsWith(item.caption, CurrentFilePrefix) ==>
              r == (Some(editor.value.fsPath), Some(editor.value.line + 1))
    ensures !StartsWith(item.caption, CurrentFilePrefix) && item.caption != NoFileCaption ==>
              r == (Some(item.description), None)
  {
    CaptionsDiffer();
    if StartsWith(item.caption, CurrentFilePrefix) then (Some(editor.value.fsPath), Some(editor.value.line + 1))
    else if item.caption != NoFileCaption then (Some(item.description), None)
    else (None, None)
  }

  /** Every item the add command offers is read as meant: no file, the
      current file at the cursor's one-based line, or a workspace file. */
  lemma FileChoiceOfOptions(editor: Option<EditorInfo>, hasFolder: bool, files: seq<WorkspaceFile>, item: PickItem)
    requires item in AddFileOptions(editor, hasFolder, files)
    ensures StartsWith(item.caption, CurrentFilePrefix) ==> editor.Some?
    ensures item == NoFileItem ==> FileChoice(item, editor) == (None, None)
    ensures editor.Some? && item == CurrentFileItem(editor.value) ==>
              FileChoice(item, editor) == (Some(editor.value.fsPath), Some(editor.value.line + 1))
    ensures (exists f :: f in files && item == FileItem(f)) ==> FileChoice(item, editor) == (Some(item.description), None)
  {
    var current := if editor.Some? then [CurrentFileItem(editor.value)] else [];
    var others := if hasFolder then OtherFiles(editor, files) else [];
    assert AddFileOptions(editor, hasFolder, files) == [NoFileItem] + current + others;
    if editor.Some? {
      var c := CurrentFileItem(editor.value);
      assert c.caption == CurrentFilePrefix + (" (" + editor.value.rel + ")");
    }
    assert NoFileCaption[0] != CurrentFilePrefix[0];
    if exists f :: f in files && item == FileItem(f) {
      var f :| f in files && item == FileItem(f);
      assert item.caption[0] == '📄';
      assert item.caption[0] != CurrentFilePrefix[0];
      assert item.caption[0] != NoFileCaption[0];
    }
  }

  // ---------------------------------------------------------------------
  // Deadlines.

  datatype DeadlinePick = NoDeadline | Today | Tomorrow | ThisWeek | NextWeek | CustomDate | KeepCurrent

  /** The clock: now, the weekday (0 for Sunday), the end (23:59:59) of the
      day a number of days from today, date parsing (`None` for an invalid
      date) and the end (23:59:59.999) of a parsed date's day. */
  datatype Clock = Clock(
    now: int,
    weekday: nat,
    endOfDayAhead: int -> int,
    parse: string -> Option<int>,
    endOfDayOf: int -> int)

  /** The days from today of each preset deadline. */
  function PresetDays(pick: DeadlinePick, weekday: nat): (r: Option<int>)
    ensures r.Some? <==> pick in {Today, Tomorrow, ThisWeek, NextWeek}
  {
    match pick
    case Today => Some(0)
    case Tomorrow => Some(1)
    case ThisWeek => Some(7 - weekday)
    case NextWeek => Some(7 - weekday + 7)
    case _ => None
  }

  /** "This week" ends on the coming Sunday, one to seven days ahead (a week
      ahead on a Sunday), and "next week" on the Sunday after. */
  lemma WeekPresetsEndOnSunday(weekday: nat)
    requires weekday <= 6
    ensures var d := PresetDays(ThisWeek, weekday).value;
            1 <= d <= 7 && (weekday + d) % 7 == 0
    ensures PresetDays(NextWeek, weekday).value == PresetDays(ThisWeek, weekday).value + 7
  {
  }

  const EmptyDateError := "Please enter a date"
  const InvalidDateError := "Invalid date format. Use YYYY-MM-DD or MM/DD/YYYY"
  const PastDateError := "Deadline cannot be in the past"

  /** `addTask`'s date validator as written: the parsed date, which is the
      start of its day, must not be before now. */
  function AddDateErrorAsWritten(value: string, clock: Clock): (r: Option<string>)
    ensures r.None? <==> value != "" && clock.parse(value).Some? && clock.parse(value).value >= clock.now
  {
    if value == "" then Some(EmptyDateError)
    else match clock.parse(value)
      case None => Some(InvalidDateError)
      case Some(d) => if d < clock.now then Some(PastDateError) else None
  }

  /** Today's date typed in the morning: it parses to midnight, so the
      validator calls it past although the deadline it would set, the end
      of that day, is ahead. */
  lemma TodayRejected()
    ensures var clock := Clock(36000000, 3, k => 86399000 + k * 86400000,
                               s => if s == "1970-01-01" then Some(0) else None, d => d + 86399999);
            AddDateErrorAsWritten("1970-01-01", clock) == Some(PastDateError)
            && clock.endOfDayOf(clock.parse("1970-01-01").value) >= clock.now
  {
  }

  /** The validator as evidently intended: the deadline the date sets, the
      end of its day, must not be before now. */
  function AddDateError(value: string, clock: Clock): (r: Option<string>)
    ensures r.None? <==> value != "" && clock.parse(value).Some? && clock.endOfDayOf(clock.parse(value).value) >= clock.now
    ensures r == Some(PastDateError) <==>
              value != "" && clock.parse(value).Some? && clock.endOfDayOf(clock.parse(value).value) < clock.now
  {
    if value == "" then Some(EmptyDateError)
    else match clock.parse(value)
      case None => Some(InvalidDateError)
      case Some(d) => if clock.endOfDayOf(d) < clock.now then Some(PastDateError) else None
  }

  /** `editTask`'s validator: any valid date, past ones included. */
  function EditDateError(value: string, clock: Clock): (r: Option<string>)
    ensures r.None? <==> value != "" && clock.parse(value).Some?
  {
    if value == "" then Some(EmptyDateError)
    else if clock.parse(value).None? then Some(InvalidDateError)
    else None
  }

  /** The date box of the custom deadline: only a value its validator
      accepts can be submitted, so anything else counts as not submitted. */
  function AcceptedDate(input: Option<string>, error: Option<string>): Option<string>
  {
    if input.Some? && error.None? then input else None
  }

  /** The deadline an add dialog sets: none, a preset, or the end of the
      custom date's day; a custom date box dismissed sets none. */
  function AddDeadline(pick: DeadlinePick, dateInput: Option<string>, clock: Clock): (r: Option<int>)
    ensures pick == NoDeadline ==> r.None?
    ensures PresetDays(pick, clock.weekday).Some? ==> r == Some(clock.endOfDayAhead(PresetDays(pick, clock.weekday).value))
    ensures pick == CustomDate && r.Some? ==> r.value >= clock.now
    ensures pick == CustomDate ==> (r.Some? <==> dateInput.Some? && AddDateError(dateInput.value, clock).None?)
    ensures pick == CustomDate && r.Some? ==>
              dateInput.Some? && clock.parse(dateInput.value).Some?
              && r.value == clock.endOfDayOf(clock.parse(dateInput.value).value)
    ensures pick == KeepCurrent ==> r.None?
  {
    match pick
    case CustomDate =>
      (match AcceptedDate(dateInput, if dateInput.Some? then AddDateError(dateInput.value, clock) else None)
       case None => None
       case Some(v) => Some(clock.endOfDayOf(clock.parse(v).value)))
    case _ =>
      match PresetDays(pick, clock.weekday)
      case Some(k) => Some(clock.endOfDayAhead(k))
      case None => None
  }

  // ---------------------------------------------------------------------
  // The add command.

  /** The answers to `addTask`'s dialogs, in order; `None` where the user
      dismissed one. */
  datatype AddAnswers = AddAnswers(
    title: Option<string>,
    description: Option<string>,
    priority: Option<Priority>,
    file: Option<PickItem>,
    deadline: Option<DeadlinePick>,
    dateInput: Option<string>)

  datatype AddOutcome = AddAborted | Created(tasks: seq<Task>, message: string)

  /** `addTask`: stops at an empty or dismissed title, or a dismissed
      priority, file or deadline list; the description defaults to empty
      and a new task starts pending. */
  function AddTaskCommand(tasks: seq<Task>, a: AddAnswers, editor: Option<EditorInfo>, clock: Clock, id: string): (r: AddOutcome)
    requires a.file.Some? && StartsWith(a.file.value.caption, CurrentFilePrefix) ==> editor.Some?
    ensures r.Created? <==>
              a.title.Some? && a.title.value != "" && a.priority.Some? && a.file.Some? && a.deadline.Some?
    ensures r.Created? ==>
              |r.tasks| == |tasks| + 1 && r.tasks[..|tasks|] == tasks
              && var t := r.tasks[|tasks|];
                 t.id == id && t.title == a.title.value && t.description == a.description.GetOr("")
                 && !t.completed && t.priority == a.priority.value && t.createdAt == clock.now
                 && (t.fileUri, t.lineNumber) == FileChoice(a.file.value, editor)
                 && t.deadline == AddDeadline(a.deadline.value, a.dateInput, clock)
                 && r.message == "Task \"" + t.title + "\" created successfully!"
  {
    if a.title.None? || a.title.value == "" || a.priority.None? || a.file.None? || a.deadline.None? then AddAborted
    else
      var (fileUri, line) := FileChoice(a.file.value, editor);
      var data := TaskData(a.title.value, a.description.GetOr(""), false, a.priority.value,
                           AddDeadline(a.deadline.value, a.dateInput, clock), fileUri, line);
      var added := AddTask(tasks, data, id, clock.now);
      assert added.0[..|tasks|] == tasks;
      Created(added.0, "Task \"" + a.title.value + "\" created successfully!")
  }

  // ---------------------------------------------------------------------
  // The edit command.

  /** The answers to `editTask`'s dialogs, in order. */
  datatype EditAnswers = EditAnswers(
    title: Option<string>,
    description: Option<string>,
    priority: Option<Priority>,
    file: Option<PickItem>,
    deadline: Option<DeadlinePick>,
    dateInput: Option<string>)

  datatype EditOutcome = EditAborted | Updated(tasks: seq<Task>, message: string)

  const UpdatedMessage := "Task updated successfully!"

  /** The deadline an edit dialog sets; `None` when the custom date box is
      dismissed, which ends the command. */
  function EditDeadline(current: Option<int>, pick: DeadlinePick, dateInput: Option<string>, clock: Clock): (r: Option<Option<int>>)
    ensures pick == KeepCurrent ==> r == Some(current)
    ensures pick == NoDeadline ==> r == Some(None)
    ensures PresetDays(pick, clock.weekday).Some? ==> r == Some(Some(clock.endOfDayAhead(PresetDays(pick, clock.weekday).value)))
    ensures r.None? <==> pick == CustomDate && AcceptedDate(dateInput, if dateInput.Some? then EditDateError(dateInput.value, clock) else None).None?
    ensures pick == CustomDate && r.Some? ==>
              dateInput.Some? && clock.parse(dateInput.value).Some?
              && r.value == Some(clock.endOfDayOf(clock.parse(dateInput.value).value))
  {
    match pick
    case KeepCurrent => Some(current)
    case NoDeadline => Some(None)
    case CustomDate =>
      (match AcceptedDate(dateInput, if dateInput.Some? then EditDateError(dateInput.value, clock) else None)
       case None => None
       case Some(v) => Some(Some(clock.endOfDayOf(clock.parse(v).value))))
    case _ => Some(Some(clock.endOfDayAhead(PresetDays(pick, clock.weekday).value)))
  }

  /** The patch `editTask` applies: the new title, description, priority,
      file (cleared by the no-file item) and deadline. */
  function EditPatch(a: EditAnswers, newDeadline: Option<int>): (r: TaskPatch)
    requires a.title.Some? && a.description.Some? && a.priority.Some? && a.file.Some?
    ensures r.id.None? && r.completed.None? && r.createdAt.None? && r.lineNumber.None?
    ensures forall t: Task, now: int {:trigger Apply(t, r, now)} ::
              var u := Apply(t, r, now);
              u.title == a.title.value && u.description == a.description.value
              && u.priority == a.priority.value && u.deadline == newDeadline
              && u.fileUri == (if a.file.value.caption == EditNoFileCaption then None else Some(a.file.value.description))
              && SameButUpdated(u.(title := t.title, description := t.description, priority := t.priority,
                                   deadline := t.deadline, fileUri := t.fileUri), t)
  {
    var newFile := if a.file.value.caption == EditNoFileCaption then None else Some(a.file.value.description);
    TaskPatch(None, a.title, a.description, None, a.priority, None, Some(newDeadline), Some(newFile), None)
  }

  /** `editTask`: stops when no task has the id or any dialog is dismissed
      (an empty title is accepted), otherwise patches that task. */
  function EditTaskCommand(tasks: seq<Task>, id: string, a: EditAnswers, clock: Clock): (r: EditOutcome)
    ensures (!HasId(tasks, id) || a.title.None? || a.description.None? || a.priority.None?
             || a.file.None? || a.deadline.None?) ==> r == EditAborted
    ensures r.Updated? ==>
              r.message == UpdatedMessage
              && var i := FindIndex(tasks, id).value;
                 var nd := EditDeadline(tasks[i].deadline, a.deadline.value, a.dateInput, clock);
                 nd.Some? && r.tasks == UpdateTask(tasks, id, EditPatch(a, nd.value), clock.now).0
    ensures r.Updated? <==>
              HasId(tasks, id) && a.title.Some? && a.description.Some? && a.priority.Some?
              && a.file.Some? && a.deadline.Some?
              && EditDeadline(tasks[FindIndex(tasks, id).value].deadline, a.deadline.value, a.dateInput, clock).Some?
  {
    if !HasId(tasks, id) || a.title.None? || a.description.None? || a.priority.None?
       || a.file.None? || a.deadline.None? then EditAborted
    else
      var i := FindIndex(tasks, id).value;
      match EditDeadline(tasks[i].deadline, a.deadline.value, a.dateInput, clock)
      case None => EditAborted
      case Some(nd) => Updated(UpdateTask(tasks, id, EditPatch(a, nd), clock.now).0, UpdatedMessage)
  }

  /** An edit keeps a task's id, state, creation time and line number
      (even when it moves it to another file or to none) and sets
      the fields asked for. */
  lemma EditKeeps(tasks: seq<Task>, id: string, a: EditAnswers, clock: Clock)
    requires EditTaskCommand(tasks, id, a, clock).Updated?
    ensures var i := FindIndex(tasks, id).value;
            var r := EditTaskCommand(tasks, id, a, clock).tasks;
            |r| == |tasks| && r[i].id == id && r[i].completed == tasks[i].completed
            && r[i].createdAt == tasks[i].createdAt && r[i].lineNumber == tasks[i].lineNumber
            && r[i].title == a.title.value && r[i].description == a.description.value
            && r[i].priority == a.priority.value && r[i].updatedAt == clock.now
            && (a.file.value.caption == EditNoFileCaption ==> r[i].fileUri.None?)
            && (a.file.value.caption != EditNoFileCaption ==> r[i].fileUri == Some(a.file.value.description))
            && r[i].deadline == EditDeadline(tasks[i].deadline, a.deadline.value, a.dateInput, clock).value
            && forall k :: 0 <= k < |tasks| && k != i ==> r[k] == tasks[k]
  {
  }

  // ---------------------------------------------------------------------
  // The sort command.

  /** The icon in front of a mode in the sort list. */
  function SortMarker(m: SortMode): char
  {
    match m
    case ByCreation => '📅'
    case ByPriority => '🎯'
    case ByName => '🔤'
    case ByStatus => '✅'
    case ByDeadline => '⏰'
  }

  /** A mode's entry in the sort list: its icon, a space and its name. */
  function SortLabel(m: SortMode): string
  {
    [SortMarker(m)] + " " + SortName(m)
  }

  /** The length of the maximal non-white-space prefix. */
  function NonSpaceRun(s: string): (k: nat)
    ensures k <= |s|
    ensures forall i :: 0 <= i < k ==> !IsSpace(s[i])
    ensures k < |s| ==> IsSpace(s[k])
  {
    if |s| > 0 && !IsSpace(s[0]) then 1 + NonSpaceRun(s[1..]) else 0
  }

  /** `s.replace(/^\S+\s/, '')`. */
  function DropFirstWord(s: string): (r: string)
    ensures var k := NonSpaceRun(s); 0 < k < |s| ==> r == s[k + 1..]
    ensures var k := NonSpaceRun(s); !(0 < k < |s|) ==> r == s
  {
    var k := NonSpaceRun(s);
    if 0 < k < |s| then s[k + 1..] else s
  }

  /** A one-character marker and a space come off. */
  lemma DropMarker(c: char, rest: string)
    requires !IsSpace(c)
    ensures DropFirstWord([c] + " " + rest) == rest
  {
    var s := [c] + " " + rest;
    assert s[1..] == " " + rest;
    assert NonSpaceRun(s[1..]) == 0;
  }

  /** `toggleSort`: a chosen mode becomes the current one (and is saved);
      dismissing the list changes nothing. */
  function ToggleSort(current: SortMode, selected: Option<SortMode>): (r: (SortMode, Option<string>))
    ensures selected.None? ==> r == (current, None)
    ensures selected.Some? ==> r.0 == selected.value && r.1 == Some("Tasks sorted by " + DropFirstWord(SortLabel(selected.value)))
  {
    match selected
    case None => (current, None)
    case Some(m) => (m, Some("Tasks sorted by " + DropFirstWord(SortLabel(m))))
  }

  /** The name of a mode in the sort list, after its marker. */
  function SortName(m: SortMode): string
  {
    match m
    case ByCreation => "Date of Creation"
    case ByPriority => "Priority"
    case ByName => "Name"
    case ByStatus => "Status"
    case ByDeadline => "Deadline"
  }

  /** The message names the mode without its marker. */
  lemma ToggleSortMessage(current: SortMode, m: SortMode)
    ensures ToggleSort(current, Some(m)).1 == Some("Tasks sorted by " + SortName(m))
  {
    assert !IsSpace(SortMarker(m));
    DropMarker(SortMarker(m), SortName(m));
  }
}

=== FILE: words.dfy ===
/** Regular-expression searches the providers build at run time: a literal
    word between `\b` anchors, found once (`replace`) or repeatedly with a
    global `exec` loop, and the first run of digits (`/\d+/`). */
module Words {
  import opened Wrappers
  import opened Text

  /** `\b` holds at index `i` (between `s[i-1]` and `s[i]`): exactly one
      side is a word character, the ends of the string counting as
      non-word. */
  predicate Boundary(s: string, i: int)
  {
    (0 < i <= |s| && IsWordChar(s[i - 1])) != (0 <= i < |s| && IsWordChar(s[i]))
  }

  /** `\bw\b` matches at `i`. */
  predicate WholeWordAt(s: string, w: string, i: int)
  {
    OccursAt(s, w, i) && Boundary(s, i) && Boundary(s, i + |w|)
  }

  /** No match of `\bw\b` starts in `[lo, hi)`. */
  predicate NoWholeWordBetween(s: string, w: string, lo: int, hi: int)
  {
    forall i :: lo <= i < hi ==> !WholeWordAt(s, w, i)
  }

  /** No match of `\bw\b` starts at or after `lo`. */
  ghost predicate NoWholeWordFrom(s: string, w: string, lo: int)
  {
    forall i :: lo <= i ==> !WholeWordAt(s, w, i)
  }

  /** The leftmost match of `\bw\b` at or after `from`. */
  function FirstWholeWord(s: string, w: string, from: nat): (r: Option<nat>)
    ensures r.Some? ==> from <= r.value && WholeWordAt(s, w, r.value)
    ensures r.Some? ==> NoWholeWordBetween(s, w, from, r.value)
    ensures r.None? ==> NoWholeWordFrom(s, w, from)
    decreases |s| + 1 - from
  {
    if from > |s| then None
    else if WholeWordAt(s, w, from) then Some(from)
    else FirstWholeWord(s, w, from + 1)
  }

  /** `s` with the `n` characters from index `i` replaced. */
  function Splice(s: string, i: nat, n: nat, replacement: string): string
    requires i + n <= |s|
  {
    s[..i] + replacement + s[i + n..]
  }

  /** `s.replace(new RegExp('\\b' + w + '\\b'), replacement)`. */
  function ReplaceFirstWholeWord(s: string, w: string, replacement: string): (r: string)
    ensures FirstWholeWord(s, w, 0).None? ==> r == s
    ensures FirstWholeWord(s, w, 0).Some? ==> |r| == |s| - |w| + |replacement|
  {
    match FirstWholeWord(s, w, 0)
    case None => s
    case Some(i) => Splice(s, i, |w|, replacement)
  }

  /** Replacing the first whole-word occurrence, once its index is known. */
  lemma ReplaceKnownFirst(s: string, w: string, replacement: string, i: nat, t: string)
    requires FirstWholeWord(s, w, 0) == Some(i)
    requires i + |w| <= |s| && t == Splice(s, i, |w|, replacement)
    ensures ReplaceFirstWholeWord(s, w, replacement) == t
  {
  }

  /** A replaced first whole-word occurrence leaves the text before and
      after it alone and puts the replacement exactly where the word was. */
  lemma ReplaceFirstWholeWordPlaces(s: string, w: string, replacement: string)
    requires FirstWholeWord(s, w, 0).Some?
    ensures var i := FirstWholeWord(s, w, 0).value;
            var r := ReplaceFirstWholeWord(s, w, replacement);
            OccursAt(r, replacement, i) && r[..i] == s[..i]
            && r[i + |replacement|..] == s[i + |w|..]
            && forall j :: 0 <= j < i ==> !WholeWordAt(s, w, j)
  {
    var i := FirstWholeWord(s, w, 0).value;
    var r := ReplaceFirstWholeWord(s, w, replacement);
    assert r[i..i + |replacement|] == replacement;
    assert r[i + |replacement|..] == s[i + |w|..];
  }

  /** Every index of `r` is a whole-word match at or after `from`. */
  predicate MatchesFrom(s: string, w: string, from: int, r: seq<nat>)
  {
    forall k :: 0 <= k < |r| ==> from <= r[k] && WholeWordAt(s, w, r[k])
  }

  /** Each reported match ends before any later one starts. */
  predicate Disjoint(r: seq<nat>, w: string)
  {
    forall a, b :: 0 <= a < b < |r| ==> r[a] + |w| <= r[b]
  }

  /** The indices a global `exec` loop reports for `\bw\b` from `from` on:
      each search resumes where the previous match ended. */
  function WholeWordMatches(s: string, w: string, from: nat): (r: seq<nat>)
    requires |w| > 0
    ensures MatchesFrom(s, w, from, r)
    ensures Disjoint(r, w)
    decreases |s| + 1 - from
  {
    match FirstWholeWord(s, w, from)
    case None => []
    case Some(i) =>
      var rest := WholeWordMatches(s, w, i + |w|);
      assert forall b :: 0 <= b < |rest| ==> i + |w| <= rest[b];
      [i] + rest
  }

  /** Index `i` lies inside one of the reported matches. */
  predicate Covered(r: seq<nat>, w: string, i: int)
  {
    exists k :: 0 <= k < |r| && r[k] <= i < r[k] + |w|
  }

  /** No match is skipped: every whole-word occurrence from `from` on is
      reported or lies inside a reported one. */
  lemma {:induction false} WholeWordMatchesComplete(s: string, w: string, from: nat, j: nat)
    requires |w| > 0
    requires from <= j && WholeWordAt(s, w, j)
    ensures Covered(WholeWordMatches(s, w, from), w, j)
    decreases |s| + 1 - from
  {
    var first := FirstWholeWord(s, w, from);
    assert first.Some?;
    var i := first.value;
    assert i <= j;
    var rest := WholeWordMatches(s, w, i + |w|);
    var r := WholeWordMatches(s, w, from);
    assert r == [i] + rest;
    if j < i + |w| {
      assert r[0] <= j < r[0] + |w|;
    } else {
      WholeWordMatchesComplete(s, w, i + |w|, j);
      CoveredCons(i, rest, w, j);
    }
  }

  /** Reporting one more match keeps every covered index covered. */
  lemma CoveredCons(i: nat, rest: seq<nat>, w: string, j: int)
    requires Covered(rest, w, j)
    ensures Covered([i] + rest, w, j)
  {
    var k :| 0 <= k < |rest| && rest[k] <= j < rest[k] + |w|;
    assert ([i] + rest)[k + 1] == rest[k];
  }

  /** No decimal digit among the first `n` characters of `s`. */
  predicate NoDigitBefore(s: string, n: int)
  {
    forall j :: 0 <= j < n && j < |s| ==> !IsDigit(s[j])
  }

  /** Where a run of characters starts and how long it is. */
  datatype Span = Span(start: nat, len: nat)

  /** The first maximal run of digits. */
  function FirstDigitRun(s: string): (r: Option<Span>)
    ensures r.Some? ==> r.value.start + r.value.len <= |s| && r.value.len > 0
                        && r.value.len == DigitRun(s[r.value.start..])
                        && NoDigitBefore(s, r.value.start)
    ensures r.None? ==> NoDigitBefore(s, |s|)
    decreases |s|
  {
    if |s| == 0 then None
    else if IsDigit(s[0]) then Some(Span(0, DigitRun(s)))
    else
      match FirstDigitRun(s[1..])
      case None => None
      case Some(sp) =>
        assert s[sp.start + 1..] == s[1..][sp.start..];
        Some(Span(sp.start + 1, sp.len))
  }

  /** Replacing the first digit run, once its place is known. */
  lemma ReplaceKnownDigitRun(s: string, replacement: string, i: nat, n: nat, t: string)
    requires FirstDigitRun(s) == Some(Span(i, n))
    requires t == Splice(s, i, n, replacement)
    ensures ReplaceFirstDigitRun(s, replacement) == t
  {
  }

  /** `s.replace(/\d+/, replacement)`. */
  function ReplaceFirstDigitRun(s: string, replacement: string): (r: string)
    ensures FirstDigitRun(s).None? ==> r == s
    ensures FirstDigitRun(s).Some? ==> |r| < |s| + |replacement|
  {
    match FirstDigitRun(s)
    case None => s
    case Some(sp) => Splice(s, sp.start, sp.len, replacement)
  }
}

=== FILE: wrappers.dfy ===
/** Optional values and error-or-value results, used wherever the program
    returns `undefined`, `null` or rejects a promise. */
module Wrappers {

  datatype Option<+T> = None | Some(value: T) {

    /** The value, or `default` when there is none (JavaScript's `x || default`
        for values that cannot be falsy). */
    function GetOr(default: T): T
    {
      match this
      case Some(v) => v
      case None => default
    }
  }

  datatype Result<+R, +E> = Ok(value: R) | Err(error: E)
}
